=== FILE: README.md ===
# SIP call-log analyzer: a Dafny model of the extraction and analysis core

The system reads a raw text log of a mobile voice call and builds a structured
report from it. The log is the grep output of an IMS core, with SIP messages,
Diameter charging dumps and PGW session lines.

The parser (`backend/parser.py`) works as follows:
- It re-splits headers that capture tools glued onto one line.
- It cuts the log into `(timestamp, module, body)` blocks.
- It reads each block into five lists: a timeline event, participant sightings, `P-RTP-Stat` media samples, anomalies, and SDP offers and answers.

The analyzer (`backend/analyzer.py`) takes the caller's and callee's numbers and IMSIs from the request. With them it:
- filters the timeline to the call;
- builds the participant roster;
- judges why the call ended from its first BYE;
- measures ring time, answer time and call duration from the first events of the anchored call;
- optionally adds the SDP summary, the PGW events and a routing trace.

Each source function is a pure Dafny function over immutable datatypes; the
records of `backend/models.py` are the datatypes of `models.dfy`. Every regular
expression is a hand-written matcher anchored at a start index
(`Scan.Matcher`). Generic leftmost search (`Scan.Search`) and `finditer`
(`Scan.FindAll`) are built on top of the matchers, and each matcher's contract
pins what it captures.

Modules follow the source:

| module | source |
|---|---|
| `HeaderNormalizer`, `BlockSplitter` | `_normalize`, `BLOCK_RE`, `_extract_blocks` |
| `Classifier` | `_first_line`, `_direction`, the method and status tests |
| `Numbers` | `_normalize_number` |
| `SipFields`, `MediaFields`, `ChargingFields` | the field patterns |
| `Timeline`, `Participants`, `Rtp`, `Anomalies`, `Sdp` | the parser passes |
| `Parser` | `parse_log` |
| `Timestamps` | `_ts` |
| `Relevance` | hint normalisation, `_is_relevant`, `_filter_timeline` |
| `Roster` | `_build_participants` |
| `Bye` | `_analyze_bye` |
| `Durations` | `fmt` |
| `Timing` | `_timing` |
| `Routing` | `_routing` |
| `Analyzer` | `analyze` |

`Wrappers`, `Text`, `Seqs` and `Scan` hold the shared helpers.

Some behaviours of the code that a reader might not expect, all modelled as written:

- **Normaliser.** Normalising twice is not the same as normalising once. Every whitelisted header gets a newline in front of it, including a header that already starts a line (backend/parser.py:28-37, `HeaderNormalizer.NormalizeNotIdempotent`).
- **Codec.** The whole log is searched once for a codec announcement, and every RTP row carries the first one found (backend/parser.py:150-201, `Rtp.ParseRtp`).
- **Answer milestone.** An event counts as the answer only when its description contains the word `INVITE` (backend/analyzer.py:234-235, `Timing.NoAnswerWithoutInviteText`). A `200 OK` event's description holds only its From, To and Call-ID parts, so such an event is the answer only when its Call-ID text happens to contain `INVITE`.
- **Reason header.** The cause of a `Reason` header is reported as written, for example `Reason header: Q.850;cause=16`. Only the `X-Asterisk-HangupCauseCode` header is looked up in the Q.850 table, and a code missing from the table reads `Unknown cause` (backend/analyzer.py:166-177, `Bye.CodeNote`).
- **PGW section.** A request with `+pgw` or `+full` raises an error instead of returning the PGW events (backend/analyzer.py:43; see Findings).
- **Durations.** The spans are shown with the minutes split off before the seconds are rounded, so a remainder of 59.95 s or more is shown as `60.0s` (backend/analyzer.py:240-245; see Findings). `Analyzer.Analyze` keeps this display, and `Analyzer.AnalyzeCorrected` rounds first.

## Model

| member | source | states |
|---|---|---|
| HeaderNormalizer.HeaderLenSpec | backend/parser.py:31-35 | a match at the start of a text is one whitelisted name, its colon and one whitespace character; with no match, no whitelisted name fits there |
| HeaderNormalizer.DeleteInsertedRoundTrip | backend/parser.py:30-37 | for any start-anchored pattern, the left-to-right substitution only inserts: deleting the flagged newlines gives the input back, with one insertion per match the scan finds |
| HeaderNormalizer.NormalizeRoundTrip | backend/parser.py:28-37 | removing the newlines `_normalize` inserted gives its input back |
| HeaderNormalizer.NormalizeLength | backend/parser.py:28-37 | the output is exactly one character longer than the input per header found |
| HeaderNormalizer.InsertedBeforeHeader | backend/parser.py:30-36 | every inserted newline stands immediately before a whitelisted header of the original text |
| HeaderNormalizer.InsertedIsNewline | backend/parser.py:36 | every inserted character is a newline, followed by an original character |
| HeaderNormalizer.NormalizeNotIdempotent | backend/parser.py:28-37 | one pass turns `To: 1` into `\nTo: 1`, a second into `\n\nTo: 1`: the normaliser is not idempotent |
| BlockSplitter.TsAt | backend/parser.py:6 | a timestamp match has the fixed `dddd-dd-dd_dd:dd:dd.` shape, a digit fraction taken greedily, and the absence of a match means the shape or the first fraction digit is missing |
| BlockSplitter.BodyEnd | backend/parser.py:24 | the lazy body ends at the first timestamp-and-module header at or after its start, or at the end of the text, and contains no header start before that |
| BlockSplitter.BlockAt | backend/parser.py:22-26 | a block match starts at a header, its body is the text between the header line and the next header start or the end, with no header start inside, and its timestamp is the one at the start |
| BlockSplitter.BlockMatches | backend/parser.py:42 | the matches are `BLOCK_RE` matches at strictly increasing header starts |
| BlockSplitter.NonBlankMembers | backend/parser.py:43-45 | a block is kept exactly when it is one of the matches and its body is not blank |
| BlockSplitter.NonBlankAppend | backend/parser.py:42-45 | dropping blank blocks commutes with concatenation, so the kept blocks stay in log order |
| BlockSplitter.ExtractBlocks | backend/parser.py:39-46 | every body is stripped and non-empty, and there are no more blocks than matches of the normalised log |
| BlockSplitter.ExtractBlocksSpec | backend/parser.py:39-46 | every match whose stripped body is non-empty yields its block, and every block comes from a match |
| Classifier.FirstLine | backend/parser.py:48-53 | the result is empty or a stripped line that is not a `-----` separator |
| Classifier.FirstKeptLineSpec | backend/parser.py:48-53 | the result is empty exactly when every line is blank or a separator, and otherwise it is the stripped first line that is neither |
| Classifier.HeadLine | backend/analyzer.py:125 | the head line is empty exactly for a blank body, is a prefix of the stripped body and holds no line break |
| Classifier.Direction | backend/parser.py:55-59 | `OUT` exactly when `sending` is among the first 200 characters, `IN` exactly when only `received` is, the arrow otherwise |
| Classifier.DirectionIgnoresTail | backend/parser.py:56 | text after the first 200 characters never changes the direction |
| Classifier.RequestMethod | backend/parser.py:76-79 | the method found is one of the twelve and the line opens with it and whitespace; none is found exactly when no method fits |
| Classifier.RequestMethodIff | backend/parser.py:76-79 | a line is labelled with method `m` exactly when it opens with `m` and whitespace, so the order the methods are tried in does not matter |
| Classifier.StatusLine | backend/parser.py:81 | a status line starts with `SIP/2.0`, has a three-digit code after the whitespace and a non-empty reason phrase without line breaks |
| Classifier.MethodLabel | backend/parser.py:74-85 | the label is the request method, else the code and the first thirty reason characters, else `INTERNAL`, and is `INTERNAL` exactly when the line is neither a request nor a status line |
| Numbers.NormalizeNumber | backend/parser.py:61-67 | the result has no leading zero and is either a suffix of the input or `41` followed by the input's last nine characters |
| Numbers.NormalizeNumberCases | backend/parser.py:61-67 | exactly nine characters after the leading zeros get `41` in front; anything else is the input without its leading zeros |
| Numbers.NormalizeNumberIdempotent | backend/parser.py:61-67 | normalising twice is normalising once |
| SipFields.NumberAfterAt | backend/parser.py:8-9 | a From/To/P-Asserted-Identity match needs the header name there and captures a non-empty digit string |
| SipFields.NumberAfterAtReads | backend/parser.py:8-9 | a header written as name, spaces, an optional `<`, `sip:` or `tel:`, an optional `+` and digits is read back as exactly those digits |
| SipFields.TextAfterAt | backend/parser.py:10-11 | a User-Agent/Reason capture is non-empty, holds no stop character, follows only whitespace after the name and ends at a stop character or the end |
| SipFields.TextAfterAtReads | backend/parser.py:10-11 | a header written as name, one optional space and a value without stop characters is read back as that value |
| SipFields.ContactIpAt | backend/parser.py:16 | the Contact address is the maximal run of digits and dots right after an `@` |
| SipFields.TokenAfterAt | backend/parser.py:97 | a Call-ID capture is a maximal non-empty run of non-whitespace after the name |
| SipFields.BranchAt | backend/parser.py:206 | a branch capture starts with the `z9hG4bK` cookie, has at least one more character and is a maximal non-whitespace run |
| SipFields.LineHeaderAt | backend/analyzer.py:254-255 | a Via/Route capture starts a line, holds no line break and runs to the end of its line |
| MediaFields.RtpStatAt | backend/parser.py:12-15 | a `P-RTP-Stat` match, name case-insensitive, captures exactly seven counters |
| MediaFields.RtpStatReads | backend/parser.py:12-15 | a header written as `P-RTP-Stat: PS=..,OS=..,…,JI=..` is read back as its seven digit strings |
| MediaFields.CodecAt | backend/parser.py:155-158 | a codec announcement captures a non-empty name without whitespace or quotes, ending at one of those or the end |
| MediaFields.RtpmapAt | backend/parser.py:300 | an `a=rtpmap` capture is the non-empty encoding name up to a slash or line break |
| ChargingFields.SubscriptionIdAt | backend/parser.py:220-230 | a subscription-id match has the typed opening tag, then a non-empty digit string in the data element |
| ChargingFields.RequestTypeAt | backend/parser.py:232-235 | a request type is a non-empty word between the two `CcRequestType` tags |
| ChargingFields.ServiceContextAt | backend/parser.py:237-240 | a service context is the non-empty digit string before the `@` |
| ChargingFields.SessionImsiAt | backend/parser.py:243 | a session IMSI is exactly fifteen digits after `pgw_session` and a run of separators |
| ChargingFields.SessionImsiReads | backend/parser.py:243 | a line written as `pgw_session`, separators and a fifteen-digit IMSI is read back as the IMSI |
| ChargingFields.HangupCauseAt | backend/analyzer.py:162 | the hang-up cause is the non-empty rest of the line after the header and its separators |
| ChargingFields.HangupCauseCodeAt | backend/analyzer.py:163 | the cause code is the maximal digit run after the header and its separators |
| ChargingFields.LongDigitsFrom | backend/analyzer.py:181 | the leftmost run of at least fifteen digits from a position, taken whole; none exactly when no such run starts there or later |
| ChargingFields.TeardownAt | backend/analyzer.py:179-182 | a teardown match starts with a log timestamp, contains `pgw/session/delete` and captures an IMSI of at least fifteen digits |
| Timeline.HeadersOfWellFormed | backend/parser.py:88-97 | the From and To captures are digit strings and the Call-ID is a non-empty token without whitespace |
| Timeline.DescriptionParts | backend/parser.py:90-98 | the description has no parts exactly when the body has no From, To or Call-ID |
| Timeline.DescribedNumbers | backend/parser.py:90-99 | the From and To numbers of a body appear in its event description |
| Timeline.DescribedCallIdReads | backend/parser.py:97-99 | the timing pass's Call-ID search reads back exactly the thirty-character Call-ID the description wrote |
| Timeline.DescribedWithoutCallId | backend/parser.py:90-99 | a description built from numbers only has no Call-ID for the timing pass to find |
| Timeline.ParseTimeline | backend/parser.py:69-107 | one event per block, in block order, each carrying its block's timestamp |
| Participants.Device | backend/parser.py:118-128 | the device is the stripped User-Agent, present exactly when there is one that does not name YATE |
| Participants.NumberSightings | backend/parser.py:130-136 | every sighting carries the block's device and IP, and there are no more sightings than captures |
| Participants.NumberSightingsHold | backend/parser.py:130-136 | every capture of seven to fifteen digits is sighted with its normalised number |
| Participants.Fill | backend/parser.py:145-146 | a truthy field is kept, an empty one takes a truthy new value |
| Participants.SettledSnoc | backend/parser.py:145-146 | the fill rule and "first truthy report, else the first report" agree at every step |
| Participants.RecordStep | backend/parser.py:137-146 | one loop step keeps the dictionary equal to the reference summary |
| Participants.RecordAllIsReference | backend/parser.py:110-146 | the loop yields one entry per distinct normalised number, in first-seen order, each the summary of its sightings |
| Participants.ParseParticipantsSpec | backend/parser.py:109-148 | the participants are the summaries of the distinct normalised numbers, in the order first seen |
| Rtp.BlockSamples | backend/parser.py:163-181 | a block gives one sample per `P-RTP-Stat` match, in text order, each carrying that match's seven counters and the normalised first From and To numbers of the block |
| Rtp.Rows | backend/parser.py:184-200 | one row per kept sample, carrying its seven counters and the log's codec, labelled `+from`, else `+to`, else `Leg n` for its one-based position |
| Rtp.ParseRtp | backend/parser.py:150-201 | one row per kept sample, in order: row `k` carries the counters of the `k`-th kept sample and its leg label for position `k`, and every row carries the codec of the whole log |
| Rtp.KeepFirstKeys | backend/parser.py:168-173 | the kept samples' counter tuples are the input's tuples with repeats removed, first occurrence first |
| Rtp.KeepFirstIsFirst | backend/parser.py:168-182 | each kept sample is the first sample with its counters, so its numbers come from that block |
| Rtp.ParseRtpDistinct | backend/parser.py:150-201 | no two rows carry the same seven counters, and every sample's counters appear in some row |
| Rtp.LegCases | backend/parser.py:185-191 | the leg is `+` and the From number, else `+` and the To number, else `Leg n` with n the one-based row position |
| Rtp.CodecIsCaptured | backend/parser.py:155-159 | the codec is exactly the name the first announcement captures, and absent exactly when there is none |
| Anomalies.ServiceName | backend/parser.py:255-262 | a service code outside the three known ones is shown as the code itself |
| Anomalies.ChargedImsi | backend/parser.py:219-247 | the IMSI is the XML subscription IMSI when the body has one, and only otherwise the fifteen digits after `pgw_session` |
| Anomalies.ServiceOf | backend/parser.py:237-262 | a service is named exactly when the body has a service context, and it is that context spelled out |
| Anomalies.ChargingDetail | backend/parser.py:217-262 | a charging rejection has at most four detail parts |
| Anomalies.ChargingDetailShows | backend/parser.py:217-262 | an `IMSI: v`, `MSISDN: +v`, `type: v` or `service: v` part is given exactly when the body shows `v` as that item |
| Anomalies.ChargingDetailOrder | backend/parser.py:243-262 | the parts come in the order IMSI, MSISDN, request type, service, each at most once |
| Anomalies.DetailText | backend/parser.py:264 | the detail text is empty exactly when there are no detail parts |
| Anomalies.BlockFlags | backend/parser.py:210-268 | the SSRC, network-down and L_Cancel anomalies are reported exactly when their words are in the block |
| Anomalies.BlockCarried | backend/parser.py:212-265 | a 5xx line is reported exactly for a 5xx first line, cut to eighty characters, and a charging failure exactly for a quota or rejected-initial body |
| Anomalies.BlockReports | backend/parser.py:208-268 | a block's line for an anomaly is in its report exactly when the anomaly is |
| Anomalies.TextInjective | backend/parser.py:211-268 | distinct anomalies have distinct texts |
| Anomalies.TallyIsCount | backend/parser.py:269-273 | the branch dictionary holds each branch once, in first-seen order, with the number of INVITE blocks that carried it |
| Anomalies.RetransmissionLinesSpec | backend/parser.py:275-277 | a retransmission line is given exactly for a branch counted more than once |
| Anomalies.RetransmittedIff | backend/parser.py:269-279 | `INVITE retransmitted nx for branch b` is reported exactly when more than one INVITE block carried `b`, n being their number |
| Anomalies.ParseAnomalies | backend/parser.py:203-279 | the anomaly list has no repeats |
| Anomalies.BlockLinesMembers | backend/parser.py:208-266 | a line is among the block lines exactly when some block reports it |
| Anomalies.ParseAnomaliesMembers | backend/parser.py:203-279 | the anomaly list holds exactly the lines some block reports and the retransmission lines |
| Anomalies.ParseAnomaliesOrder | backend/parser.py:208-279 | the block lines come first, in the order they are first reported; after them come only retransmission lines no block reported; the whole list keeps the order of first occurrence |
| Sdp.Agent | backend/parser.py:296-299 | the agent is `unknown` without a User-Agent, the proxy label when it names YATE, the stripped value otherwise |
| Sdp.CodecNames | backend/parser.py:300-301 | the codec names of a body have no repeats |
| Sdp.OfferOrAnswer | backend/parser.py:303-306 | no first line is both an offer and an answer, so the `elif` loses no entry |
| Sdp.EntriesMembers | backend/parser.py:294-306 | an entry is listed exactly when some block carries SDP with the right first line |
| Sdp.ParseSdp | backend/parser.py:292-307 | the offers are the first two offer entries, or all of them when there are fewer, and likewise the answers; every codec list is free of repeats |
| Sdp.SdpSettled | backend/parser.py:307 | once two offers and two answers are seen, later blocks cannot change the summary |
| Parser.ParseLog | backend/parser.py:309-319 | every pass reads the same stripped, non-empty blocks: one timeline event per block with its timestamp, no repeated anomaly, every RTP row with the log's codec, at most two SDP offers and answers |
| Timestamps.FieldsOf | backend/analyzer.py:7-11 | text parses into fields exactly when it has the timestamp shape and one to six fraction digits, the fraction padded to microseconds |
| Timestamps.Ts | backend/analyzer.py:9-11 | a timestamp parses exactly when its fields form a real calendar instant, giving a non-negative count of microseconds |
| Timestamps.TsOrder | backend/analyzer.py:189 | parsed instants compare exactly as their calendar fields, so `pgw_ts <= bye_ts` is chronological order |
| Relevance.HintNorm | backend/analyzer.py:19-20 | a normalised hint has no leading zero |
| Relevance.Relevant | backend/analyzer.py:25 | the relevant set is exactly the non-empty hints |
| Relevance.FilterTimeline | backend/analyzer.py:27-28 | with no hint the timeline is unchanged, and it never grows |
| Relevance.FilterTimelineMembers | backend/analyzer.py:48-72 | with hints, an event stays exactly when it is internal or `_is_relevant` holds for its description |
| Relevance.FilterTimelineAppend | backend/analyzer.py:57-72 | the filter works event by event, keeping the order |
| Relevance.FilterTimelineIdempotent | backend/analyzer.py:57-72 | filtering twice with the same hints filters once |
| Roster.FindDevice | backend/analyzer.py:79-85 | without a detected party of that number the device and address are both absent |
| Roster.FindDeviceFirst | backend/analyzer.py:79-85 | the device and address are those of the first detected party with that normalised number |
| Roster.BuildParticipants | backend/analyzer.py:74-120 | with hints, one party per given hint; in open mode, no two parties share a normalised number |
| Roster.OpenRosterMembers | backend/analyzer.py:113-118 | in open mode a detected party is listed exactly when no earlier one has its normalised number |
| Roster.OpenRosterComplete | backend/analyzer.py:113-118 | in open mode every normalised number detected is listed |
| Roster.ShownNumberKey | backend/analyzer.py:92 | the number a named party is shown with normalises back to the hint's normalised number |
| Roster.NamedParty | backend/analyzer.py:88-97 | a named party has its role, a `+` number matching the hint and the first detected device of that number |
| Roster.NamedRoles | backend/analyzer.py:87-109 | with hints the caller comes first and the callee last |
| Bye.ByeIndex | backend/analyzer.py:123-136 | the chosen block is the first BYE request that names the caller or callee, or the first BYE when no hint is given |
| Bye.SenderNum | backend/analyzer.py:143 | the sender is `unknown` without a From number, otherwise a normalised number |
| Bye.RoleShows | backend/analyzer.py:146-151 | the role reads `Caller (` exactly for the caller's number, `Callee (` exactly for the callee's, and `+number` otherwise |
| Bye.ReasonText | backend/analyzer.py:144 | a reason is given exactly when the header is there, stripped |
| Bye.CauseName | backend/analyzer.py:166-176 | a code is named `Unknown cause` exactly when the Q.850 table lacks it |
| Bye.Labelled | backend/analyzer.py:154-155 | a labelled note is given exactly when its value is there and opens with its label |
| Bye.CodeNote | backend/analyzer.py:166-177 | the Q.850 note is given exactly when a cause code is there |
| Bye.Evidence | backend/analyzer.py:195-203 | the evidence is non-empty, repeat-free and holds exactly the notes found, or the default note when none was found |
| Bye.Judge | backend/analyzer.py:139-204 | the snippet is at most 700 characters of the stripped body's start, and the evidence is non-empty without repeats |
| Bye.AnalyzeBye | backend/analyzer.py:122-204 | there is a judgment exactly when a BYE of the call exists, and its snippet comes from that first BYE |
| Bye.HeaderNotesOpenings | backend/analyzer.py:153-177 | no note read from the BYE or the blocks opens with `N` or `P` |
| Bye.DefaultIffNothingFound | backend/analyzer.py:195-196 | the default note stands exactly when nothing else was found |
| Bye.TeardownNoteInjective | backend/analyzer.py:191 | the IMSI can be read back from a teardown note |
| Bye.TeardownEvidence | backend/analyzer.py:179-193 | a PGW note names an IMSI exactly when some log line shows that session deleted no later than the BYE, for the call's IMSIs or any IMSI when none is given |
| Bye.ReasonLeads | backend/analyzer.py:153-203 | a Reason header's note is the first evidence item |
| Bye.SenderShown | backend/analyzer.py:140-200 | the sender number is `+` and a normalised number or `unknown`, and the role equals it exactly when it is neither hint |
| Durations.Decimal | backend/analyzer.py:245 | a `:.1f` rendering starts with a digit |
| Durations.FmtAsWritten | backend/analyzer.py:240-245 | as written: nothing exactly for no span or a span over an hour |
| Durations.Fmt | backend/analyzer.py:240-245 | nothing exactly for no span or a span over an hour, and a negative span keeps its sign |
| Durations.FmtReadsBack | backend/analyzer.py:240-245 | every non-negative span up to an hour is shown, and the display reads back as the span rounded to tenths |
| Durations.AsWrittenShowsSixtySeconds | backend/analyzer.py:245 | 119.96 s is shown as `1m 60.0s` by the source and as `2m 0.0s` once rounded first |
| Durations.SixtySecondsUnreadable | backend/analyzer.py:245 | `1m 60.0s` is no clock reading: its seconds reach sixty |
| Durations.FmtAgrees | backend/analyzer.py:240-245 | the two displays agree whenever the remainder is short of 59.95 s |
| Timing.AnchorOf | backend/analyzer.py:210-218 | without an INVITE there is no anchor Call-ID and no INVITE time |
| Timing.FirstTime | backend/analyzer.py:220-238 | a milestone is absent exactly when no parsable event of the call marks it |
| Timing.WalkField | backend/analyzer.py:220-238 | the loop keeps a preset milestone and otherwise finds the first qualifying event |
| Timing.MilestoneIsFirst | backend/analyzer.py:209-238 | every milestone, INVITE included, is the time of the first event of the anchored call that marks it |
| Timing.Span | backend/analyzer.py:248-250 | a span exists exactly when both milestones do |
| Timing.RawSpec | backend/analyzer.py:206-251 | duration is answer to hang-up, answer time and ring time run from the INVITE, each over the first events of the call |
| Timing.TimingSpec | backend/analyzer.py:206-251 | each shown span is the formatter applied to the span between the first events of the call that mark its two ends |
| Timing.NoAnswerWithoutInviteText | backend/analyzer.py:234-235 | without `INVITE` in any description there is neither a call duration nor an answer time, under either display |
| Routing.HopLines | backend/analyzer.py:264-265 | one indented line per header value, in order |
| Routing.Head | backend/analyzer.py:263 | the entry opens with the bracketed timestamp and at most seventy characters of the head line |
| Routing.RoutingOf | backend/analyzer.py:253-267 | at most one entry per block |
| Routing.HopsContain | backend/analyzer.py:264-265 | every value of a header shows in the joined lines |
| Routing.LayoutShowsHops | backend/analyzer.py:263-265 | an entry opens with its head, lists every Via value and after them every Route value |
| Routing.EntryShowsHops | backend/analyzer.py:257-266 | a block's entry lists each of its Via values and then each of its Route values |
| Routing.RoutingMembers | backend/analyzer.py:257-266 | an entry is reported exactly for an INVITE, BYE or CANCEL block with a Via or Route line |
| Routing.RoutingAppend | backend/analyzer.py:253-267 | the pass reads each block alone, keeping block order |
| Analyzer.Flags | backend/analyzer.py:15 | the flags are the request's flags lower-cased, none when the request has none |
| Analyzer.HintsOf | backend/analyzer.py:19-22 | the normalised caller and callee hints have no leading zero |
| Analyzer.Report | backend/analyzer.py:27-46 | the timeline is the parsed one filtered by the hints; the participants, the BYE judgment and the routing entries are those built from the parsed log and the normalised hints; SDP and routing sections appear exactly when their flag or `+full` is given; RTP stats and anomalies pass through unchanged; the three spans are those of the timeline shown, in the given display |
| Analyzer.Analyze | backend/analyzer.py:13-46 | as written: the analysis fails exactly when `+pgw` or `+full` is given; otherwise it never shows PGW events, takes every other section from the parsed log, and shows the spans with the minutes split off before rounding |
| Analyzer.AnalyzeCorrected | backend/analyzer.py:13-46 | PGW events, SDP and routing appear exactly when their flag or `+full` is given, every other section comes from the parsed log, and the spans are rounded before the minutes are split off |
| Analyzer.PgwRequestFails | backend/analyzer.py:43 | a request with `+PGW` fails whatever its log, while the corrected analysis shows the events |
| Analyzer.CorrectedAgrees | backend/analyzer.py:41-45 | without the PGW flags both analyses succeed and differ at most in the display of the three spans |
| Analyzer.ShownTimeline | backend/analyzer.py:24-34 | the timeline is the parsed one without hints, else exactly its internal events and those naming a hint |

## Left out

- `_parse_pgw` (backend/parser.py:281-290) is not modelled. Its event list is a parameter of `Parser.ParseLog` and `Analyzer.Analyze`.
- `main.py`, `exporter.py` and the frontend (HTTP endpoints, export formats, UI) are outside the core.
- `_analyze_bye`'s `anomalies` argument is never read by the source, so `Bye.AnalyzeBye` does not take it.
- `_build_participants` takes `caller_imsi` and `callee_imsi` but reads the request's IMSIs instead. `Roster.BuildParticipants` reads them from the request too.
- `_parse_participants`, `_parse_rtp` and `_parse_anomalies` take a `log` argument. Only `_parse_rtp` reads it (for the codec), so only `Rtp.ParseRtp` takes it.
- Durations.Fmt: spans are integer microseconds and `:.1f` is read as rounding half up to tenths. Python rounds the binary float, which can differ at exact halves.
- Timestamps.Ts: only the two-digit fields of the log's timestamp shape are parsed. `strptime` also accepts one-digit month, day and time fields, which the log's timestamp pattern never produces.
- `\d` and `\w` are ASCII classes here. Python's Unicode digits and word characters are not modelled.
- Case folding: `re.IGNORECASE` folds ASCII letters plus the few non-ASCII folds Python documents. `str.lower` (`Text.Lower`) folds ASCII letters only. The texts the core compares after lower-casing are ASCII without a `k`, so Python's other folds cannot change those tests. Full Unicode case folding is not modelled.
- `Scan.FindAll` stops at an empty match, where `finditer` would step past it. Every pattern the source passes to `finditer` or `findall` consumes at least one character, so this never comes up.

## Findings

| source | as written | input that shows it | evidently intended | confidence | as-written member | corrected member |
|---|---|---|---|---|---|---|
| backend/analyzer.py:245 | the minutes come from the exact span and the remaining seconds are rounded afterwards | a span of 119.96 s is shown as `1m 60.0s` | round first, then split, giving `2m 0.0s` with seconds below sixty | not executed | Durations.FmtAsWritten, Durations.AsWrittenShowsSixtySeconds, Durations.SixtySecondsUnreadable, Analyzer.Analyze | Durations.Fmt, Durations.FmtReadsBack, Analyzer.AnalyzeCorrected |
| backend/analyzer.py:43 | `parsed["data_usage"]` reads a key `parse_log` never produces (backend/parser.py:311-319), so the lookup raises | any request with the flag `+pgw` or `+full` | the PGW section, with data usage absent, shown when its flag or `+full` is given | not executed | Analyzer.Analyze, Analyzer.PgwRequestFails | Analyzer.AnalyzeCorrected, Analyzer.CorrectedAgrees |

=== FILE: analyzer.dfy ===
/** `analyze`: parse the log once, normalise the request's hints, keep the
    timeline events that concern them, and assemble the response: the
    roster, the BYE judgment, the RTP readings, the anomalies, the three
    spans over the kept timeline, and the sections the flags ask for. */
module Analyzer {
  import opened Wrappers
  import opened Text
  import opened Seqs
  import opened Models
  import opened Relevance
  import Parser
  import Roster
  import Bye
  import Timing
  import Routing
  import Durations

  /** The error `analyze` raises: `parsed["data_usage"]` names a key the
      parser never produces. */
  const MissingDataUsage := "data_usage"

  /** The request's flags, lower-cased; no flags is the empty list. */
  function Flags(req: AnalyzeRequest): (r: seq<string>)
    ensures |r| == |req.flags.GetOr([])|
    ensures forall k :: 0 <= k < |r| ==> r[k] == Lower(req.flags.GetOr([])[k])
  {
    var fs := req.flags.GetOr([]);
    seq(|fs|, k requires 0 <= k < |fs| => Lower(fs[k]))
  }

  /** A section is on when its flag or `+full` is given. */
  predicate Enabled(flags: seq<string>, flag: string)
  {
    flag in flags || "+full" in flags
  }

  /** The normalised hints: caller and callee numbers, caller and callee
      IMSIs. */
  datatype Hints = Hints(callerNorm: string, calleeNorm: string, callerImsi: string, calleeImsi: string)

  function HintsOf(req: AnalyzeRequest): (h: Hints)
    ensures h.callerNorm == [] || h.callerNorm[0] != '0'
    ensures h.calleeNorm == [] || h.calleeNorm[0] != '0'
  {
    Hints(HintNorm(req.caller), HintNorm(req.callee), req.callerImsi.GetOr(""), req.calleeImsi.GetOr(""))
  }

  /** The hints that filter the timeline. */
  function RelevantOf(h: Hints): set<string>
  {
    Relevant([h.callerNorm, h.calleeNorm, h.callerImsi, h.calleeImsi])
  }

  /** Whether the three spans of `r` are those of its own timeline, shown
      by `fmt`. */
  predicate SpansShownBy(r: AnalyzeResponse, fmt: Option<int> -> Option<string>)
  {
    var raw := Timing.RawOf(r.timeline);
    r.callDuration == fmt(raw.callDuration) && r.answerTime == fmt(raw.answerTime) && r.ringTime == fmt(raw.ringTime)
  }

  /** Whether the sections of `r` taken from the parsed log are the
      filtered timeline, the participants, the BYE judgment, the RTP rows,
      the anomalies, the SDP summary and the routing entries of that log. */
  predicate FromParsed(r: AnalyzeResponse, req: AnalyzeRequest, parsed: Parser.ParsedLog)
  {
    var h := HintsOf(req);
    && r.timeline == FilterTimeline(parsed.timeline, RelevantOf(h))
    && r.participants == Roster.BuildParticipants(req, parsed.participants, h.callerNorm, h.calleeNorm)
    && r.byeInfo == Bye.AnalyzeBye(req, parsed.rawBlocks, h.callerNorm, h.calleeNorm, h.callerImsi, h.calleeImsi)
    && r.rtpStats == parsed.rtpStats && r.anomalies == parsed.anomalies
    && (r.sdpInfo.Some? ==> r.sdpInfo.value == parsed.sdpInfo)
    && (r.routingInfo.Some? ==> r.routingInfo.value == Routing.RoutingOf(parsed.rawBlocks))
  }

  /** The response body, with the PGW events shown or not and the spans
      shown by `fmt`. */
  function Report(req: AnalyzeRequest, parsed: Parser.ParsedLog, showPgw: bool,
                  fmt: Option<int> -> Option<string>): (r: AnalyzeResponse)
    ensures r.pgwEvents == if showPgw then Some(parsed.pgwEvents) else None
    ensures r.sdpInfo.Some? <==> Enabled(Flags(req), "+sdp")
    ensures r.sdpInfo.Some? ==> r.sdpInfo.value == parsed.sdpInfo
    ensures r.routingInfo.Some? <==> Enabled(Flags(req), "+routing")
    ensures r.routingInfo.Some? ==> r.routingInfo.value == Routing.RoutingOf(parsed.rawBlocks)
    ensures r.rtpStats == parsed.rtpStats && r.anomalies == parsed.anomalies
    ensures var h := HintsOf(req);
            && r.participants == Roster.BuildParticipants(req, parsed.participants, h.callerNorm, h.calleeNorm)
            && r.byeInfo == Bye.AnalyzeBye(req, parsed.rawBlocks, h.callerNorm, h.calleeNorm, h.callerImsi, h.calleeImsi)
    ensures SpansShownBy(r, fmt)
    ensures FromParsed(r, req, parsed)
  {
    var flags := Flags(req);
    var h := HintsOf(req);
    var timeline := FilterTimeline(parsed.timeline, RelevantOf(h));
    var spans := Timing.TimingOf(timeline, fmt);
    AnalyzeResponse(
      Roster.BuildParticipants(req, parsed.participants, h.callerNorm, h.calleeNorm),
      timeline,
      Bye.AnalyzeBye(req, parsed.rawBlocks, h.callerNorm, h.calleeNorm, h.callerImsi, h.calleeImsi),
      parsed.rtpStats,
      parsed.anomalies,
      spans.callDuration,
      spans.answerTime,
      spans.ringTime,
      if Enabled(flags, "+sdp") then Some(parsed.sdpInfo) else None,
      if showPgw then Some(parsed.pgwEvents) else None,
      if Enabled(flags, "+routing") then Some(Routing.RoutingOf(parsed.rawBlocks)) else None)
  }

  /** `analyze` as written: the PGW section reads a missing key and
      raises, so a request with `+pgw` or `+full` fails, and the spans are
      shown by the source's own `fmt`. */
  function Analyze(req: AnalyzeRequest, pgwEvents: seq<string>): (r: Result<AnalyzeResponse, string>)
    ensures r.Failure? <==> Enabled(Flags(req), "+pgw")
    ensures r.Success? ==> r.value.pgwEvents.None?
    ensures r.Success? ==> (r.value.sdpInfo.Some? <==> "+sdp" in Flags(req))
    ensures r.Success? ==> (r.value.routingInfo.Some? <==> "+routing" in Flags(req))
    ensures r.Success? ==> SpansShownBy(r.value, Durations.FmtAsWritten)
    ensures r.Success? ==> FromParsed(r.value, req, Parser.ParseLog(req.log, pgwEvents))
  {
    if Enabled(Flags(req), "+pgw") then Failure(MissingDataUsage)
    else Success(Report(req, Parser.ParseLog(req.log, pgwEvents), false, Durations.FmtAsWritten))
  }

  /** `analyze` with both defects corrected: the absent data usage is read
      as absent, so the PGW events are shown with `+pgw` or `+full` and no
      request fails, and the spans are rounded before the minutes are
      split off. */
  function AnalyzeCorrected(req: AnalyzeRequest, pgwEvents: seq<string>): (r: AnalyzeResponse)
    ensures r.pgwEvents.Some? <==> Enabled(Flags(req), "+pgw")
    ensures r.pgwEvents.Some? ==> r.pgwEvents.value == pgwEvents
    ensures r.sdpInfo.Some? <==> Enabled(Flags(req), "+sdp")
    ensures r.routingInfo.Some? <==> Enabled(Flags(req), "+routing")
    ensures SpansShownBy(r, Durations.Fmt)
    ensures FromParsed(r, req, Parser.ParseLog(req.log, pgwEvents))
  {
    var parsed := Parser.ParseLog(req.log, pgwEvents);
    Report(req, parsed, Enabled(Flags(req), "+pgw"), Durations.Fmt)
  }

  /** Every request asking for the PGW section fails as written, whatever
      its log, while the corrected analysis shows the section. */
  lemma PgwRequestFails(log: string, pgwEvents: seq<string>)
    ensures var req := AnalyzeRequest(None, None, None, None, log, Some(["+PGW"]));
            Analyze(req, pgwEvents).Failure? && AnalyzeCorrected(req, pgwEvents).pgwEvents == Some(pgwEvents)
  {
    var req := AnalyzeRequest(None, None, None, None, log, Some(["+PGW"]));
    assert Flags(req)[0] == "+pgw";
  }

  /** Without the PGW flags the two analyses succeed on the same timeline
      and differ at most in how the three spans are displayed. */
  lemma CorrectedAgrees(req: AnalyzeRequest, pgwEvents: seq<string>)
    requires !Enabled(Flags(req), "+pgw")
    ensures Analyze(req, pgwEvents).Success?
    ensures var a := Analyze(req, pgwEvents).value;
            var c := AnalyzeCorrected(req, pgwEvents);
            var raw := Timing.RawOf(a.timeline);
            c == a.(callDuration := Durations.Fmt(raw.callDuration),
                    answerTime := Durations.Fmt(raw.answerTime),
                    ringTime := Durations.Fmt(raw.ringTime))
  {
  }

  /** The response's timeline is the parsed one when no hint is given, and
      otherwise its internal events and those naming a hint, in order. */
  lemma ShownTimeline(req: AnalyzeRequest, parsed: Parser.ParsedLog, showPgw: bool,
                      fmt: Option<int> -> Option<string>, ev: TimelineEvent)
    ensures var r := Report(req, parsed, showPgw, fmt);
            var rel := RelevantOf(HintsOf(req));
            && (rel == {} ==> r.timeline == parsed.timeline)
            && (rel != {} ==> (ev in r.timeline <==> ev in parsed.timeline && Kept(rel, ev)))
  {
    var rel := RelevantOf(HintsOf(req));
    if rel != {} {
      FilterTimelineMembers(parsed.timeline, rel, ev);
    }
  }
}

=== FILE: anomalies.dfy ===
/** `_parse_anomalies`: per block, the signs of a broken call (an RTCP SSRC
    mismatch, a 5xx final response, a transport outage, a charging or quota
    rejection, an authentication cancel), each stamped with the block's
    time; then one line per INVITE branch seen more than once; the whole
    list without repeats. */
module Anomalies {
  import opened Wrappers
  import opened Text
  import opened Scan
  import opened Seqs
  import opened Models
  import opened Classifier
  import opened SipFields
  import opened ChargingFields

  /** `[ts] what`. */
  function Stamp(ts: string, what: string): string
  {
    "[" + ts + "] " + what
  }

  /** `^SIP/2\.0 5\d\d` at the start of the first line: a 5xx response. */
  predicate ServerError(first: string)
  {
    |first| >= 11 && StartsWith(first, "SIP/2.0 5") && IsDigit(first[9]) && IsDigit(first[10])
  }

  /** The charging trigger: `quota` or `rejected_initial`, in any case. */
  predicate ChargingRejected(body: string)
  {
    Contains(Lower(body), "quota") || Contains(Lower(body), "rejected_initial")
  }

  /** The names of the Diameter service contexts the report spells out. */
  function ServiceName(code: string): (r: string)
    ensures code != "32251" && code != "32276" && code != "32274" ==> r == code
  {
    if code == "32251" then "data"
    else if code == "32276" then "voice/SMS"
    else if code == "32274" then "MMS"
    else code
  }

  /** The IMSI of a charging rejection: the XML subscription id, else the
      fifteen digits after `pgw_session`. */
  function ChargedImsi(body: string): (r: Option<string>)
    ensures Search(ImsiAt, body).Some? ==> r == Search(ImsiAt, body)
    ensures Search(ImsiAt, body).None? ==> r == Search(SessionImsiAt, body)
  {
    match Search(ImsiAt, body)
    case Some(v) => Some(v)
    case None => Search(SessionImsiAt, body)
  }

  function Part(name: string, v: Option<string>): seq<string>
  {
    match v
    case Some(x) => [name + x]
    case None => []
  }

  /** The service context, spelled out. */
  function ServiceOf(body: string): (r: Option<string>)
    ensures r.Some? <==> Search(ServiceContextAt, body).Some?
    ensures r.Some? ==> r.value == ServiceName(Search(ServiceContextAt, body).value)
  {
    match Search(ServiceContextAt, body)
    case Some(c) => Some(ServiceName(c))
    case None => None
  }

  /** The parts for the values found, in report order. */
  function Parts(imsi: Option<string>, msisdn: Option<string>, kind: Option<string>,
                 service: Option<string>): seq<string>
  {
    Part("IMSI: ", imsi) + Part("MSISDN: +", msisdn) + Part("type: ", kind) + Part("service: ", service)
  }

  /** The detail parts of a charging rejection, in report order. */
  function ChargingDetail(body: string): (r: seq<string>)
    ensures |r| <= 4
  {
    Parts(ChargedImsi(body), Search(E164At, body), Search(RequestTypeAt, body), ServiceOf(body))
  }

  /** The rendered detail: ` — ` and the parts joined, or nothing. */
  function DetailText(body: string): (r: string)
    ensures r == [] <==> ChargingDetail(body) == []
  {
    var parts := ChargingDetail(body);
    if parts == [] then "" else " — " + Join(parts, " | ")
  }

  /** Which of the four detail parts a part is, by its leading letter. */
  function PartRank(part: string): nat
  {
    if part == [] then 4
    else if part[0] == 'I' then 0
    else if part[0] == 'M' then 1
    else if part[0] == 't' then 2
    else if part[0] == 's' then 3
    else 4
  }

  /** `name + v` determines `v`. */
  lemma PrefixCancels(name: string, v: string, w: string)
    ensures name + v == name + w <==> v == w
  {
    if name + v == name + w {
      assert v == (name + v)[|name|..] && w == (name + w)[|name|..];
    }
  }

  /** Parts in report order, each kind at most once. */
  predicate InReportOrder(r: seq<string>)
  {
    forall i, j :: 0 <= i < j < |r| ==> PartRank(r[i]) < PartRank(r[j]) < 4
  }

  lemma ReportOrderAppend(xs: seq<string>, ys: seq<string>)
    requires InReportOrder(xs) && InReportOrder(ys)
    requires forall i, j :: 0 <= i < |xs| && 0 <= j < |ys| ==> PartRank(xs[i]) < PartRank(ys[j]) < 4
    ensures InReportOrder(xs + ys)
  {
    var r := xs + ys;
    forall i, j | 0 <= i < j < |r|
      ensures PartRank(r[i]) < PartRank(r[j]) < 4
    {
      if j < |xs| {
        assert r[i] == xs[i] && r[j] == xs[j];
      } else if i < |xs| {
        assert r[i] == xs[i] && r[j] == ys[j - |xs|];
      } else {
        assert r[i] == ys[i - |xs|] && r[j] == ys[j - |xs|];
      }
    }
  }

  /** A part has the rank of its name. */
  lemma PartRanked(name: string, o: Option<string>)
    requires name != []
    ensures InReportOrder(Part(name, o))
    ensures forall k :: 0 <= k < |Part(name, o)| ==> PartRank(Part(name, o)[k]) == PartRank(name)
  {
    if o.Some? {
      assert (name + o.value)[0] == name[0];
    }
  }

  /** Four runs of parts ranked 0, 1, 2 and 3 are in report order
      together. */
  lemma RankedRuns(p1: seq<string>, p2: seq<string>, p3: seq<string>, p4: seq<string>)
    requires InReportOrder(p1) && InReportOrder(p2) && InReportOrder(p3) && InReportOrder(p4)
    requires forall k :: 0 <= k < |p1| ==> PartRank(p1[k]) == 0
    requires forall k :: 0 <= k < |p2| ==> PartRank(p2[k]) == 1
    requires forall k :: 0 <= k < |p3| ==> PartRank(p3[k]) == 2
    requires forall k :: 0 <= k < |p4| ==> PartRank(p4[k]) == 3
    ensures InReportOrder(p1 + p2 + p3 + p4)
  {
    ReportOrderAppend(p1, p2);
    var q := p1 + p2;
    assert forall k :: 0 <= k < |q| ==> PartRank(q[k]) <= 1;
    ReportOrderAppend(q, p3);
    var q2 := q + p3;
    assert forall k :: 0 <= k < |q2| ==> PartRank(q2[k]) <= 2;
    ReportOrderAppend(q2, p4);
  }

  lemma PartsOrder(imsi: Option<string>, msisdn: Option<string>, kind: Option<string>, service: Option<string>)
    ensures InReportOrder(Parts(imsi, msisdn, kind, service))
  {
    PartRanked("IMSI: ", imsi);
    PartRanked("MSISDN: +", msisdn);
    PartRanked("type: ", kind);
    PartRanked("service: ", service);
    assert PartRank("IMSI: ") == 0 && PartRank("MSISDN: +") == 1 && PartRank("type: ") == 2 && PartRank("service: ") == 3;
    RankedRuns(Part("IMSI: ", imsi), Part("MSISDN: +", msisdn), Part("type: ", kind), Part("service: ", service));
  }

  lemma PartShows(name: string, o: Option<string>, v: string)
    ensures name + v in Part(name, o) <==> o == Some(v)
  {
    if o.Some? {
      PrefixCancels(name, v, o.value);
    }
  }

  lemma PartsShow(imsi: Option<string>, msisdn: Option<string>, kind: Option<string>,
                  service: Option<string>, v: string)
    ensures var r := Parts(imsi, msisdn, kind, service);
            && ("IMSI: " + v in r <==> imsi == Some(v))
            && ("MSISDN: +" + v in r <==> msisdn == Some(v))
            && ("type: " + v in r <==> kind == Some(v))
            && ("service: " + v in r <==> service == Some(v))
  {
    var p1, p2, p3, p4 := Part("IMSI: ", imsi), Part("MSISDN: +", msisdn), Part("type: ", kind), Part("service: ", service);
    PartShows("IMSI: ", imsi, v);
    PartShows("MSISDN: +", msisdn, v);
    PartShows("type: ", kind, v);
    PartShows("service: ", service, v);
    var a, b, c, d := "IMSI: " + v, "MSISDN: +" + v, "type: " + v, "service: " + v;
    assert a[0] == 'I' && b[0] == 'M' && c[0] == 't' && d[0] == 's';
    assert forall k :: 0 <= k < |p1| ==> p1[k][0] == 'I';
    assert forall k :: 0 <= k < |p2| ==> p2[k][0] == 'M';
    assert forall k :: 0 <= k < |p3| ==> p3[k][0] == 't';
    assert forall k :: 0 <= k < |p4| ==> p4[k][0] == 's';
  }

  /** A part names what the body shows under that name: the charged IMSI,
      the E.164 number, the request type and the spelled-out service. */
  lemma ChargingDetailShows(body: string, v: string)
    ensures var r := ChargingDetail(body);
            && ("IMSI: " + v in r <==> ChargedImsi(body) == Some(v))
            && ("MSISDN: +" + v in r <==> Search(E164At, body) == Some(v))
            && ("type: " + v in r <==> Search(RequestTypeAt, body) == Some(v))
            && ("service: " + v in r <==> Search(ServiceContextAt, body).Some? &&
                                          ServiceName(Search(ServiceContextAt, body).value) == v)
  {
    PartsShow(ChargedImsi(body), Search(E164At, body), Search(RequestTypeAt, body), ServiceOf(body), v);
  }

  /** The parts come in report order, each at most once: IMSI, MSISDN,
      request type, service. */
  lemma ChargingDetailOrder(body: string)
    ensures InReportOrder(ChargingDetail(body))
  {
    PartsOrder(ChargedImsi(body), Search(E164At, body), Search(RequestTypeAt, body), ServiceOf(body));
  }

  /** What a block can report. */
  datatype Anomaly =
    | SsrcMismatch
    | FinalServerError(line: string)
    | NetworkDown
    | ChargingFailure(detail: string)
    | AuthCancel

  /** The text of an anomaly after its time stamp. */
  function Wording(a: Anomaly): string
  {
    match a
    case SsrcMismatch => "RTCP SSRC mismatch"
    case FinalServerError(line) => line
    case NetworkDown => "Transport Network down"
    case ChargingFailure(detail) => "Charging/quota failure" + detail
    case AuthCancel => "AuC L_Cancel (auth failure)"
  }

  /** The outcome of the five checks on one block. */
  datatype Checks = Checks(ssrc: bool, serverError: Option<string>, networkDown: bool,
                           charging: Option<string>, cancel: bool)

  /** The checks, in the order they run: the 5xx check keeps eighty
      characters of the first line, the charging check its detail. */
  function ChecksOf(b: Block): Checks
  {
    var first := FirstLine(b.body);
    Checks(Contains(b.body, "SSRC") && Contains(b.body, "expecting"),
           if ServerError(first) then Some(Take(first, 80)) else None,
           Contains(b.body, "Network down"),
           if ChargingRejected(b.body) then Some(DetailText(b.body)) else None,
           Contains(b.body, "L_Cancel"))
  }

  /** What the checks report, in order. */
  function Kinds(c: Checks): (r: seq<Anomaly>)
    ensures |r| <= 5
  {
    (if c.ssrc then [SsrcMismatch] else [])
    + (match c.serverError case Some(l) => [FinalServerError(l)] case None => [])
    + (if c.networkDown then [NetworkDown] else [])
    + (match c.charging case Some(d) => [ChargingFailure(d)] case None => [])
    + (if c.cancel then [AuthCancel] else [])
  }

  /** What a block reports. */
  function BlockKinds(b: Block): seq<Anomaly>
  {
    Kinds(ChecksOf(b))
  }

  /** The lines of one block. */
  function BlockAnomalies(b: Block): (r: seq<string>)
    ensures |r| == |BlockKinds(b)|
    ensures forall k :: 0 <= k < |r| ==> r[k] == Stamp(b.ts, Wording(BlockKinds(b)[k]))
  {
    var kinds := BlockKinds(b);
    seq(|kinds|, k requires 0 <= k < |kinds| => Stamp(b.ts, Wording(kinds[k])))
  }

  /** The lines of all blocks, in block order. */
  function BlockLines(blocks: seq<Block>): (r: seq<string>)
    ensures forall k :: 0 <= k < |r| ==> r[k] != [] && r[k][0] == '['
  {
    if blocks == [] then []
    else BlockLines(blocks[..|blocks| - 1]) + BlockAnomalies(blocks[|blocks| - 1])
  }

  /** The branch of an INVITE block's first Via `branch=` parameter. */
  function InviteBranch(b: Block): Option<string>
  {
    if StartsWith(FirstLine(b.body), "INVITE") then Search(BranchAt, b.body) else None
  }

  /** The INVITE branches, one per INVITE block that names one. */
  function InviteBranches(blocks: seq<Block>): seq<string>
  {
    if blocks == [] then []
    else
      InviteBranches(blocks[..|blocks| - 1])
      + (match InviteBranch(blocks[|blocks| - 1]) case Some(x) => [x] case None => [])
  }

  /** Where `key` sits in a tally. */
  function Slot(t: seq<(string, nat)>, key: string): (r: Option<nat>)
    ensures r.Some? ==> r.value < |t| && t[r.value].0 == key
    ensures r.None? <==> forall k :: 0 <= k < |t| ==> t[k].0 != key
  {
    if t == [] then None
    else if t[0].0 == key then Some(0)
    else
      match Slot(t[1..], key)
      case None => None
      case Some(k) => Some(k + 1)
  }

  /** The `invite_branches` dictionary: a count per branch, in the order the
      branches are first seen. */
  function Tally(bs: seq<string>): seq<(string, nat)>
  {
    if bs == [] then [] else Count1(Tally(bs[..|bs| - 1]), bs[|bs| - 1])
  }

  /** One more INVITE seen for branch `x`: its count goes up by one, or it
      is added at the end with a count of one. */
  function Count1(t: seq<(string, nat)>, x: string): seq<(string, nat)>
  {
    match Slot(t, x)
    case None => t + [(x, 1)]
    case Some(i) => t[i := (x, t[i].1 + 1)]
  }

  /** `INVITE retransmitted nx for branch b`. */
  function RetransmissionLine(b: string, n: nat): string
  {
    "INVITE retransmitted " + NatToString(n) + "x for branch " + b
  }

  /** One line per branch counted more than once. */
  function RetransmissionLines(t: seq<(string, nat)>): (r: seq<string>)
    ensures |r| <= |t|
  {
    if t == [] then []
    else
      (if t[0].1 > 1 then [RetransmissionLine(t[0].0, t[0].1)] else [])
      + RetransmissionLines(t[1..])
  }

  /** `_parse_anomalies`. The log argument of the source is not read. */
  function ParseAnomalies(blocks: seq<Block>): (r: seq<string>)
    ensures NoDups(r)
  {
    Dedup(BlockLines(blocks) + RetransmissionLines(Tally(InviteBranches(blocks))))
  }

  // What the anomaly list holds.

  /** A line is among the block lines exactly when some block reports it. */
  lemma {:induction false} BlockLinesMembers(blocks: seq<Block>, line: string)
    ensures line in BlockLines(blocks) <==> exists k :: 0 <= k < |blocks| && line in BlockAnomalies(blocks[k])
    decreases |blocks|
  {
    if blocks != [] {
      var init := blocks[..|blocks| - 1];
      BlockLinesMembers(init, line);
      if exists k :: 0 <= k < |init| && line in BlockAnomalies(init[k]) {
        var k :| 0 <= k < |init| && line in BlockAnomalies(init[k]);
        assert blocks[k] == init[k];
      }
      if exists k :: 0 <= k < |blocks| && line in BlockAnomalies(blocks[k]) {
        var k :| 0 <= k < |blocks| && line in BlockAnomalies(blocks[k]);
        if k < |init| {
          assert init[k] == blocks[k];
        }
      }
    }
  }

  /** The anomaly list holds exactly the lines some block reports and the
      retransmission lines. */
  lemma ParseAnomaliesMembers(blocks: seq<Block>, line: string)
    ensures line in ParseAnomalies(blocks) <==>
            (exists k :: 0 <= k < |blocks| && line in BlockAnomalies(blocks[k]))
            || line in RetransmissionLines(Tally(InviteBranches(blocks)))
  {
    var raw := BlockLines(blocks) + RetransmissionLines(Tally(InviteBranches(blocks)));
    BlockLinesMembers(blocks, line);
    assert line in ParseAnomalies(blocks) <==> line in raw;
  }

  /** The block lines come first, in the order they are first reported,
      and only retransmission lines the blocks did not report follow them;
      throughout, the list keeps the order of first occurrence. */
  lemma ParseAnomaliesOrder(blocks: seq<Block>)
    ensures var r := ParseAnomalies(blocks);
            var head := Dedup(BlockLines(blocks));
            var retrans := RetransmissionLines(Tally(InviteBranches(blocks)));
            && IsPrefix(head, r)
            && (forall i :: |head| <= i < |r| ==> r[i] !in BlockLines(blocks) && r[i] in retrans)
            && (forall i, j :: 0 <= i < j < |r| ==>
                  IndexOf(BlockLines(blocks) + retrans, r[i]) < IndexOf(BlockLines(blocks) + retrans, r[j]))
  {
    var bl := BlockLines(blocks);
    var retrans := RetransmissionLines(Tally(InviteBranches(blocks)));
    var r := ParseAnomalies(blocks);
    var head := Dedup(bl);
    DedupPrefix(bl, retrans);
    forall i | |head| <= i < |r|
      ensures r[i] !in bl && r[i] in retrans
    {
      assert r[i] in bl + retrans;
    }
    forall i, j | 0 <= i < j < |r|
      ensures IndexOf(bl + retrans, r[i]) < IndexOf(bl + retrans, r[j])
    {
      DedupFirstOccurrenceOrder(bl + retrans, i, j);
    }
  }

  // The tally counts.

  /** The reference tally: each key with its number of occurrences. */
  function CountsOf(bs: seq<string>, keys: seq<string>): seq<(string, nat)>
  {
    seq(|keys|, k requires 0 <= k < |keys| => (keys[k], Count(bs, keys[k])))
  }

  lemma CountSnoc(bs: seq<string>, x: string, y: string)
    ensures Count(bs + [x], y) == Count(bs, y) + (if x == y then 1 else 0)
  {
    assert (bs + [x])[..|bs|] == bs;
  }

  /** Counts of keys other than the new branch are unchanged. */
  lemma CountsOther(bs: seq<string>, x: string, keys: seq<string>)
    requires x !in keys
    ensures CountsOf(bs + [x], keys) == CountsOf(bs, keys)
  {
    forall k | 0 <= k < |keys| ensures CountsOf(bs + [x], keys)[k] == CountsOf(bs, keys)[k] {
      CountSnoc(bs, x, keys[k]);
    }
  }

  /** A first occurrence opens a count of one at the end. */
  lemma CountsNew(bs: seq<string>, x: string, keys: seq<string>)
    requires x !in bs && x !in keys
    ensures CountsOf(bs, keys) + [(x, 1)] == CountsOf(bs + [x], keys + [x])
  {
    CountsOther(bs, x, keys);
    CountSnoc(bs, x, x);
    var l := CountsOf(bs + [x], keys + [x]);
    assert l[|keys|] == (x, 1);
    assert l[..|keys|] == CountsOf(bs + [x], keys);
  }

  /** A repeat adds one to its count in place. */
  lemma CountsKnown(bs: seq<string>, x: string, keys: seq<string>, i: nat)
    requires NoDups(keys) && i < |keys| && keys[i] == x
    ensures CountsOf(bs, keys)[i := (x, CountsOf(bs, keys)[i].1 + 1)] == CountsOf(bs + [x], keys)
  {
    var l := CountsOf(bs, keys)[i := (x, CountsOf(bs, keys)[i].1 + 1)];
    forall k | 0 <= k < |keys| ensures l[k] == CountsOf(bs + [x], keys)[k] {
      CountSnoc(bs, x, keys[k]);
    }
  }

  lemma SlotOfCounts(bs: seq<string>, keys: seq<string>, key: string)
    ensures Slot(CountsOf(bs, keys), key).None? <==> key !in keys
    ensures Slot(CountsOf(bs, keys), key).Some? ==> keys[Slot(CountsOf(bs, keys), key).value] == key
  {
    var t := CountsOf(bs, keys);
    assert forall k :: 0 <= k < |keys| ==> t[k].0 == keys[k];
  }

  /** A first occurrence, one step of the loop. */
  lemma Count1New(bs: seq<string>, x: string, keys: seq<string>)
    requires x !in bs && x !in keys
    ensures Count1(CountsOf(bs, keys), x) == CountsOf(bs + [x], keys + [x])
  {
    SlotOfCounts(bs, keys, x);
    CountsNew(bs, x, keys);
  }

  /** A repeat, one step of the loop. */
  lemma Count1Known(bs: seq<string>, x: string, keys: seq<string>, i: nat)
    requires NoDups(keys) && i < |keys| && keys[i] == x
    ensures Count1(CountsOf(bs, keys), x) == CountsOf(bs + [x], keys)
  {
    SlotOfCounts(bs, keys, x);
    var j := Slot(CountsOf(bs, keys), x).value;
    assert keys[j] == x;
    assert j == i;
    CountsKnown(bs, x, keys, i);
  }

  /** One INVITE block keeps the dictionary equal to the reference. */
  lemma TallyStep(bs: seq<string>, x: string)
    ensures Count1(CountsOf(bs, Dedup(bs)), x) == CountsOf(bs + [x], Dedup(bs + [x]))
  {
    var keys := Dedup(bs);
    DedupSnoc(bs, x);
    if x in keys {
      var i := IndexOf(keys, x);
      Count1Known(bs, x, keys, i);
    } else {
      Count1New(bs, x, keys);
    }
  }

  /** The dictionary holds every branch once, in first-seen order, with the
      number of INVITE blocks that carried it. */
  lemma {:induction false} TallyIsCount(bs: seq<string>)
    ensures Tally(bs) == CountsOf(bs, Dedup(bs))
  {
    if bs != [] {
      var init := bs[..|bs| - 1];
      TallyIsCount(init);
      TallyStep(init, bs[|bs| - 1]);
      assert init + [bs[|bs| - 1]] == bs;
    }
  }

  // Reading the lines back.

  /** A time stamp is read back off its line. */
  lemma StampInjective(ts: string, a: string, b: string)
    requires Stamp(ts, a) == Stamp(ts, b)
    ensures a == b
  {
    assert a == Stamp(ts, a)[|ts| + 3..];
    assert b == Stamp(ts, b)[|ts| + 3..];
  }

  /** A 5xx line as the pass keeps it: at most eighty characters of a line
      that opens with `SIP/2.0 5`. */
  predicate WellFormed(a: Anomaly)
  {
    a.FinalServerError? ==> StartsWith(a.line, "SIP/2.0 5")
  }

  /** Distinct anomalies have distinct texts. */
  lemma TextInjective(a: Anomaly, b: Anomaly)
    requires WellFormed(a) && WellFormed(b) && Wording(a) == Wording(b)
    ensures a == b
  {
    var ta := Wording(a);
    assert ta[0] == Wording(b)[0];
    if a.ChargingFailure? && b.ChargingFailure? {
      assert a.detail == ta[22..];
      assert b.detail == Wording(b)[22..];
    } else if a.FinalServerError? || b.FinalServerError? {
      assert ta[0] == 'S';
    }
  }

  /** Each anomaly without a payload is reported exactly when its check
      fires. */
  lemma KindsFlags(c: Checks)
    ensures SsrcMismatch in Kinds(c) <==> c.ssrc
    ensures NetworkDown in Kinds(c) <==> c.networkDown
    ensures AuthCancel in Kinds(c) <==> c.cancel
  {
  }

  /** The 5xx line and the charging detail are reported as the checks
      found them. */
  lemma KindsCarried(c: Checks, l: string, d: string)
    ensures FinalServerError(l) in Kinds(c) <==> c.serverError == Some(l)
    ensures ChargingFailure(d) in Kinds(c) <==> c.charging == Some(d)
  {
  }

  lemma KindsWellFormed(c: Checks)
    requires c.serverError.Some? ==> StartsWith(c.serverError.value, "SIP/2.0 5")
    ensures forall k :: 0 <= k < |Kinds(c)| ==> WellFormed(Kinds(c)[k])
  {
  }

  /** What each check of a block reports: the flags. */
  lemma BlockFlags(b: Block)
    ensures SsrcMismatch in BlockKinds(b) <==> Contains(b.body, "SSRC") && Contains(b.body, "expecting")
    ensures NetworkDown in BlockKinds(b) <==> Contains(b.body, "Network down")
    ensures AuthCancel in BlockKinds(b) <==> Contains(b.body, "L_Cancel")
  {
    KindsFlags(ChecksOf(b));
  }

  /** What each check of a block reports: the 5xx line and the charging
      detail. */
  lemma BlockCarried(b: Block)
    ensures ChargingFailure(DetailText(b.body)) in BlockKinds(b) <==> ChargingRejected(b.body)
    ensures FinalServerError(Take(FirstLine(b.body), 80)) in BlockKinds(b) <==> ServerError(FirstLine(b.body))
  {
    KindsCarried(ChecksOf(b), Take(FirstLine(b.body), 80), DetailText(b.body));
  }

  /** The 5xx line a block reports opens with `SIP/2.0 5`. */
  lemma BlockWellFormed(b: Block)
    ensures forall k :: 0 <= k < |BlockKinds(b)| ==> WellFormed(BlockKinds(b)[k])
  {
    var c := ChecksOf(b);
    assert c.serverError.Some? ==> StartsWith(c.serverError.value, "SIP/2.0 5");
    KindsWellFormed(c);
  }

  /** A block's line for an anomaly is in its report exactly when the
      anomaly is: the lines can be told apart. */
  lemma BlockReports(b: Block, a: Anomaly)
    requires WellFormed(a)
    ensures Stamp(b.ts, Wording(a)) in BlockAnomalies(b) <==> a in BlockKinds(b)
  {
    var kinds := BlockKinds(b);
    var lines := BlockAnomalies(b);
    BlockWellFormed(b);
    if a in kinds {
      var k :| 0 <= k < |kinds| && kinds[k] == a;
      assert lines[k] == Stamp(b.ts, Wording(a));
    }
    if Stamp(b.ts, Wording(a)) in lines {
      var k :| 0 <= k < |lines| && lines[k] == Stamp(b.ts, Wording(a));
      StampInjective(b.ts, Wording(kinds[k]), Wording(a));
      TextInjective(kinds[k], a);
    }
  }

  /** The retransmission lines are those of the branches counted more than
      once, and only those. */
  lemma {:induction false} RetransmissionLinesSpec(t: seq<(string, nat)>, line: string)
    ensures line in RetransmissionLines(t) <==>
      exists k :: 0 <= k < |t| && t[k].1 > 1 && line == RetransmissionLine(t[k].0, t[k].1)
  {
    if t != [] {
      RetransmissionLinesSpec(t[1..], line);
      if exists k :: 0 <= k < |t| - 1 && t[1..][k].1 > 1 && line == RetransmissionLine(t[1..][k].0, t[1..][k].1) {
        var k :| 0 <= k < |t| - 1 && t[1..][k].1 > 1 && line == RetransmissionLine(t[1..][k].0, t[1..][k].1);
        assert t[k + 1] == t[1..][k];
      }
      if exists k :: 0 <= k < |t| && t[k].1 > 1 && line == RetransmissionLine(t[k].0, t[k].1) {
        var k :| 0 <= k < |t| && t[k].1 > 1 && line == RetransmissionLine(t[k].0, t[k].1);
        if k > 0 {
          assert t[1..][k - 1] == t[k];
        }
      }
    }
  }

  /** The count and the branch are read back off a retransmission line. */
  lemma RetransmissionLineInjective(b1: string, n1: nat, b2: string, n2: nat)
    requires RetransmissionLine(b1, n1) == RetransmissionLine(b2, n2)
    ensures b1 == b2 && n1 == n2
  {
    var s1, s2 := NatToString(n1), NatToString(n2);
    var l := RetransmissionLine(b1, n1);
    assert l == "INVITE retransmitted " + (s1 + ("x for branch " + b1));
    assert l == "INVITE retransmitted " + (s2 + ("x for branch " + b2));
    var t := l[21..];
    assert t == s1 + ("x for branch " + b1);
    assert t == s2 + ("x for branch " + b2);
    DigitsBeforeStop(s1, "x for branch " + b1, s2, "x for branch " + b2);
    NatToStringInjective(n1, n2);
    assert b1 == t[|s1| + 13..] == b2;
  }

  /** A digit string followed by a non-digit is read back whole. */
  lemma DigitsBeforeStop(s1: string, r1: string, s2: string, r2: string)
    requires AllDigits(s1) && AllDigits(s2) && s1 + r1 == s2 + r2
    requires r1 != [] && !IsDigit(r1[0]) && r2 != [] && !IsDigit(r2[0])
    ensures s1 == s2
  {
    var t := s1 + r1;
    assert t[|s1|] == r1[0] && t[|s2|] == r2[0];
    assert forall k :: 0 <= k < |s1| ==> t[k] == s1[k];
    assert forall k :: 0 <= k < |s2| ==> t[k] == s2[k];
    RunEndStopsAt(t, 0, |s1|, IsDigit);
    RunEndStopsAt(t, 0, |s2|, IsDigit);
    assert s1 == t[..|s1|] && s2 == t[..|s2|];
  }

  /** A retransmission is reported for a branch exactly when more than one
      INVITE block carried it, with the number of such blocks. */
  lemma RetransmittedIff(blocks: seq<Block>, b: string, n: nat)
    ensures RetransmissionLine(b, n) in ParseAnomalies(blocks) <==>
            n > 1 && n == Count(InviteBranches(blocks), b)
  {
    var bs := InviteBranches(blocks);
    var keys := Dedup(bs);
    var t := Tally(bs);
    var line := RetransmissionLine(b, n);
    var raw := BlockLines(blocks) + RetransmissionLines(t);
    TallyIsCount(bs);
    RetransmissionLinesSpec(t, line);
    assert line[0] == 'I';
    assert line in ParseAnomalies(blocks) <==> line in raw;
    assert line in raw <==> line in RetransmissionLines(t);
    if line in RetransmissionLines(t) {
      var k :| 0 <= k < |t| && t[k].1 > 1 && line == RetransmissionLine(t[k].0, t[k].1);
      RetransmissionLineInjective(b, n, t[k].0, t[k].1);
    }
    if n > 1 && n == Count(bs, b) {
      assert b in bs;
      var k :| 0 <= k < |keys| && keys[k] == b;
      assert t[k] == (b, n);
    }
  }
}

=== FILE: block_splitter.dfy ===
/** The block splitter: after header normalisation, the log is cut into
    `(timestamp, module, body)` records at every line shaped
    `YYYY-MM-DD_HH:MM:SS.ffffff <module> ...`; a record's body runs, lazily,
    up to the next such timestamp-and-module prefix or the end of the text,
    and records whose body is blank are dropped. */
module BlockSplitter {
  import opened Wrappers
  import opened Text
  import opened Scan
  import opened Models
  import HeaderNormalizer

  /** The fixed part of a log timestamp: `dddd-dd-dd_dd:dd:dd.` */
  predicate TsShapeChar(c: char, k: nat)
  {
    if k == 4 || k == 7 then c == '-'
    else if k == 10 then c == '_'
    else if k == 13 || k == 16 then c == ':'
    else if k == 19 then c == '.'
    else IsDigit(c)
  }

  predicate TsShape(t: string)
  {
    |t| == 20 && forall k :: 0 <= k < 20 ==> TsShapeChar(t[k], k)
  }

  /** The timestamp pattern `\d{4}-\d{2}-\d{2}_\d{2}:\d{2}:\d{2}\.\d+` at `i`;
      the fraction is taken greedily. */
  function TsAt(s: string, i: nat): (r: Option<Hit<string>>)
    ensures r.Some? ==> i + 21 <= r.value.end == i + |r.value.value| && Captured(s, r.value)
    ensures r.Some? ==> TsShape(r.value.value[..20]) && AllDigits(r.value.value[20..])
    ensures r.Some? ==> r.value.end == |s| || !IsDigit(s[r.value.end])
    ensures r.None? ==> i + 20 > |s| || !TsShape(s[i..i + 20]) || i + 20 == |s| || !IsDigit(s[i + 20])
  {
    if i + 20 <= |s| && TsShape(s[i..i + 20]) then
      var e := RunEnd(s, i + 20, IsDigit);
      assert s[i..e][..20] == s[i..i + 20];
      if e > i + 20 then Some(Hit(s[i..e], e)) else None
    else None
  }

  /** The look-ahead `timestamp \s+ <` that ends a block body. */
  predicate HeaderStartAt(s: string, i: nat)
  {
    match TsAt(s, i)
    case None => false
    case Some(h) =>
      var a := RunEnd(s, h.end, IsSpace);
      a > h.end && a < |s| && s[a] == '<'
  }

  /** The lazy `(.*?)(?=timestamp\s+<|\Z)`: the first index at or after `d`
      where a header starts, or the end of the text. */
  function BodyEnd(s: string, d: nat): (e: nat)
    requires d <= |s|
    ensures d <= e <= |s|
    ensures e == |s| || HeaderStartAt(s, e)
    ensures forall k :: d <= k < e ==> !HeaderStartAt(s, k)
    decreases |s| - d
  {
    if d == |s| || HeaderStartAt(s, d) then d else BodyEnd(s, d + 1)
  }

  /** What one `BLOCK_RE` match captures: the body is not yet stripped. */
  datatype RawBlock = RawBlock(ts: string, tag: string, bodyStart: nat, body: string)

  /** `BLOCK_RE` anchored at `i`: timestamp, whitespace, `<module>`, the rest
      of the header line and its newline, an optional `-----` separator
      line, then the lazy body. */
  function BlockAt(s: string, i: nat): (r: Option<Hit<RawBlock>>)
    ensures r.Some? ==> HeaderStartAt(s, i)
    ensures r.Some? ==> i < r.value.value.bodyStart <= r.value.end <= |s|
    ensures r.Some? ==> r.value.end == r.value.value.bodyStart + |r.value.value.body| && OccursAt(s, r.value.value.body, r.value.value.bodyStart)
    ensures r.Some? ==> r.value.end == |s| || HeaderStartAt(s, r.value.end)
    ensures r.Some? ==> forall k :: r.value.value.bodyStart <= k < r.value.end ==> !HeaderStartAt(s, k)
    ensures r.Some? ==> TsAt(s, i).Some? && r.value.value.ts == TsAt(s, i).value.value
  {
    match TsAt(s, i)
    case None => None
    case Some(t) =>
      var a := RunEnd(s, t.end, IsSpace);
      if !(a > t.end && a < |s| && s[a] == '<') then None
      else
        var b := RunEnd(s, a + 1, c => c != '>');
        if !(b > a + 1 && b < |s|) then None
        else
          var c := RunEnd(s, b + 1, ch => ch != '\n');
          if c == |s| then None
          else
            var d := if LitAt(s, c + 1, "-----\n") then c + 7 else c + 1;
            var e := BodyEnd(s, d);
            Some(Hit(RawBlock(t.value, s[a + 1..b], d, s[d..e]), e))
  }

  /** Every `BLOCK_RE` match of the normalised text, in order. */
  function BlockMatches(s: string): (r: seq<(nat, Hit<RawBlock>)>)
    ensures forall k :: 0 <= k < |r| ==> HeaderStartAt(s, r[k].0)
    ensures forall k :: 0 <= k < |r| - 1 ==> r[k].0 < r[k + 1].0
    ensures forall k :: 0 <= k < |r| ==> BlockAt(s, r[k].0) == Some(r[k].1)
  {
    FindAll(BlockAt, s, 0)
  }

  /** One match as a block, its body stripped. */
  function Converted(m: (nat, Hit<RawBlock>)): Block
  {
    Block(m.1.value.ts, m.1.value.tag, Strip(m.1.value.body))
  }

  /** Every match as a block, blank or not. */
  function AllConverted(ms: seq<(nat, Hit<RawBlock>)>): (r: seq<Block>)
    ensures |r| == |ms|
    ensures forall k :: 0 <= k < |ms| ==> r[k] == Converted(ms[k])
  {
    seq(|ms|, k requires 0 <= k < |ms| => Converted(ms[k]))
  }

  /** The blocks whose body is not empty, in order. */
  function NonBlank(bs: seq<Block>): (r: seq<Block>)
    ensures |r| <= |bs|
    ensures forall k :: 0 <= k < |r| ==> r[k].body != []
  {
    if bs == [] then []
    else if bs[0].body != [] then [bs[0]] + NonBlank(bs[1..])
    else NonBlank(bs[1..])
  }

  /** Exactly the non-blank blocks are kept: each kept block is one of the
      inputs, and each non-blank input is kept. */
  lemma {:induction false} NonBlankMembers(bs: seq<Block>)
    ensures forall k :: 0 <= k < |NonBlank(bs)| ==> NonBlank(bs)[k] in bs
    ensures forall k :: 0 <= k < |bs| && bs[k].body != [] ==> bs[k] in NonBlank(bs)
  {
    if bs != [] {
      NonBlankMembers(bs[1..]);
      var r := NonBlank(bs);
      var t := NonBlank(bs[1..]);
      forall k | 0 <= k < |r|
        ensures r[k] in bs
      {
        if bs[0].body != [] && k > 0 {
          assert r[k] == t[k - 1];
        }
      }
      forall k | 1 <= k < |bs| && bs[k].body != []
        ensures bs[k] in r
      {
        assert bs[k] == bs[1..][k - 1];
      }
    }
  }

  /** Dropping the blank blocks commutes with concatenation, so the kept
      blocks stay in source order. */
  lemma {:induction false} NonBlankAppend(a: seq<Block>, b: seq<Block>)
    ensures NonBlank(a + b) == NonBlank(a) + NonBlank(b)
  {
    if a == [] {
      assert a + b == b;
    } else {
      var ab := a + b;
      assert ab[0] == a[0];
      assert ab[1..] == a[1..] + b;
      NonBlankAppend(a[1..], b);
      if a[0].body != [] {
        calc {
          NonBlank(ab);
          [a[0]] + NonBlank(a[1..] + b);
          [a[0]] + (NonBlank(a[1..]) + NonBlank(b));
          ([a[0]] + NonBlank(a[1..])) + NonBlank(b);
        }
      } else {
        assert NonBlank(ab) == NonBlank(a[1..] + b);
      }
    }
  }

  /** `_extract_blocks`: every body is stripped and non-empty. */
  function ExtractBlocks(log: string): (r: seq<Block>)
    ensures forall k :: 0 <= k < |r| ==> r[k].body != [] && IsStripped(r[k].body)
    ensures |r| <= |BlockMatches(HeaderNormalizer.Normalize(log))|
  {
    var all := AllConverted(BlockMatches(HeaderNormalizer.Normalize(log)));
    NonBlankMembers(all);
    NonBlank(all)
  }

  /** A header whose body is blank yields no block; every other header
      yields its block. */
  lemma ExtractBlocksSpec(log: string)
    ensures var ms := BlockMatches(HeaderNormalizer.Normalize(log));
      && (forall k :: 0 <= k < |ms| && Strip(ms[k].1.value.body) != [] ==> Converted(ms[k]) in ExtractBlocks(log))
      && (forall k :: 0 <= k < |ExtractBlocks(log)| ==> ExtractBlocks(log)[k] in AllConverted(ms))
  {
    var ms := BlockMatches(HeaderNormalizer.Normalize(log));
    NonBlankMembers(AllConverted(ms));
    forall k | 0 <= k < |ms| && Strip(ms[k].1.value.body) != []
      ensures Converted(ms[k]) in ExtractBlocks(log)
    {
      assert AllConverted(ms)[k] == Converted(ms[k]);
    }
  }
}

=== FILE: bye.dfy ===
/** `_analyze_bye`: the first BYE of the call, who sent it, and the
    evidence for why: its Reason header, the sending device, a
    de-registration, the Asterisk hang-up cause and its Q.850 code, and the
    PGW sessions torn down no later than the BYE. */
module Bye {
  import opened Wrappers
  import opened Text
  import opened Scan
  import opened Seqs
  import opened Models
  import opened Numbers
  import opened Classifier
  import opened SipFields
  import opened ChargingFields
  import opened Timestamps

  /** The sender number when the BYE has no usable `From`. */
  const Unknown := "unknown"

  const DeregisteredNote := "Device de-registered immediately after BYE"

  /** The note given when nothing else was found. */
  const DefaultNote := "No Reason header " + [EmDash] + " likely user-initiated hang-up"

  const EmDash: char := '\U{2014}'

  /** The longest raw snippet. */
  const SnippetLength := 700

  /** A non-empty hint occurs in the text. */
  predicate Names(text: string, norm: string)
  {
    norm != "" && Contains(text, norm)
  }

  /** A BYE request of the call: `^BYE\s+` on the head line and, when a
      caller or callee is given, one of them in the body. */
  predicate ByeOfCall(b: Block, callerNorm: string, calleeNorm: string)
  {
    && RequestLineFor(HeadLine(b.body), "BYE")
    && ((callerNorm == "" && calleeNorm == "") || Names(b.body, callerNorm) || Names(b.body, calleeNorm))
  }

  function ByeOf(callerNorm: string, calleeNorm: string): Block -> bool
  {
    b => ByeOfCall(b, callerNorm, calleeNorm)
  }

  /** What the BYE body shows: From number, Reason, User-Agent, hang-up
      cause text and code. */
  datatype Findings = Findings(
    from: Option<string>, reason: Option<string>, ua: Option<string>,
    cause: Option<string>, code: Option<string>)

  function FindingsOf(body: string): Findings
  {
    Findings(
      Search(FromAt, body), Search(ReasonAt, body), Search(UserAgentAt, body),
      Search(HangupCauseAt, body), Search(HangupCauseCodeAt, body))
  }

  /** The normalised From number, or `unknown`. */
  function SenderNum(f: Findings): (r: string)
    ensures f.from.None? ==> r == Unknown
    ensures f.from.Some? ==> NormalizeNumber(r) == r
  {
    match f.from
    case None => Unknown
    case Some(n) =>
      NormalizeNumberIdempotent(n);
      NormalizeNumber(n)
  }

  /** An optional text as an f-string shows it. */
  function Shown(v: Option<string>): string
  {
    match v
    case None => "None"
    case Some(s) => s
  }

  /** The sender's role: the caller or callee of the request when the number
      is theirs, otherwise the number itself. */
  function Role(req: AnalyzeRequest, num: string, callerNorm: string, calleeNorm: string): string
  {
    if callerNorm != "" && num == callerNorm then "Caller (" + Shown(req.caller) + ")"
    else if calleeNorm != "" && num == calleeNorm then "Callee (" + Shown(req.callee) + ")"
    else "+" + num
  }

  /** The three shapes of the role are told apart by their openings: the
      role names the caller exactly when the number is the caller's, the
      callee exactly when it is the callee's and not the caller's. */
  lemma RoleShows(req: AnalyzeRequest, num: string, callerNorm: string, calleeNorm: string)
    ensures var r := Role(req, num, callerNorm, calleeNorm);
            StartsWith(r, "Caller (") <==> callerNorm != "" && num == callerNorm
    ensures var r := Role(req, num, callerNorm, calleeNorm);
            StartsWith(r, "Callee (") <==>
              !(callerNorm != "" && num == callerNorm) && calleeNorm != "" && num == calleeNorm
    ensures var r := Role(req, num, callerNorm, calleeNorm);
            r == "+" + num <==>
              !(callerNorm != "" && num == callerNorm) && !(calleeNorm != "" && num == calleeNorm)
  {
    var r := Role(req, num, callerNorm, calleeNorm);
    if callerNorm != "" && num == callerNorm {
      assert r[0] == 'C' && r[5] == 'r';
    } else if calleeNorm != "" && num == calleeNorm {
      assert r[0] == 'C' && r[5] == 'e';
    } else {
      assert r[0] == '+';
    }
  }

  /** The stripped Reason text, when the header is there. */
  function ReasonText(f: Findings): (r: Option<string>)
    ensures r.Some? <==> f.reason.Some?
    ensures r.Some? ==> IsStripped(r.value)
  {
    match f.reason
    case None => None
    case Some(t) => Some(Strip(t))
  }

  /** The Q.850 cause names the analyzer knows. */
  const CauseNames: map<string, string> := map[
    "16" := "Normal call clearing",
    "17" := "User busy",
    "18" := "No user responding",
    "19" := "No answer from user",
    "21" := "Call rejected",
    "31" := "Normal, unspecified"]

  const UnknownCause := "Unknown cause"

  /** The name of a hang-up cause code, or `Unknown cause` for a code the
      table does not list. */
  function CauseName(code: string): (r: string)
    ensures r == UnknownCause <==> code !in CauseNames
  {
    if code in CauseNames then CauseNames[code] else UnknownCause
  }

  /** A note kept only when its condition holds. */
  function Note(c: bool, s: string): (r: seq<string>)
    ensures c ==> r == [s]
    ensures !c ==> r == []
  {
    if c then [s] else []
  }

  /** A block reporting the de-registration of one of the call's parties. */
  predicate Deregistered(b: Block, callerNorm: string, calleeNorm: string)
  {
    Contains(b.body, "Unregistered user") && (Names(b.body, calleeNorm) || Names(b.body, callerNorm))
  }

  function DeregisteredFor(callerNorm: string, calleeNorm: string): Block -> bool
  {
    b => Deregistered(b, callerNorm, calleeNorm)
  }

  // The PGW teardowns of the log, line by line.

  /** The teardown each line of the log shows, if any. */
  function Teardowns(log: string): (r: seq<Option<Teardown>>)
    ensures |r| == |SplitLines(log)|
    ensures forall k :: 0 <= k < |r| ==> r[k] == Search(TeardownAt, SplitLines(log)[k])
  {
    var lines := SplitLines(log);
    seq(|lines|, k requires 0 <= k < |lines| => Search(TeardownAt, lines[k]))
  }

  /** A teardown that counts: both times parse, the session ended no later
      than the BYE, and its IMSI is a given one unless none is given. */
  predicate Before(byeTs: Option<int>, callerImsi: string, calleeImsi: string, t: Option<Teardown>)
  {
    && t.Some? && byeTs.Some? && Ts(t.value.ts).Some?
    && Ts(t.value.ts).value <= byeTs.value
    && ((callerImsi == "" && calleeImsi == "") || t.value.imsi == callerImsi || t.value.imsi == calleeImsi)
  }

  function BeforeBye(byeTs: Option<int>, callerImsi: string, calleeImsi: string): Option<Teardown> -> bool
  {
    t => Before(byeTs, callerImsi, calleeImsi, t)
  }

  function TeardownNote(imsi: string): string
  {
    "PGW session for IMSI " + imsi + " torn down before/at BYE"
  }

  function NoteOf(t: Option<Teardown>): string
  {
    match t
    case None => ""
    case Some(d) => TeardownNote(d.imsi)
  }

  /** One note per counting teardown, in log order. */
  function TeardownNotes(ts: seq<Option<Teardown>>, byeTs: Option<int>, callerImsi: string, calleeImsi: string): seq<string>
  {
    Select(ts, BeforeBye(byeTs, callerImsi, calleeImsi), NoteOf)
  }

  /** What the rest of the log adds: the blocks searched for a
      de-registration, the log searched line by line for teardowns, the
      BYE's time and the request's hints. */
  datatype Context = Context(
    blocks: seq<Block>, log: string, byeTs: Option<int>,
    callerNorm: string, calleeNorm: string, callerImsi: string, calleeImsi: string)

  /** What the evidence reports, each item already read: the Reason text
      when it is not empty, the stripped device, whether a party
      de-registered, the stripped hang-up cause, the cause code, and the
      PGW notes. */
  datatype Found = Found(
    reason: Option<string>, device: Option<string>, deregistered: bool,
    cause: Option<string>, code: Option<string>, teardowns: seq<string>)

  function Stripped(v: Option<string>): Option<string>
  {
    match v
    case None => None
    case Some(t) => Some(Strip(t))
  }

  function FoundOf(f: Findings, c: Context): Found
  {
    Found(
      if Truthy(ReasonText(f)) then ReasonText(f) else None,
      Stripped(f.ua),
      FirstIndex(c.blocks, DeregisteredFor(c.callerNorm, c.calleeNorm)).Some?,
      Stripped(f.cause),
      f.code,
      TeardownNotes(Teardowns(c.log), c.byeTs, c.callerImsi, c.calleeImsi))
  }

  /** A labelled note for an item that may be missing. */
  function Labelled(tag: string, v: Option<string>): (r: seq<string>)
    ensures v.None? <==> r == []
    ensures forall e :: e in r ==> StartsWith(e, tag)
  {
    match v
    case None => []
    case Some(x) => [tag + x]
  }

  /** The Q.850 note, with the cause's name. */
  function CodeNote(code: Option<string>): (r: seq<string>)
    ensures code.None? <==> r == []
    ensures forall e :: e in r ==> StartsWith(e, "Q.850 cause ")
  {
    match code
    case None => []
    case Some(x) => ["Q.850 cause " + x + ": " + CauseName(x)]
  }

  /** The notes read from the BYE and the blocks, in the analyzer's order. */
  function HeaderNotes(fd: Found): seq<string>
  {
    Labelled("Reason header: ", fd.reason)
    + Labelled("Sent by device: ", fd.device)
    + Note(fd.deregistered, DeregisteredNote)
    + Labelled("Hangup cause: ", fd.cause)
    + CodeNote(fd.code)
  }

  function RawEvidence(fd: Found): seq<string>
  {
    HeaderNotes(fd) + fd.teardowns
  }

  /** The default note when nothing was found, then each note once. */
  function Evidence(raw: seq<string>): (r: seq<string>)
    ensures NoDups(r) && r != []
    ensures forall e :: e in r <==> e in raw || (raw == [] && e == DefaultNote)
  {
    Dedup(if raw == [] then [DefaultNote] else raw)
  }

  /** The judgment on one BYE block. */
  function Judge(req: AnalyzeRequest, b: Block, c: Context): (r: ByeInfo)
    ensures |r.rawSnippet| <= SnippetLength && StartsWith(Strip(b.body), r.rawSnippet)
    ensures r.evidence != [] && NoDups(r.evidence)
  {
    var f := FindingsOf(b.body);
    var num := SenderNum(f);
    ByeInfo(
      Role(req, num, c.callerNorm, c.calleeNorm),
      Some("+" + num),
      ReasonText(f),
      Take(Strip(b.body), SnippetLength),
      Evidence(RawEvidence(FoundOf(f, c))))
  }

  /** The index of the call's first BYE. */
  function ByeIndex(blocks: seq<Block>, callerNorm: string, calleeNorm: string): (r: Option<nat>)
    ensures r.None? <==> forall k :: 0 <= k < |blocks| ==> !ByeOfCall(blocks[k], callerNorm, calleeNorm)
    ensures r.Some? ==> r.value < |blocks| && ByeOfCall(blocks[r.value], callerNorm, calleeNorm)
    ensures r.Some? ==> forall j :: 0 <= j < r.value ==> !ByeOfCall(blocks[j], callerNorm, calleeNorm)
  {
    FirstIndex(blocks, ByeOf(callerNorm, calleeNorm))
  }

  /** `_analyze_bye`; the anomaly list it is also given is not read. */
  function AnalyzeBye(req: AnalyzeRequest, blocks: seq<Block>, callerNorm: string, calleeNorm: string,
                      callerImsi: string, calleeImsi: string): (r: Option<ByeInfo>)
    ensures r.None? <==> forall k :: 0 <= k < |blocks| ==> !ByeOfCall(blocks[k], callerNorm, calleeNorm)
    ensures r.Some? ==>
      && |r.value.rawSnippet| <= SnippetLength
      && StartsWith(Strip(blocks[ByeIndex(blocks, callerNorm, calleeNorm).value].body), r.value.rawSnippet)
      && r.value.evidence != [] && NoDups(r.value.evidence)
  {
    match ByeIndex(blocks, callerNorm, calleeNorm)
    case None => None
    case Some(i) =>
      Some(Judge(req, blocks[i], Context(blocks, req.log, Ts(blocks[i].ts), callerNorm, calleeNorm, callerImsi, calleeImsi)))
  }

  // Properties of the evidence list.

  /** The notes' openings: no gathered note is the default one, and only the
      PGW notes open with `P`. */
  predicate Opens(e: string, c: char)
  {
    e != [] && e[0] == c
  }

  /** No note read from the BYE or the blocks opens with `N` or `P`. */
  lemma HeaderNotesOpenings(fd: Found, e: string)
    requires e in HeaderNotes(fd)
    ensures e != [] && e[0] != 'N' && e[0] != 'P'
  {
    var a := Labelled("Reason header: ", fd.reason);
    var b := Labelled("Sent by device: ", fd.device);
    var d := Note(fd.deregistered, DeregisteredNote);
    var h := Labelled("Hangup cause: ", fd.cause);
    var q := CodeNote(fd.code);
    assert HeaderNotes(fd) == a + b + d + h + q;
    if e in a {
      assert e[0] == 'R';
    } else if e in b {
      assert e[0] == 'S';
    } else if e in d {
      assert e[0] == 'D';
    } else if e in h {
      assert e[0] == 'H';
    } else {
      assert e in q;
      assert e[0] == 'Q';
    }
  }

  lemma TeardownNotesOpen(ts: seq<Option<Teardown>>, byeTs: Option<int>, callerImsi: string, calleeImsi: string, e: string)
    requires e in TeardownNotes(ts, byeTs, callerImsi, calleeImsi)
    ensures Opens(e, 'P')
  {
    SelectMembers(ts, BeforeBye(byeTs, callerImsi, calleeImsi), NoteOf, e);
  }

  /** The PGW notes are the teardown notes of some lines. */
  predicate FromTeardowns(fd: Found, ts: seq<Option<Teardown>>, c: Context)
  {
    fd.teardowns == TeardownNotes(ts, c.byeTs, c.callerImsi, c.calleeImsi)
  }

  /** No gathered note opens with `N`. */
  predicate NoneOpensN(raw: seq<string>)
  {
    forall e :: e in raw ==> e != [] && e[0] != 'N'
  }

  lemma DefaultIffEmpty(raw: seq<string>)
    requires NoneOpensN(raw)
    ensures DefaultNote in Evidence(raw) <==> raw == []
  {
    assert DefaultNote[0] == 'N';
  }

  lemma RawOpenings(fd: Found, ts: seq<Option<Teardown>>, c: Context)
    requires FromTeardowns(fd, ts, c)
    ensures NoneOpensN(RawEvidence(fd))
  {
    forall e | e in RawEvidence(fd) ensures e != [] && e[0] != 'N' {
      if e in HeaderNotes(fd) {
        HeaderNotesOpenings(fd, e);
      } else {
        TeardownNotesOpen(ts, c.byeTs, c.callerImsi, c.calleeImsi, e);
      }
    }
  }

  /** The default note stands exactly when nothing else was found. */
  lemma DefaultIffNothingFound(fd: Found, ts: seq<Option<Teardown>>, c: Context)
    requires FromTeardowns(fd, ts, c)
    ensures DefaultNote in Evidence(RawEvidence(fd)) <==> RawEvidence(fd) == []
  {
    RawOpenings(fd, ts, c);
    DefaultIffEmpty(RawEvidence(fd));
  }

  /** The IMSI can be read back from a teardown note. */
  lemma TeardownNoteInjective(a: string, b: string)
    requires TeardownNote(a) == TeardownNote(b)
    ensures a == b
  {
    var n := TeardownNote(a);
    assert a == n[21..|n| - 24];
    assert b == TeardownNote(b)[21..|n| - 24];
  }

  /** A PGW note is given for an IMSI exactly when some line of the log
      shows that IMSI's session torn down, in time and for the call. */
  lemma TeardownEvidence(fd: Found, ts: seq<Option<Teardown>>, c: Context, imsi: string)
    requires FromTeardowns(fd, ts, c)
    ensures TeardownNote(imsi) in Evidence(RawEvidence(fd)) <==>
            exists k :: 0 <= k < |ts| && Before(c.byeTs, c.callerImsi, c.calleeImsi, ts[k]) && ts[k].value.imsi == imsi
  {
    var e := TeardownNote(imsi);
    var keep := BeforeBye(c.byeTs, c.callerImsi, c.calleeImsi);
    SelectMembers(ts, keep, NoteOf, e);
    assert Opens(e, 'P');
    if e in Evidence(RawEvidence(fd)) {
      if e in HeaderNotes(fd) {
        HeaderNotesOpenings(fd, e);
      }
      var k :| 0 <= k < |ts| && keep(ts[k]) && e == NoteOf(ts[k]);
      TeardownNoteInjective(ts[k].value.imsi, imsi);
    }
  }

  /** A Reason header with text leads the evidence. */
  lemma ReasonLeads(fd: Found)
    requires fd.reason.Some?
    ensures Evidence(RawEvidence(fd))[0] == "Reason header: " + fd.reason.value
  {
    var raw := RawEvidence(fd);
    assert raw[0] == "Reason header: " + fd.reason.value;
    DedupHead(raw);
  }

  /** The BYE's sender is shown as `+` and a normalised number, or as
      `+unknown` when the BYE has no `From` number; the role is that number
      unless it is the caller's or the callee's. */
  lemma SenderShown(req: AnalyzeRequest, b: Block, c: Context)
    ensures var r := Judge(req, b, c);
            var f := FindingsOf(b.body);
            && r.senderNumber.Some? && StartsWith(r.senderNumber.value, "+")
            && (f.from.None? ==> r.senderNumber.value[1..] == Unknown)
            && (f.from.Some? ==> NormalizeNumber(r.senderNumber.value[1..]) == r.senderNumber.value[1..])
            && (r.sender == r.senderNumber.value <==>
                  !(c.callerNorm != "" && r.senderNumber.value[1..] == c.callerNorm) &&
                  !(c.calleeNorm != "" && r.senderNumber.value[1..] == c.calleeNorm))
  {
    var f := FindingsOf(b.body);
    var num := SenderNum(f);
    assert ("+" + num)[1..] == num;
    RoleShows(req, num, c.callerNorm, c.calleeNorm);
  }
}

=== FILE: charging_fields.dfy ===
/** The charging and teardown patterns: the Diameter credit-control fields
    the anomaly pass reads from an XML dump (the subscription id, the
    request type and the service context, as in section 8 of RFC 4006), the
    plain `pgw_session` IMSI, the Asterisk hang-up cause headers of a BYE,
    and the PGW session-delete line the BYE pass looks for. */
module ChargingFields {
  import opened Wrappers
  import opened Text
  import opened Scan
  import BlockSplitter
  import opened SipFields

  const TypeOpen := "<SubscriptionIdType>"
  const TypeClose := "</SubscriptionIdType>"
  const DataOpen := "<SubscriptionIdData>"
  const DataClose := "</SubscriptionIdData>"

  /** `<SubscriptionIdType>kind</SubscriptionIdType>\s*<SubscriptionIdData>(\d+)</SubscriptionIdData>`
      at `i`, ignoring case. No run can give anything back that the next
      literal would accept, so each run is maximal. */
  function SubscriptionIdAt(s: string, i: nat, kind: string): (r: Option<Hit<string>>)
    ensures r.Some? ==> LitAtCI(s, i, TypeOpen + kind + TypeClose)
    ensures r.Some? ==> r.value.value != [] && AllDigits(r.value.value)
    ensures r.Some? ==> i + |TypeOpen + kind + TypeClose| <= r.value.end - |DataClose| - |r.value.value| - |DataOpen|
  {
    var head := TypeOpen + kind + TypeClose;
    if !LitAtCI(s, i, head) then None
    else DataAt(s, RunEnd(s, i + |head|, IsSpace))
  }

  /** `<SubscriptionIdData>(\d+)</SubscriptionIdData>` at `a`. */
  function DataAt(s: string, a: nat): (r: Option<Hit<string>>)
    requires a <= |s|
    ensures r.Some? ==> r.value.value != [] && AllDigits(r.value.value)
    ensures r.Some? ==> var d := a + |DataOpen|;
              && r.value.end == d + |r.value.value| + |DataClose| <= |s|
              && s[d..d + |r.value.value|] == r.value.value
  {
    if !LitAtCI(s, a, DataOpen) then None
    else
      var d := a + |DataOpen|;
      var e := RunEnd(s, d, IsDigit);
      if e == d || !LitAtCI(s, e, DataClose) then None
      else Some(Hit(s[d..e], e + |DataClose|))
  }

  /** The IMSI of the XML dump. */
  function ImsiAt(s: string, i: nat): Option<Hit<string>>
  {
    SubscriptionIdAt(s, i, "imsi")
  }

  /** The E.164 number (MSISDN) of the XML dump. */
  function E164At(s: string, i: nat): Option<Hit<string>>
  {
    SubscriptionIdAt(s, i, "e164")
  }

  /** `<CcRequestType>(\w+)</CcRequestType>` at `i`, ignoring case. */
  function RequestTypeAt(s: string, i: nat): (r: Option<Hit<string>>)
    ensures r.Some? ==> LitAtCI(s, i, "<CcRequestType>")
    ensures r.Some? ==> r.value.value != [] && forall k :: 0 <= k < |r.value.value| ==> IsWordChar(r.value.value[k])
    ensures r.Some? ==> i + 31 < r.value.end <= |s| && LitAtCI(s, r.value.end - 16, "</CcRequestType>")
  {
    if !LitAtCI(s, i, "<CcRequestType>") then None
    else
      var d := i + 15;
      var e := RunEnd(s, d, IsWordChar);
      if e == d || !LitAtCI(s, e, "</CcRequestType>") then None
      else
        assert forall k :: 0 <= k < e - d ==> s[d..e][k] == s[d + k];
        Some(Hit(s[d..e], e + 16))
  }

  /** `<ServiceContextId>(\d+)@` at `i`, ignoring case: the service code
      before the `@` of the context id. */
  function ServiceContextAt(s: string, i: nat): (r: Option<Hit<string>>)
    ensures r.Some? ==> LitAtCI(s, i, "<ServiceContextId>")
    ensures r.Some? ==> r.value.value != [] && AllDigits(r.value.value)
    ensures r.Some? ==> i + 19 < r.value.end <= |s| && s[r.value.end - 1] == '@'
  {
    if !LitAtCI(s, i, "<ServiceContextId>") then None
    else
      var d := i + 18;
      var e := RunEnd(s, d, IsDigit);
      if e == d || e == |s| || s[e] != '@' then None
      else Some(Hit(s[d..e], e + 1))
  }

  /** The class `["\s:]` between `pgw_session` and the IMSI. */
  predicate SessionSep(c: char)
  {
    c == '"' || IsSpace(c) || c == ':'
  }

  /** `pgw_session["\s:]+(\d{15})` at `i`: exactly fifteen digits right
      after a non-empty separator run. No separator is a digit, so the run
      is maximal; the digits need not end there. */
  function SessionImsiAt(s: string, i: nat): (r: Option<Hit<string>>)
    ensures r.Some? ==> LitAt(s, i, "pgw_session")
    ensures r.Some? ==> |r.value.value| == 15 && AllDigits(r.value.value)
    ensures r.Some? ==> i + 11 < r.value.end - 15 && Captured(s, r.value)
    ensures r.Some? ==> forall k :: i + 11 <= k < r.value.end - 15 ==> SessionSep(s[k])
  {
    if !LitAt(s, i, "pgw_session") then None
    else
      var a := RunEnd(s, i + 11, SessionSep);
      if a == i + 11 || a + 15 > |s| || !AllDigits(s[a..a + 15]) then None
      else Some(Hit(s[a..a + 15], a + 15))
  }

  /** A session line written as `pgw_session`, separators and an IMSI is
      read back as that IMSI, whatever follows it. */
  lemma SessionImsiReads(sep: string, imsi: string, tail: string)
    requires sep != [] && forall k :: 0 <= k < |sep| ==> SessionSep(sep[k])
    requires |imsi| == 15 && AllDigits(imsi)
    ensures SessionImsiAt("pgw_session" + sep + imsi + tail, 0) == Some(Hit(imsi, 11 + |sep| + 15))
  {
    var s := "pgw_session" + sep + imsi + tail;
    var a := 11 + |sep|;
    assert LitAt(s, 0, "pgw_session") by { assert s[..11] == "pgw_session"; }
    forall k | 11 <= k < a ensures SessionSep(s[k]) {
      assert s[k] == sep[k - 11];
    }
    assert !SessionSep(s[a]) by { assert s[a] == imsi[0]; }
    RunEndStopsAt(s, 11, a, SessionSep);
    assert s[a..a + 15] == imsi;
  }

  /** The class `[:\s]` after the hang-up cause header names. */
  predicate CauseSep(c: char)
  {
    c == ':' || IsSpace(c)
  }

  const HangupCause := "X-Asterisk-HangupCause"
  const HangupCauseCode := "X-Asterisk-HangupCauseCode"

  /** `X-Asterisk-HangupCause[:\s]+([^\r\n]+)` at `i`. The separator run
      gives characters back until the text can start, so the text starts at
      the last index of the run, or just after it, that is not a line
      break, and never before the run's first character. */
  function HangupCauseAt(s: string, i: nat): (r: Option<Hit<string>>)
    ensures r.Some? ==> LitAt(s, i, HangupCause)
    ensures r.Some? ==> r.value.value != [] && forall k :: 0 <= k < |r.value.value| ==> !LineStop(r.value.value[k])
    ensures r.Some? ==> i + 22 < r.value.end - |r.value.value| && r.value.end <= |s|
    ensures r.Some? ==> Captured(s, r.value)
    ensures r.Some? ==> r.value.end == |s| || LineStop(s[r.value.end])
  {
    if !LitAt(s, i, HangupCause) then None
    else
      var j := i + 22;
      var a := RunEnd(s, j, CauseSep);
      if a == j then None
      else
        match LastStart(s, j + 1, a, LineStop)
        case None => None
        case Some(p) =>
          var e := RunEnd(s, p, c => !LineStop(c));
          assert forall k :: 0 <= k < e - p ==> s[p..e][k] == s[p + k];
          Some(Hit(s[p..e], e))
  }

  /** `X-Asterisk-HangupCauseCode[:\s]+(\d+)` at `i`. No separator is a
      digit, so the digits start right after the maximal separator run. */
  function HangupCauseCodeAt(s: string, i: nat): (r: Option<Hit<string>>)
    ensures r.Some? ==> LitAt(s, i, HangupCauseCode)
    ensures r.Some? ==> r.value.value != [] && AllDigits(r.value.value)
    ensures r.Some? ==> i + 26 < r.value.end - |r.value.value| && r.value.end <= |s|
    ensures r.Some? ==> Captured(s, r.value)
    ensures r.Some? ==> r.value.end == |s| || !IsDigit(s[r.value.end])
  {
    if !LitAt(s, i, HangupCauseCode) then None
    else
      var j := i + 26;
      var a := RunEnd(s, j, CauseSep);
      var e := RunEnd(s, a, IsDigit);
      if a == j || e == a then None else Some(Hit(s[a..e], e))
  }

  /** The hang-up cause header, when it is the code header, is followed by
      `Code` and therefore never read as a cause text at the same place:
      the text pattern finds the plain header only. */
  lemma CauseTextNotAtCode(s: string, i: nat)
    requires LitAt(s, i, HangupCauseCode)
    ensures HangupCauseAt(s, i).None?
  {
    assert s[i + 22] == 'C' by { assert s[i..i + 26][22] == s[i + 22]; }
  }

  /** The index of the first `lit` at or after `i`. */
  function FindFrom(s: string, lit: string, i: nat): (r: Option<nat>)
    requires i <= |s|
    ensures r.Some? ==> i <= r.value && LitAt(s, r.value, lit)
    ensures r.Some? ==> forall k :: i <= k < r.value ==> !LitAt(s, k, lit)
    ensures r.None? <==> forall k :: i <= k <= |s| ==> !LitAt(s, k, lit)
    decreases |s| - i
  {
    if LitAt(s, i, lit) then Some(i)
    else if i == |s| then None
    else FindFrom(s, lit, i + 1)
  }

  /** At least fifteen digits start at `k`. */
  predicate LongDigitsAt(s: string, k: nat)
  {
    k + 15 <= |s| && AllDigits(s[k..k + 15])
  }

  /** The leftmost `\d{15,}` at or after `i`, taken greedily. */
  function LongDigitsFrom(s: string, i: nat): (r: Option<Hit<string>>)
    requires i <= |s|
    ensures r.Some? ==> |r.value.value| >= 15 && AllDigits(r.value.value)
    ensures r.Some? ==> var k := r.value.end - |r.value.value|;
              i <= k && LongDigitsAt(s, k) && Captured(s, r.value)
    ensures r.Some? ==> forall k :: i <= k < r.value.end - |r.value.value| ==> !LongDigitsAt(s, k)
    ensures r.Some? ==> r.value.end == |s| || !IsDigit(s[r.value.end])
    ensures r.None? <==> forall k :: i <= k <= |s| ==> !LongDigitsAt(s, k)
    decreases |s| - i
  {
    if LongDigitsAt(s, i) then
      var e := RunEnd(s, i, IsDigit);
      assert forall k :: i <= k < i + 15 ==> s[k] == s[i..i + 15][k - i];
      assert i + 15 <= e;
      assert forall k :: 0 <= k < e - i ==> s[i..e][k] == s[i + k];
      Some(Hit(s[i..e], e))
    else if i == |s| then None
    else LongDigitsFrom(s, i + 1)
  }

  /** The marker of a PGW session teardown. */
  const SessionDelete := "pgw/session/delete"

  /** One hit of the BYE pass's `(TS).*?pgw/session/delete.*?(\d{15,})` on
      one line: the timestamp and the IMSI. */
  datatype Teardown = Teardown(ts: string, imsi: string)

  /** That pattern anchored at `i`. The timestamp's fraction is greedy and
      giving a digit back never helps the lazy gaps, so the timestamp is the
      full one; the first marker after it is the one used, because a later
      marker only leaves less text for the IMSI, which is the leftmost long
      digit run after the marker. */
  function TeardownAt(s: string, i: nat): (r: Option<Hit<Teardown>>)
    ensures r.Some? ==> BlockSplitter.TsAt(s, i).Some? && r.value.value.ts == BlockSplitter.TsAt(s, i).value.value
    ensures r.Some? ==> |r.value.value.imsi| >= 15 && AllDigits(r.value.value.imsi)
    ensures r.Some? ==> exists d :: i <= d && LitAt(s, d, SessionDelete)
  {
    match BlockSplitter.TsAt(s, i)
    case None => None
    case Some(t) =>
      match FindFrom(s, SessionDelete, t.end)
      case None => None
      case Some(d) =>
        match LongDigitsFrom(s, d + 18)
        case None => None
        case Some(h) => Some(Hit(Teardown(t.value, h.value), h.end))
  }
}

=== FILE: classifier.dfy ===
/** Per-block classification: the first meaningful line of a body, the
    direction of a SIP message, and the method label of a timeline event
    (a SIP request name, a status line as in section 7.2 of RFC 3261, or
    `INTERNAL` for everything else). */
module Classifier {
  import opened Wrappers
  import opened Text
  import opened Scan
  import opened Seqs

  /** The request methods the classifier recognises, in the order it tries
      them. */
  const SipMethods: seq<string> := ["INVITE", "BYE", "CANCEL", "REGISTER", "PRACK", "ACK",
                                    "NOTIFY", "OPTIONS", "UPDATE", "INFO", "MESSAGE", "SUBSCRIBE"]

  /** The label of a block that is neither a request nor a response. */
  const Internal := "INTERNAL"

  /** A line `_first_line` passes over: blank once stripped, or a `-----`
      separator. */
  predicate Skipped(line: string)
  {
    Strip(line) == [] || StartsWith(Strip(line), "-----")
  }

  /** A line `_first_line` stops at. */
  predicate Kept(line: string)
  {
    !Skipped(line)
  }

  /** The first kept line of `lines`, stripped, or the empty string. */
  function FirstKeptLine(lines: seq<string>): (r: string)
    ensures r != [] ==> IsStripped(r) && !StartsWith(r, "-----")
  {
    match FirstIndex(lines, Kept)
    case None => []
    case Some(k) => Strip(lines[k])
  }

  /** `_first_line`: the first line of the body that is neither blank nor a
      `-----` separator, stripped; the empty string when there is none. */
  function FirstLine(body: string): (r: string)
    ensures r != [] ==> IsStripped(r) && !StartsWith(r, "-----")
  {
    FirstKeptLine(SplitLines(body))
  }

  /** The first kept line is empty exactly when every line is passed over,
      and otherwise it is the stripped first line that is not. */
  lemma FirstKeptLineSpec(lines: seq<string>)
    ensures FirstKeptLine(lines) == [] <==> forall k :: 0 <= k < |lines| ==> !Kept(lines[k])
    ensures FirstKeptLine(lines) != [] ==>
      exists k :: 0 <= k < |lines| && FirstKeptLine(lines) == Strip(lines[k])
                  && forall j :: 0 <= j < k ==> !Kept(lines[j])
  {
    var r := FirstIndex(lines, Kept);
    if r.Some? {
      var k := r.value;
      assert FirstKeptLine(lines) == Strip(lines[k]);
      assert Strip(lines[k]) != [] by { assert Kept(lines[k]); }
    }
  }

  /** The first line of the stripped body, itself stripped, or the empty
      string for a blank body: the head line the BYE and routing passes
      look at. Unlike `FirstLine` it does not pass over a `-----`
      separator. */
  function HeadLine(body: string): (r: string)
    ensures r == [] <==> Strip(body) == []
    ensures StartsWith(Strip(body), r)
    ensures IsOneLine(r)
  {
    var t := Strip(body);
    if t == [] then []
    else
      var first := SplitLines(t)[0];
      assert first == t[..LineEnd(t, 0)];
      HeadLineOfStripped(t, first);
      Strip(first)
  }

  /** The first line of a stripped non-empty text is non-empty, and
      stripping it only removes trailing whitespace. */
  lemma HeadLineOfStripped(t: string, first: string)
    requires t != [] && IsStripped(t)
    requires first == t[..LineEnd(t, 0)]
    ensures Strip(first) != [] && StartsWith(t, Strip(first)) && IsOneLine(Strip(first))
  {
    SpaceCoversLineBreak(t[0]);
    assert LineEnd(t, 0) > 0;
    assert first[0] == t[0];
    assert LStrip(first) == first;
    var r := RStrip(first);
    assert r == first[..|r|];
    assert Strip(first) == r;
    assert !IsSpace(first[0]);
    assert t[..|r|] == r;
  }

  /** `str.startswith` for any of the request methods; the participant pass
      uses this looser test, with no whitespace required after the name. */
  predicate StartsWithMethod(line: string)
  {
    exists k :: 0 <= k < |SipMethods| && StartsWith(line, SipMethods[k])
  }

  /** `_direction`: only the first 200 characters are looked at, and
      `sending` wins over `received`. */
  function Direction(body: string): (r: string)
    ensures r == "OUT" <==> Contains(Take(body, 200), "sending")
    ensures r == "IN" <==> !Contains(Take(body, 200), "sending") && Contains(Take(body, 200), "received")
    ensures r == "OUT" || r == "IN" || r == "→"
  {
    var head := Take(body, 200);
    if Contains(head, "sending") then "OUT"
    else if Contains(head, "received") then "IN"
    else "→"
  }

  /** The direction depends on the first 200 characters only: whatever
      follows them never changes it. */
  lemma DirectionIgnoresTail(head: string, tail: string)
    requires |head| >= 200
    ensures Direction(head + tail) == Direction(head)
  {
    assert Take(head + tail, 200) == Take(head, 200);
  }

  /** The line starts with the method name `m` followed by whitespace. */
  predicate RequestLineFor(line: string, m: string)
  {
    |m| < |line| && line[..|m|] == m && IsSpace(line[|m|])
  }

  /** Index of the first method of `ms`, from `i` on, that the line starts
      with. */
  function MethodIndex(line: string, ms: seq<string>, i: nat): (r: Option<nat>)
    requires i <= |ms|
    ensures r.Some? ==> i <= r.value < |ms| && RequestLineFor(line, ms[r.value])
    ensures r.Some? ==> forall j :: i <= j < r.value ==> !RequestLineFor(line, ms[j])
    ensures r.None? <==> forall j :: i <= j < |ms| ==> !RequestLineFor(line, ms[j])
    decreases |ms| - i
  {
    if i == |ms| then None
    else if RequestLineFor(line, ms[i]) then Some(i)
    else MethodIndex(line, ms, i + 1)
  }

  /** The request method a line opens with, trying the methods in order. */
  function RequestMethod(line: string): (r: Option<string>)
    ensures r.Some? ==> r.value in SipMethods && RequestLineFor(line, r.value)
    ensures r.None? <==> forall k :: 0 <= k < |SipMethods| ==> !RequestLineFor(line, SipMethods[k])
  {
    match MethodIndex(line, SipMethods, 0)
    case None => None
    case Some(k) => Some(SipMethods[k])
  }

  /** A text made of capital letters only. */
  predicate AllCapitals(m: string)
  {
    forall j :: 0 <= j < |m| ==> IsUpper(m[j])
  }

  /** Every method name is made of capital letters only. */
  lemma MethodNamesAreCapitals()
    ensures forall m :: m in SipMethods ==> AllCapitals(m)
  {
  }

  /** No method name followed by whitespace can also be read as another
      method name, so the order in which the methods are tried does not
      matter: the classifier returns `m` exactly when the line opens with
      `m` and whitespace. */
  lemma RequestMethodIff(line: string, m: string)
    ensures RequestMethod(line) == Some(m) <==> m in SipMethods && RequestLineFor(line, m)
  {
    if m in SipMethods && RequestLineFor(line, m) {
      var a := RequestMethod(line).value;
      MethodNamesAreCapitals();
      forall i | 0 <= i < |m|
        ensures line[i] == m[i]
      {
        assert line[..|m|][i] == line[i];
      }
      forall i | 0 <= i < |a|
        ensures line[i] == a[i]
      {
        assert line[..|a|][i] == line[i];
      }
      assert |a| == |m|;
      assert a == line[..|a|];
    }
  }

  /** A SIP status line: the three-digit code and the reason phrase. */
  datatype Status = Status(code: string, reason: string)

  /** A status line: `SIP/2.0`, whitespace, a three-digit code,
      whitespace and a reason phrase. The reason phrase
      starts at the last non-newline character the second whitespace run can
      give back, runs to the next newline or the end, and must then be at
      the end of the text or before a final newline. */
  function StatusLine(line: string): (r: Option<Status>)
    ensures r.Some? ==> StartsWith(line, "SIP/2.0")
    ensures r.Some? ==> |r.value.code| == 3 && AllDigits(r.value.code)
    ensures r.Some? ==> r.value.reason != [] && forall k :: 0 <= k < |r.value.reason| ==> r.value.reason[k] != '\n'
    ensures r.Some? ==> var w := RunEnd(line, 7, IsSpace); 7 < w && w + 3 < |line| && line[w..w + 3] == r.value.code
    ensures !StartsWith(line, "SIP/2.0") ==> r.None?
  {
    if !StartsWith(line, "SIP/2.0") then None
    else
      var w := RunEnd(line, 7, IsSpace);
      if w == 7 || w + 3 >= |line| || !AllDigits(line[w..w + 3]) || !IsSpace(line[w + 3]) then None
      else
        var c := w + 3;
        var w2 := RunEnd(line, c, IsSpace);
        match LastStart(line, c + 1, w2, ch => ch == '\n')
        case None => None
        case Some(p) =>
          var e := RunEnd(line, p, ch => ch != '\n');
          if e == |line| || (e == |line| - 1 && line[e] == '\n') then Some(Status(line[w..c], line[p..e]))
          else None
  }

  /** The label `_parse_timeline` gives a block from its first line. */
  function MethodLabel(first: string): (r: string)
    ensures RequestMethod(first).Some? ==> r == RequestMethod(first).value
    ensures RequestMethod(first).None? && StatusLine(first).Some? ==>
              r == StatusLine(first).value.code + " " + Take(StatusLine(first).value.reason, 30)
    ensures r == Internal <==> RequestMethod(first).None? && StatusLine(first).None?
    ensures r in SipMethods <==> RequestMethod(first).Some?
  {
    match RequestMethod(first)
    case Some(m) => m
    case None =>
      if StatusLine(first).None? then Internal
      else
        var st := StatusLine(first).value;
        var text := st.code + " " + Take(st.reason, 30);
        assert IsDigit(text[0]);
        MethodNamesAreCapitals();
        text
  }
}

=== FILE: durations.dfy ===
/** `fmt` of `_timing`: a time span rendered as `Ns` below a minute and
    `Mm Ns` from a minute on, with one decimal of seconds, and no rendering
    at all for a span over an hour. Spans are integer microseconds, and
    `:.1f` is read as rounding to the nearest tenth of a second, a half
    rounding up. */
module Durations {
  import opened Wrappers
  import opened Text
  import opened Scan

  /** The sanity bound: one hour, in microseconds. */
  const Limit := 3600000000

  const MicrosPerMinute := 60000000

  /** A non-negative span in tenths of a second, rounded to the nearest. */
  function Tenths(us: nat): nat
  {
    (us + 50000) / 100000
  }

  /** A count of tenths the way `:.1f` writes it: units, point, one
      decimal. */
  function Decimal(t: nat): (r: string)
    ensures r != [] && IsDigit(r[0])
  {
    NatToString(t / 10) + "." + [DigitChar(t % 10)]
  }

  /** `:.1f` of a signed span: a negative one keeps its sign, even when it
      rounds to zero. */
  function Signed(us: int): string
  {
    if us < 0 then "-" + Decimal(Tenths(-us)) else Decimal(Tenths(us))
  }

  /** `fmt` as the source writes it: the minutes are cut from the exact span
      and the remaining seconds are rounded afterwards, so a remainder of
      59.95 s or more is shown as `60.0s`. */
  function FmtAsWritten(d: Option<int>): (r: Option<string>)
    ensures r.None? <==> d.None? || d.value > Limit
  {
    match d
    case None => None
    case Some(us) =>
      if us > Limit then None
      else if us >= MicrosPerMinute then
        Some(NatToString(us / MicrosPerMinute) + "m " + Decimal(Tenths(us % MicrosPerMinute)) + "s")
      else Some(Signed(us) + "s")
  }

  /** `fmt` with the seconds rounded before the minutes are split off: the
      shown seconds stay below sixty. The corrected analysis uses this one. */
  function Fmt(d: Option<int>): (r: Option<string>)
    ensures r.None? <==> d.None? || d.value > Limit
    ensures d.Some? && d.value < 0 ==> r.Some? && r.value != [] && r.value[0] == '-'
  {
    match d
    case None => None
    case Some(us) =>
      if us > Limit then None
      else if us >= 0 && Tenths(us) >= 600 then
        var t := Tenths(us);
        Some(NatToString(t / 600) + "m " + Decimal(t % 600) + "s")
      else Some(Signed(us) + "s")
  }

  // Reading a rendering back.

  /** The value of the digit run `s[..a]`. */
  function LeadValue(s: string, a: nat): nat
    requires a <= |s| && forall k :: 0 <= k < a ==> IsDigit(s[k])
  {
    assert AllDigits(s[..a]) by { assert forall k :: 0 <= k < a ==> s[..a][k] == s[k]; }
    DigitsValue(s[..a])
  }

  /** `digits.digit` then `s`, as tenths. */
  function ReadSeconds(s: string): Option<nat>
  {
    var a := RunEnd(s, 0, IsDigit);
    if a > 0 && |s| == a + 3 && s[a] == '.' && IsDigit(s[a + 1]) && s[a + 2] == 's' then
      Some(LeadValue(s, a) * 10 + DigitValue(s[a + 1]))
    else None
  }

  /** Minutes and a seconds reading combined, the seconds below sixty. */
  function WithMinutes(m: nat, seconds: Option<nat>): Option<nat>
  {
    match seconds
    case None => None
    case Some(t) => if t < 600 then Some(m * 600 + t) else None
  }

  /** A non-negative span display read back as tenths of a second: `Ns`, or
      `Mm Ns` whose seconds are below sixty, as on a clock. */
  function ReadDuration(s: string): Option<nat>
  {
    var a := RunEnd(s, 0, IsDigit);
    if a == 0 then None
    else if a + 2 <= |s| && s[a] == 'm' && s[a + 1] == ' ' then WithMinutes(LeadValue(s, a), ReadSeconds(s[a + 2..]))
    else ReadSeconds(s)
  }

  /** The digit run at the start of `NatToString(n) + rest` is the number. */
  lemma LeadingNumber(n: nat, rest: string)
    requires rest != [] && !IsDigit(rest[0])
    ensures var s := NatToString(n) + rest;
            var a := RunEnd(s, 0, IsDigit);
            a == |NatToString(n)| && s[..a] == NatToString(n) && s[a..] == rest
  {
    var s := NatToString(n) + rest;
    var w := NatToString(n);
    assert forall k :: 0 <= k < |w| ==> s[k] == w[k];
    assert s[|w|] == rest[0];
    RunEndStopsAt(s, 0, |w|, IsDigit);
    assert s[..|w|] == w;
  }

  /** A rendered count of tenths reads back. */
  lemma ReadSecondsOfDecimal(t: nat)
    ensures ReadSeconds(Decimal(t) + "s") == Some(t)
  {
    var w := NatToString(t / 10);
    var c := DigitChar(t % 10);
    var s := Decimal(t) + "s";
    assert s == w + ['.', c, 's'];
    LeadingNumber(t / 10, ['.', c, 's']);
    NatToStringRoundTrip(t / 10);
    assert s[|w| + 1] == c;
  }

  /** A display without minutes reads back. */
  lemma ReadPlain(t: nat)
    ensures ReadDuration(Decimal(t) + "s") == Some(t)
  {
    var w := NatToString(t / 10);
    var rest := "." + [DigitChar(t % 10)] + "s";
    assert Decimal(t) + "s" == w + rest;
    LeadingNumber(t / 10, rest);
    ReadSecondsOfDecimal(t);
  }

  /** A display with minutes reads back when its seconds are below sixty. */
  lemma ReadMinutes(m: nat, t: nat)
    requires m >= 1 && t < 600
    ensures ReadDuration(NatToString(m) + "m " + Decimal(t) + "s") == Some(m * 600 + t)
  {
    var s := NatToString(m) + "m " + Decimal(t) + "s";
    var a := |NatToString(m)|;
    MinutesHead(m, t);
    MinutesTail(m, t);
    MinutesValue(m, t);
    ReadAfterMinutes(s, a);
  }

  /** The minutes of a display end at the `m `. */
  lemma MinutesHead(m: nat, t: nat)
    ensures var s := NatToString(m) + "m " + Decimal(t) + "s";
            var a := |NatToString(m)|;
            a + 2 <= |s| && RunEnd(s, 0, IsDigit) == a && s[a] == 'm' && s[a + 1] == ' '
  {
    var w := NatToString(m);
    var rest := "m " + Decimal(t) + "s";
    assert NatToString(m) + "m " + Decimal(t) + "s" == w + rest;
    LeadingNumber(m, rest);
  }

  /** The seconds of a display with minutes read back. */
  lemma MinutesTail(m: nat, t: nat)
    ensures var s := NatToString(m) + "m " + Decimal(t) + "s";
            var a := |NatToString(m)|;
            a + 2 <= |s| && ReadSeconds(s[a + 2..]) == Some(t)
  {
    var s := NatToString(m) + "m " + Decimal(t) + "s";
    assert s[|NatToString(m)| + 2..] == Decimal(t) + "s";
    ReadSecondsOfDecimal(t);
  }

  /** The minutes of a display read back. */
  lemma MinutesValue(m: nat, t: nat)
    ensures var s := NatToString(m) + "m " + Decimal(t) + "s";
            var a := |NatToString(m)|;
            a <= |s| && (forall k :: 0 <= k < a ==> IsDigit(s[k])) && LeadValue(s, a) == m
  {
    var s := NatToString(m) + "m " + Decimal(t) + "s";
    var w := NatToString(m);
    assert s[..|w|] == w;
    NatToStringRoundTrip(m);
  }

  /** The reader's minutes branch. */
  lemma ReadAfterMinutes(s: string, a: nat)
    requires 0 < a && a + 2 <= |s| && RunEnd(s, 0, IsDigit) == a && s[a] == 'm' && s[a + 1] == ' '
    ensures ReadDuration(s) == WithMinutes(LeadValue(s, a), ReadSeconds(s[a + 2..]))
  {
  }

  /** The corrected display reads back as the rounded span: every
      non-negative span within the bound is shown, and shown truly. */
  lemma FmtReadsBack(us: int)
    requires 0 <= us <= Limit
    ensures Fmt(Some(us)).Some? && ReadDuration(Fmt(Some(us)).value) == Some(Tenths(us))
  {
    var t := Tenths(us);
    if t >= 600 {
      ReadMinutes(t / 600, t % 600);
    } else {
      ReadPlain(t);
    }
  }

  /** The as-written display of 119.96 s is `1m 60.0s`, where rounding
      first gives `2m 0.0s`. */
  lemma AsWrittenShowsSixtySeconds()
    ensures FmtAsWritten(Some(119960000)) == Some("1m 60.0s")
    ensures Fmt(Some(119960000)) == Some("2m 0.0s")
  {
    assert DigitChar(0) == '0';
    assert NatToString(60) == "60" by { assert NatToString(6) == "6"; }
    assert Decimal(600) == "60.0";
    assert Decimal(0) == "0.0";
    assert Tenths(119960000 % MicrosPerMinute) == 600;
    assert NatToString(1) == "1";
    assert NatToString(2) == "2";
    assert 119960000 / MicrosPerMinute == 1;
    assert NatToString(1) + "m " + Decimal(600) + "s" == "1m 60.0s";
    assert Tenths(119960000) == 1200 && 1200 / 600 == 2 && 1200 % 600 == 0;
    assert NatToString(2) + "m " + Decimal(0) + "s" == "2m 0.0s";
  }

  /** No clock shows `1m 60.0s`: its seconds reach sixty. */
  lemma SixtySecondsUnreadable()
    ensures ReadDuration("1m 60.0s") == None
  {
    var s := "1m 60.0s";
    RunEndStopsAt(s, 0, 1, IsDigit);
    var u := s[3..];
    assert u == "60.0s";
    RunEndStopsAt(u, 0, 2, IsDigit);
    assert LeadValue(u, 2) == 60 by {
      var w := u[..2];
      assert w == "60" && w[..1] == "6" && "6"[..0] == [];
      assert DigitsValue(w) == 60;
    }
    ReadAfterMinutes(s, 1);
  }

  /** Splitting a span at a minute boundary then rounding agrees with
      rounding first whenever the remainder is short of 59.95 s. */
  lemma FmtAgrees(us: int)
    requires 0 <= us <= Limit
    requires us % MicrosPerMinute < MicrosPerMinute - 50000
    ensures FmtAsWritten(Some(us)) == Fmt(Some(us))
  {
    var q, r := us / MicrosPerMinute, us % MicrosPerMinute;
    assert us + 50000 == q * 60000000 + (r + 50000);
    assert Tenths(us) == q * 600 + Tenths(r);
    assert Tenths(r) < 600;
    if us >= MicrosPerMinute {
      var t := Tenths(us);
      assert t / 600 == q && t % 600 == Tenths(r);
    }
  }
}

=== FILE: header_normalizer.dfy ===
/** The header normaliser of the parser: capture tools sometimes glue SIP
    headers onto one line, so a newline is put in front of every whitelisted
    `Name:` that is followed by a whitespace character, scanning left to
    right as `re.sub` does. */
module HeaderNormalizer {
  import opened Wrappers
  import opened Text

  /** The whitelisted header names, in the order of the alternation. */
  const HeaderNames: seq<string> := [
    "Via", "From", "To", "Call-ID", "CSeq", "Contact", "User-Agent",
    "P-RTP-Stat", "P-Asserted-Identity", "P-Access-Network-Info",
    "Allow", "Content-Length", "Content-Type", "Reason", "Route",
    "Supported", "Require", "Expires", "Authorization", "Security-Verify",
    "Record-Route", "Session-Expires", "X-Asterisk"]

  /** `t` starts with `name`, a colon and one whitespace character. */
  predicate IsHeaderAt(t: string, name: string)
  {
    StartsWith(t, name + ":") && |name| + 1 < |t| && IsSpace(t[|name| + 1])
  }

  function HeaderLenFrom(t: string, k: nat): (r: Option<nat>)
    requires k <= |HeaderNames|
    ensures r.Some? ==> 2 <= r.value <= |t|
    decreases |HeaderNames| - k
  {
    if k == |HeaderNames| then None
    else if IsHeaderAt(t, HeaderNames[k]) then Some(|HeaderNames[k]| + 2)
    else HeaderLenFrom(t, k + 1)
  }

  /** Length of the header match at the start of `t`, if there is one. */
  function HeaderLen(t: string): (r: Option<nat>)
    ensures r.Some? ==> 2 <= r.value <= |t|
  {
    HeaderLenFrom(t, 0)
  }

  lemma {:induction false} HeaderLenFromSpec(t: string, k: nat)
    requires k <= |HeaderNames|
    ensures HeaderLenFrom(t, k).Some? ==>
      exists j :: k <= j < |HeaderNames| && IsHeaderAt(t, HeaderNames[j]) && HeaderLenFrom(t, k).value == |HeaderNames[j]| + 2
    ensures HeaderLenFrom(t, k).None? ==> forall j :: k <= j < |HeaderNames| ==> !IsHeaderAt(t, HeaderNames[j])
    decreases |HeaderNames| - k
  {
    if k < |HeaderNames| && !IsHeaderAt(t, HeaderNames[k]) {
      HeaderLenFromSpec(t, k + 1);
    }
  }

  lemma NamesStartWithLetter()
    ensures forall j :: 0 <= j < |HeaderNames| ==> |HeaderNames[j]| > 0 && 'A' <= HeaderNames[j][0] <= 'Z'
  {
  }

  /** A text that no whitelisted name fits has no match. */
  lemma {:induction false} NoHeaderLenFrom(t: string, k: nat)
    requires k <= |HeaderNames|
    requires forall j :: k <= j < |HeaderNames| ==> !IsHeaderAt(t, HeaderNames[j])
    ensures HeaderLenFrom(t, k).None?
    decreases |HeaderNames| - k
  {
    if k < |HeaderNames| {
      NoHeaderLenFrom(t, k + 1);
    }
  }

  /** A match is some whitelisted name, its colon and one whitespace
      character; when there is none, no whitelisted name fits. */
  lemma HeaderLenSpec(t: string)
    ensures HeaderLen(t).Some? ==>
      exists j :: 0 <= j < |HeaderNames| && IsHeaderAt(t, HeaderNames[j]) && HeaderLen(t).value == |HeaderNames[j]| + 2
    ensures HeaderLen(t).None? ==> forall j :: 0 <= j < |HeaderNames| ==> !IsHeaderAt(t, HeaderNames[j])
  {
    HeaderLenFromSpec(t, 0);
  }

  /** A matcher at the start of a text: the length of the match, which is
      at least one character and at most the whole text. */
  ghost predicate Prefixes(m: string -> Option<nat>)
  {
    forall t {:trigger m(t)} :: m(t).Some? ==> 1 <= m(t).value <= |t|
  }

  /** The header matcher is one. */
  lemma HeaderLenPrefixes()
    ensures Prefixes(HeaderLen)
  {
  }

  /** One character of the normalised text, flagged when the normaliser
      inserted it. */
  datatype Piece = Piece(c: char, inserted: bool)

  /** The characters of `s`, none of them inserted. */
  function Plain(s: string): (r: seq<Piece>)
    ensures |r| == |s|
    ensures forall k :: 0 <= k < |r| ==> r[k] == Piece(s[k], false)
  {
    seq(|s|, k requires 0 <= k < |s| => Piece(s[k], false))
  }

  /** The left-to-right substitution of `re.sub` for the matcher `m`, with
      the inserted newlines flagged: at a match, a newline and the matched
      text, then the scan resumes after the match; elsewhere one character
      is copied. */
  function Marked(s: string, m: string -> Option<nat>): (r: seq<Piece>)
    requires Prefixes(m)
    ensures |r| >= |s|
    decreases |s|
  {
    if s == [] then []
    else
      match m(s)
      case Some(n) => [Piece('\n', true)] + Plain(s[..n]) + Marked(s[n..], m)
      case None => [Piece(s[0], false)] + Marked(s[1..], m)
  }

  /** The characters of a marked text. */
  function Chars(p: seq<Piece>): (r: string)
    ensures |r| == |p|
    ensures forall k :: 0 <= k < |p| ==> r[k] == p[k].c
  {
    seq(|p|, k requires 0 <= k < |p| => p[k].c)
  }

  /** The characters that were not inserted. */
  function Original(p: seq<Piece>): string
  {
    if p == [] then []
    else (if p[0].inserted then [] else [p[0].c]) + Original(p[1..])
  }

  /** Number of inserted characters. */
  function InsertedCount(p: seq<Piece>): nat
  {
    if p == [] then 0 else (if p[0].inserted then 1 else 0) + InsertedCount(p[1..])
  }

  /** The normaliser's output with its insertions flagged. */
  function NormalizeMarked(s: string): seq<Piece>
  {
    HeaderLenPrefixes();
    Marked(s, HeaderLen)
  }

  /** `_normalize`. */
  function Normalize(s: string): string
  {
    Chars(NormalizeMarked(s))
  }

  /** Number of matches the left-to-right scan finds. */
  function MatchCount(s: string, m: string -> Option<nat>): nat
    requires Prefixes(m)
    decreases |s|
  {
    if s == [] then 0
    else
      match m(s)
      case Some(n) => 1 + MatchCount(s[n..], m)
      case None => MatchCount(s[1..], m)
  }

  /** Number of whitelisted headers the normaliser's scan finds. */
  function HeaderCount(s: string): nat
  {
    HeaderLenPrefixes();
    MatchCount(s, HeaderLen)
  }

  lemma {:induction false} OriginalAppend(p: seq<Piece>, q: seq<Piece>)
    ensures Original(p + q) == Original(p) + Original(q)
    ensures InsertedCount(p + q) == InsertedCount(p) + InsertedCount(q)
  {
    if p != [] {
      OriginalAppend(p[1..], q);
      assert (p + q)[1..] == p[1..] + q;
    } else {
      assert p + q == q;
    }
  }

  lemma {:induction false} OriginalPlain(s: string)
    ensures Original(Plain(s)) == s
    ensures InsertedCount(Plain(s)) == 0
  {
    if s != [] {
      OriginalPlain(s[1..]);
      assert Plain(s)[1..] == Plain(s[1..]);
    }
  }

  lemma MarkedSome(s: string, m: string -> Option<nat>, n: nat)
    requires Prefixes(m)
    requires s != [] && m(s) == Some(n)
    ensures Marked(s, m) == [Piece('\n', true)] + Plain(s[..n]) + Marked(s[n..], m)
  {
  }

  lemma MarkedNone(s: string, m: string -> Option<nat>)
    requires Prefixes(m)
    requires s != [] && m(s).None?
    ensures Marked(s, m) == [Piece(s[0], false)] + Marked(s[1..], m)
  {
  }

  /** The original characters and the insertions of a match step. */
  lemma MatchStep(head: string, rest: seq<Piece>)
    ensures Original([Piece('\n', true)] + Plain(head) + rest) == head + Original(rest)
    ensures InsertedCount([Piece('\n', true)] + Plain(head) + rest) == 1 + InsertedCount(rest)
  {
    OriginalAppend([Piece('\n', true)], Plain(head));
    OriginalAppend([Piece('\n', true)] + Plain(head), rest);
    OriginalPlain(head);
  }

  /** The original characters and the insertions of a copy step. */
  lemma CopyStep(c: char, rest: seq<Piece>)
    ensures Original([Piece(c, false)] + rest) == [c] + Original(rest)
    ensures InsertedCount([Piece(c, false)] + rest) == InsertedCount(rest)
  {
    OriginalAppend([Piece(c, false)], rest);
  }

  /** Deleting exactly the inserted characters gives the input back. */
  lemma {:induction false} DeleteInsertedRoundTrip(s: string, m: string -> Option<nat>)
    requires Prefixes(m)
    ensures Original(Marked(s, m)) == s
    ensures InsertedCount(Marked(s, m)) == MatchCount(s, m)
    decreases |s|
  {
    if s != [] {
      if m(s).Some? {
        var n := m(s).value;
        MarkedSome(s, m, n);
        DeleteInsertedRoundTrip(s[n..], m);
        MatchStep(s[..n], Marked(s[n..], m));
        assert s[..n] + s[n..] == s;
      } else {
        MarkedNone(s, m);
        DeleteInsertedRoundTrip(s[1..], m);
        CopyStep(s[0], Marked(s[1..], m));
        assert [s[0]] + s[1..] == s;
      }
    }
  }

  /** Removing the inserted newlines from the output gives the input back. */
  lemma NormalizeRoundTrip(s: string)
    ensures Original(NormalizeMarked(s)) == s
  {
    HeaderLenPrefixes();
    DeleteInsertedRoundTrip(s, HeaderLen);
  }

  /** The output is the input plus one newline per match: a second pass
      finds the same headers again, so the operation is not idempotent. */
  lemma NormalizeLength(s: string)
    ensures |Normalize(s)| == |s| + HeaderCount(s)
  {
    HeaderLenPrefixes();
    DeleteInsertedRoundTrip(s, HeaderLen);
    OriginalLength(Marked(s, HeaderLen));
  }

  lemma {:induction false} OriginalLength(p: seq<Piece>)
    ensures |Original(p)| + InsertedCount(p) == |p|
  {
    if p != [] {
      OriginalLength(p[1..]);
    }
  }

  /** Every inserted newline sits immediately before a match in the
      original text. */
  lemma {:induction false} InsertedBeforeMatch(s: string, m: string -> Option<nat>, k: nat)
    requires Prefixes(m)
    requires k < |Marked(s, m)| && Marked(s, m)[k].inserted
    ensures m(Original(Marked(s, m)[k + 1..])).Some?
    decreases |s|
  {
    if m(s).Some? {
      var n := m(s).value;
      MarkedSome(s, m, n);
      if k == 0 {
        assert Marked(s, m)[1..] == Plain(s[..n]) + Marked(s[n..], m);
        FirstInsertedBeforeMatch(s, m, n);
      } else {
        var head := [Piece('\n', true)] + Plain(s[..n]);
        ShiftInserted(head, Marked(s[n..], m), k);
        InsertedBeforeMatch(s[n..], m, k - |head|);
      }
    } else {
      MarkedNone(s, m);
      ShiftInserted([Piece(s[0], false)], Marked(s[1..], m), k);
      InsertedBeforeMatch(s[1..], m, k - 1);
    }
  }

  /** Every inserted character is a newline, followed by a character of the
      input. */
  lemma {:induction false} InsertedIsNewline(s: string, m: string -> Option<nat>, k: nat)
    requires Prefixes(m)
    requires k < |Marked(s, m)| && Marked(s, m)[k].inserted
    ensures Marked(s, m)[k].c == '\n'
    ensures k + 1 < |Marked(s, m)| && !Marked(s, m)[k + 1].inserted
    decreases |s|
  {
    if m(s).Some? {
      var n := m(s).value;
      MarkedSome(s, m, n);
      if k > 0 {
        var head := [Piece('\n', true)] + Plain(s[..n]);
        ShiftInserted(head, Marked(s[n..], m), k);
        InsertedIsNewline(s[n..], m, k - |head|);
      }
    } else {
      MarkedNone(s, m);
      ShiftInserted([Piece(s[0], false)], Marked(s[1..], m), k);
      InsertedIsNewline(s[1..], m, k - 1);
    }
  }

  /** After the first inserted newline comes the whole input. */
  lemma FirstInsertedBeforeMatch(s: string, m: string -> Option<nat>, n: nat)
    requires Prefixes(m)
    requires s != [] && m(s) == Some(n)
    ensures Original(Plain(s[..n]) + Marked(s[n..], m)) == s
  {
    var head, tail := s[..n], s[n..];
    var p, q := Plain(head), Marked(tail, m);
    assert Original(p) == head by { OriginalPlain(head); }
    assert Original(q) == tail by { DeleteInsertedRoundTrip(tail, m); }
    OriginalAppend(p, q);
    assert head + tail == s;
  }

  /** Every newline the normaliser inserts sits immediately before a
      whitelisted header of the original text. */
  lemma InsertedBeforeHeader(s: string, k: nat)
    requires k < |NormalizeMarked(s)| && NormalizeMarked(s)[k].inserted
    ensures HeaderLen(Original(NormalizeMarked(s)[k + 1..])).Some?
  {
    HeaderLenPrefixes();
    InsertedBeforeMatch(s, HeaderLen, k);
  }

  /** An inserted piece past a head with no insertion after its first
      piece is an inserted piece of the tail. */
  lemma ShiftInserted(head: seq<Piece>, tail: seq<Piece>, k: nat)
    requires k < |head + tail| && (head + tail)[k].inserted
    requires forall j :: 0 < j < |head| ==> !head[j].inserted
    requires |head| > 0 && k > 0
    ensures k >= |head| && tail[k - |head|].inserted
    ensures (head + tail)[k + 1..] == tail[k - |head| + 1..]
  {
  }

  /** A text that does not start with an upper-case letter has no match. */
  lemma NoHeaderWithoutCapital(t: string)
    requires t == [] || !('A' <= t[0] <= 'Z')
    ensures HeaderLen(t).None?
  {
    NamesStartWithLetter();
    forall j | 0 <= j < |HeaderNames|
      ensures !IsHeaderAt(t, HeaderNames[j])
    {
      var n := HeaderNames[j];
      assert (n + ":")[0] == n[0];
    }
    NoHeaderLenFrom(t, 0);
  }

  /** `To: ` is the header at the start of `To: 1`. */
  lemma HeaderLenTo()
    ensures HeaderLen("To: 1") == Some(4)
  {
    assert !IsHeaderAt("To: 1", "Via");
    assert !IsHeaderAt("To: 1", "From");
    assert IsHeaderAt("To: 1", "To");
  }

  lemma NormalizeToHeader()
    ensures Normalize("To: 1") == "\nTo: 1"
  {
    HeaderLenTo();
    NoHeaderWithoutCapital("1");
    NoHeaderWithoutCapital("");
    HeaderLenPrefixes();
    assert Marked("1", HeaderLen) == [Piece('1', false)];
    MarkedSome("To: 1", HeaderLen, 4);
    assert Marked("To: 1", HeaderLen) == [Piece('\n', true)] + Plain("To: ") + [Piece('1', false)];
  }

  /** Concretely: one pass turns `To: 1` into `\nTo: 1`, and a second pass
      adds another newline. */
  lemma NormalizeNotIdempotent()
    ensures Normalize("To: 1") == "\nTo: 1"
    ensures Normalize(Normalize("To: 1")) == "\n\nTo: 1"
  {
    NormalizeToHeader();
    NoHeaderWithoutCapital("\nTo: 1");
    HeaderLenPrefixes();
    MarkedNone("\nTo: 1", HeaderLen);
    assert "\nTo: 1"[1..] == "To: 1";
    assert Marked("\nTo: 1", HeaderLen) == [Piece('\n', false)] + Marked("To: 1", HeaderLen);
  }
}

=== FILE: media_fields.dfy ===
/** The media patterns: the `P-RTP-Stat` counter header, the codec change
    announcement and the SDP `a=rtpmap` attribute (section 6 of RFC 4566). */
module MediaFields {
  import opened Wrappers
  import opened Text
  import opened Scan

  /** The seven counters of a `P-RTP-Stat` header, in the order they are
      written: packets and octets sent, packets and octets received, packets
      lost, packets discarded, jitter. */
  const CounterNames: seq<string> := ["PS", "OS", "PR", "OR", "PL", "PD", "JI"]

  /** The header name, matched ignoring case. */
  const RtpStatName := "P-RTP-Stat:"

  /** One `NAME=?(\d+)` item at `j`, the name ignoring case. Giving back the
      `=` or a digit never lets the rest match, so the greedy choice is the
      match. */
  function CounterAt(s: string, j: nat, name: string): (r: Option<Hit<string>>)
    ensures r.Some? ==> LitAtCI(s, j, name)
    ensures r.Some? ==> r.value.value != [] && AllDigits(r.value.value)
    ensures r.Some? ==> j + |name| + |r.value.value| <= r.value.end <= |s|
    ensures r.Some? ==> Captured(s, r.value)
    ensures r.Some? ==> r.value.end == |s| || !IsDigit(s[r.value.end])
  {
    if !LitAtCI(s, j, name) then None
    else
      var d := if j + |name| < |s| && s[j + |name|] == '=' then j + |name| + 1 else j + |name|;
      var e := RunEnd(s, d, IsDigit);
      if e == d then None else Some(Hit(s[d..e], e))
  }

  /** A list of items: `item` for `names[k]`, then, for each further name,
      a comma and the next item. */
  function ItemsFrom(item: (string, nat, string) -> Option<Hit<string>>, s: string, j: nat,
                     names: seq<string>, k: nat): (r: Option<Hit<seq<string>>>)
    requires k < |names|
    ensures r.Some? ==> |r.value.value| == |names| - k
    decreases |names| - k
  {
    match item(s, j, names[k])
    case None => None
    case Some(h) =>
      if k == |names| - 1 then Some(Hit([h.value], h.end))
      else if !(h.end < |s| && s[h.end] == ',') then None
      else
        match ItemsFrom(item, s, h.end + 1, names, k + 1)
        case None => None
        case Some(t) => Some(Hit([h.value] + t.value, t.end))
  }

  /** RTP_RE at `i`: the header name, optional whitespace, then the seven
      counters. The capture is the tuple of the seven digit strings. */
  function RtpStatAt(s: string, i: nat): (r: Option<Hit<seq<string>>>)
    ensures r.Some? ==> LitAtCI(s, i, RtpStatName)
    ensures r.Some? ==> |r.value.value| == 7
  {
    if !LitAtCI(s, i, RtpStatName) then None
    else ItemsFrom(CounterAt, s, RunEnd(s, i + |RtpStatName|, IsSpace), CounterNames, 0)
  }

  /** How the counters `names[k..]` with `values[k..]` are written:
      `NAME=value` items joined by commas. */
  function RenderCounters(names: seq<string>, values: seq<string>, k: nat): string
    requires k < |names| == |values|
    decreases |names| - k
  {
    if k == |names| - 1 then names[k] + "=" + values[k]
    else names[k] + "=" + values[k] + "," + RenderCounters(names, values, k + 1)
  }

  /** At `p` stand `name`, `=` and the digits `v`, and no further digit
      follows. */
  predicate ItemWrittenAt(s: string, p: nat, name: string, v: string)
  {
    var d := p + |name| + 1;
    && d + |v| <= |s|
    && (forall t :: 0 <= t < |name| ==> s[p + t] == name[t])
    && s[p + |name|] == '='
    && (forall t :: 0 <= t < |v| ==> s[d + t] == v[t])
    && (d + |v| == |s| || !IsDigit(s[d + |v|]))
  }

  /** One written item is read by the counter pattern. */
  lemma CounterAtReadsItem(s: string, p: nat, name: string, v: string)
    requires ItemWrittenAt(s, p, name, v) && v != [] && AllDigits(v)
    ensures CounterAt(s, p, name) == Some(Hit(v, p + |name| + 1 + |v|))
  {
    var d := p + |name| + 1;
    var e := d + |v|;
    forall k | d <= k < e ensures IsDigit(s[k]) {
      assert s[k] == v[k - d];
    }
    RunEndStopsAt(s, d, e, IsDigit);
    assert LitAtCI(s, p, name);
    assert s[d..e] == v;
  }

  /** An item written as `name=value` before a non-digit. */
  lemma WrittenItem(s: string, j: nat, name: string, v: string, rest: string)
    requires rest == [] || !IsDigit(rest[0])
    requires j <= |s| && s[j..] == name + "=" + v + rest
    ensures ItemWrittenAt(s, j, name, v)
  {
    var d := j + |name| + 1;
    var e := d + |v|;
    forall t | 0 <= t < |name| ensures s[j + t] == name[t] {
      assert s[j + t] == s[j..][t];
    }
    assert s[j + |name|] == '=' by { assert s[j..][|name|] == '='; }
    forall t | 0 <= t < |v| ensures s[d + t] == v[t] {
      assert s[d + t] == s[j..][|name| + 1 + t];
    }
    if e < |s| { assert s[e] == s[j..][|name| + 1 + |v|]; }
  }

  /** Non-empty digit strings. */
  predicate DigitItems(values: seq<string>)
  {
    forall k :: 0 <= k < |values| ==> values[k] != [] && AllDigits(values[k])
  }

  /** An item followed by a comma and more text. */
  lemma ItemThenComma(s: string, j: nat, name: string, v: string, rest: string)
    requires j <= |s| && s[j..] == name + "=" + v + ("," + rest)
    ensures ItemWrittenAt(s, j, name, v)
    ensures var e := j + |name| + 1 + |v|; e < |s| && s[e] == ',' && s[e + 1..] == rest
  {
    WrittenItem(s, j, name, v, "," + rest);
    var e := j + |name| + 1 + |v|;
    assert s[e..] == "," + rest by { assert s[e..] == s[j..][|name| + 1 + |v|..]; }
    assert s[e + 1..] == s[e..][1..];
  }

  /** An item pattern that reads one item, a comma and then the rest of the
      list reads the whole list. */
  lemma ItemsFromStep(item: (string, nat, string) -> Option<Hit<string>>, s: string, j: nat,
                      names: seq<string>, k: nat, v: string, e: nat, vs: seq<string>, end: nat)
    requires k + 1 < |names|
    requires item(s, j, names[k]) == Some(Hit(v, e)) && e < |s| && s[e] == ','
    requires ItemsFrom(item, s, e + 1, names, k + 1) == Some(Hit(vs, end))
    ensures ItemsFrom(item, s, j, names, k) == Some(Hit([v] + vs, end))
  {
  }

  /** `item` reads every written item as its digits. */
  ghost predicate ReadsItems(item: (string, nat, string) -> Option<Hit<string>>)
  {
    forall s: string, p: nat, name: string, v: string {:trigger ItemWrittenAt(s, p, name, v)} ::
      ItemWrittenAt(s, p, name, v) && v != [] && AllDigits(v) ==> item(s, p, name) == Some(Hit(v, p + |name| + 1 + |v|))
  }

  /** The first of several rendered items, its comma, and the rest. */
  lemma RenderStep(s: string, j: nat, names: seq<string>, values: seq<string>, k: nat, tail: string)
    requires k + 1 < |names| == |values|
    requires j <= |s| && s[j..] == RenderCounters(names, values, k) + tail
    ensures ItemWrittenAt(s, j, names[k], values[k])
    ensures var e := j + |names[k]| + 1 + |values[k]|;
      e < |s| && s[e] == ',' && s[e + 1..] == RenderCounters(names, values, k + 1) + tail
  {
    var more := RenderCounters(names, values, k + 1);
    assert s[j..] == names[k] + "=" + values[k] + ("," + (more + tail));
    ItemThenComma(s, j, names[k], values[k], more + tail);
  }

  /** One written item read by an item pattern that reads written items. */
  lemma ReadItem(item: (string, nat, string) -> Option<Hit<string>>, s: string, p: nat, name: string, v: string)
    requires ReadsItems(item)
    requires ItemWrittenAt(s, p, name, v) && v != [] && AllDigits(v)
    ensures item(s, p, name) == Some(Hit(v, p + |name| + 1 + |v|))
  {
  }

  /** The counter pattern reads every written item. */
  lemma CounterAtReadsItems()
    ensures ReadsItems(CounterAt)
  {
    forall s: string, p: nat, name: string, v: string | ItemWrittenAt(s, p, name, v) && v != [] && AllDigits(v)
      ensures CounterAt(s, p, name) == Some(Hit(v, p + |name| + 1 + |v|))
    {
      CounterAtReadsItem(s, p, name, v);
    }
  }

  /** The text `RenderCounters` writes is read back, item by item, by any
      item pattern that reads written items. */
  lemma {:induction false} RenderedReads(item: (string, nat, string) -> Option<Hit<string>>, s: string, j: nat,
                                         names: seq<string>, values: seq<string>, k: nat, tail: string)
    requires ReadsItems(item)
    requires k < |names| == |values| && DigitItems(values)
    requires tail == [] || !IsDigit(tail[0])
    requires j <= |s| && s[j..] == RenderCounters(names, values, k) + tail
    ensures ItemsFrom(item, s, j, names, k) == Some(Hit(values[k..], |s| - |tail|))
    decreases |names| - k
  {
    if k == |names| - 1 {
      WrittenItem(s, j, names[k], values[k], tail);
      ReadItem(item, s, j, names[k], values[k]);
      assert |s| - |tail| == j + |names[k]| + 1 + |values[k]|;
      assert values[k..] == [values[k]];
    } else {
      var e := j + |names[k]| + 1 + |values[k]|;
      RenderStep(s, j, names, values, k, tail);
      ReadItem(item, s, j, names[k], values[k]);
      RenderedReads(item, s, e + 1, names, values, k + 1, tail);
      ItemsFromStep(item, s, j, names, k, values[k], e, values[k + 1..], |s| - |tail|);
      assert [values[k]] + values[k + 1..] == values[k..];
    }
  }

  /** The seven counters of a header written as `P-RTP-Stat: PS=..,OS=..`
      are read back as written: the dedup key of a sample is exactly the
      seven values of its header. */
  lemma RtpStatReads(s: string, i: nat, values: seq<string>, tail: string)
    requires |values| == 7 && DigitItems(values)
    requires tail == [] || !IsDigit(tail[0])
    requires i <= |s| && s[i..] == RtpStatName + " " + RenderCounters(CounterNames, values, 0) + tail
    ensures RtpStatAt(s, i).Some? && RtpStatAt(s, i).value.value == values
  {
    var text := RenderCounters(CounterNames, values, 0);
    assert text[0] == 'P';
    assert s[i..] == RtpStatName + " " + (text + tail);
    HeaderThenText(s, i, text + tail);
    CounterAtReadsItems();
    RenderedReads(CounterAt, s, i + 12, CounterNames, values, 0, tail);
    assert values[0..] == values;
  }

  /** The header name and one space before a text that does not start with
      whitespace: the counters start right after the space. */
  lemma HeaderThenText(s: string, i: nat, rest: string)
    requires rest != [] && !IsSpace(rest[0])
    requires i <= |s| && s[i..] == RtpStatName + " " + rest
    ensures LitAtCI(s, i, RtpStatName) && RunEnd(s, i + |RtpStatName|, IsSpace) == i + 12
    ensures s[i + 12..] == rest
  {
    assert s[i..i + 11] == RtpStatName by { assert s[i..i + 11] == s[i..][..11]; }
    forall k | 0 <= k < 11 ensures CharEqCI(s[i + k], RtpStatName[k]) {
      assert s[i..i + 11][k] == s[i + k];
    }
    assert s[i + 11] == ' ' by { assert s[i..][11] == ' '; }
    assert s[i + 12..] == rest by { assert s[i + 12..] == s[i..][12..]; }
    Head(s, i + 12, rest);
    RunEndStopsAt(s, i + 11, i + 12, IsSpace);
  }

  /** `[Ff]ormats?\s+(?:for\s+\S+\s+)?changed\s+to\s+['"]?([^\s'"]+)['"]?`
      at `i`. Every run in it is followed by a character the run cannot
      hold, so each run is maximal; the optional `for <word>` group is taken
      exactly when it is there. The trailing `strip("' ")` of the parser
      cannot change a value that holds no quote and no space. */
  function CodecAt(s: string, i: nat): (r: Option<Hit<string>>)
    ensures r.Some? ==> PatAt(s, i, "Format")
    ensures r.Some? ==> r.value.value != [] && i < r.value.end <= |s|
    ensures r.Some? ==> forall k :: 0 <= k < |r.value.value| ==> !CodecStop(r.value.value[k])
    ensures r.Some? ==> Captured(s, r.value)
    ensures r.Some? ==> r.value.end == |s| || CodecStop(s[r.value.end])
  {
    if !PatAt(s, i, "Format") then None
    else
      var a := if i + 6 < |s| && s[i + 6] == 's' then i + 7 else i + 6;
      var b := RunEnd(s, a, IsSpace);
      if b == a then None else ChangedToAt(s, ForGroupEnd(s, b))
  }

  /** `changed\s+to\s+['"]?([^\s'"]+)` at `c`. */
  function ChangedToAt(s: string, c: nat): (r: Option<Hit<string>>)
    requires c <= |s|
    ensures r.Some? ==> LitAt(s, c, "changed")
    ensures r.Some? ==> r.value.value != [] && c < r.value.end <= |s|
    ensures r.Some? ==> forall k :: 0 <= k < |r.value.value| ==> !CodecStop(r.value.value[k])
    ensures r.Some? ==> Captured(s, r.value)
    ensures r.Some? ==> r.value.end == |s| || CodecStop(s[r.value.end])
  {
    if !LitAt(s, c, "changed") then None
    else
      var d := RunEnd(s, c + 7, IsSpace);
      if d == c + 7 || !LitAt(s, d, "to") then None
      else
        var f := RunEnd(s, d + 2, IsSpace);
        if f == d + 2 then None else QuotedNameAt(s, f)
  }

  /** `['"]?([^\s'"]+)` at `f`: an optional quote, then the name. */
  function QuotedNameAt(s: string, f: nat): (r: Option<Hit<string>>)
    requires f <= |s|
    ensures r.Some? ==> r.value.value != [] && f < r.value.end <= |s|
    ensures r.Some? ==> forall k :: 0 <= k < |r.value.value| ==> !CodecStop(r.value.value[k])
    ensures r.Some? ==> Captured(s, r.value)
    ensures r.Some? ==> r.value.end == |s| || CodecStop(s[r.value.end])
  {
    var g := if f < |s| && (s[f] == '\'' || s[f] == '"') then f + 1 else f;
    var e := RunEnd(s, g, c => !CodecStop(c));
    if e == g then None
    else
      assert forall k :: 0 <= k < e - g ==> s[g..e][k] == s[g + k];
      Some(Hit(s[g..e], e))
  }

  /** The class `[\s'"]` the codec name stops at. */
  predicate CodecStop(c: char)
  {
    IsSpace(c) || c == '\'' || c == '"'
  }

  /** Where the optional `for\s+\S+\s+` group starting at `b` ends, or `b`
      when it is not there. */
  function ForGroupEnd(s: string, b: nat): (c: nat)
    requires b <= |s|
    ensures b <= c <= |s|
    ensures c > b ==> LitAt(s, b, "for")
  {
    if !LitAt(s, b, "for") then b
    else
      var w1 := RunEnd(s, b + 3, IsSpace);
      var t := RunEnd(s, w1, c => !IsSpace(c));
      var w2 := RunEnd(s, t, IsSpace);
      if w1 > b + 3 && t > w1 && w2 > t then w2 else b
  }

  /** The stop set `[\r\n/]` of an rtpmap encoding name. */
  predicate RtpmapStop(c: char)
  {
    c == '\r' || c == '\n' || c == '/'
  }

  /** `a=rtpmap:\d+\s+([^\r\n/]+)` at `i`: the payload type, whitespace, and
      the encoding name up to the first `/` or line end. The whitespace run
      gives back characters until the name can start, so the name starts at
      the last index of the run, or just after it, that holds no stop
      character. */
  function RtpmapAt(s: string, i: nat): (r: Option<Hit<string>>)
    ensures r.Some? ==> LitAt(s, i, "a=rtpmap:")
    ensures r.Some? ==> r.value.value != [] && i + 9 < r.value.end - |r.value.value| && r.value.end <= |s|
    ensures r.Some? ==> forall k :: 0 <= k < |r.value.value| ==> !RtpmapStop(r.value.value[k])
    ensures r.Some? ==> Captured(s, r.value)
    ensures r.Some? ==> r.value.end == |s| || RtpmapStop(s[r.value.end])
  {
    if !LitAt(s, i, "a=rtpmap:") then None
    else
      var d := RunEnd(s, i + 9, IsDigit);
      var w := RunEnd(s, d, IsSpace);
      if d == i + 9 || w == d then None
      else
        match LastStart(s, d + 1, w, RtpmapStop)
        case None => None
        case Some(p) =>
          var e := RunEnd(s, p, c => !RtpmapStop(c));
          Some(Hit(s[p..e], e))
  }
}

=== FILE: models.dfy ===
/** The records the analyzer exchanges with its callers (the request, the
    participants, timeline events, RTP samples, the BYE judgment and the
    response) and the parser's raw block triple. Python's `Optional[str]`
    becomes `Option<string>`; a field with a default gets that default in the
    matching constructor function below. */
module Models {
  import opened Wrappers

  /** One raw log record: timestamp, emitting module tag and stripped body. */
  datatype Block = Block(ts: string, tag: string, body: string)

  /** The analysis request: the log text is required, every hint is optional. */
  datatype AnalyzeRequest = AnalyzeRequest(
    caller: Option<string>,
    callee: Option<string>,
    callerImsi: Option<string>,
    calleeImsi: Option<string>,
    log: string,
    flags: Option<seq<string>>)

  /** A request carrying only the log: no hints and an empty flag list. */
  function RequestFor(log: string): AnalyzeRequest
  {
    AnalyzeRequest(None, None, None, None, log, Some([]))
  }

  /** A call party. */
  datatype Participant = Participant(
    role: Option<string>,
    number: Option<string>,
    imsi: Option<string>,
    device: Option<string>,
    ip: Option<string>)

  /** The role a participant has unless the request names it. */
  const UnknownRole := "Unknown"

  /** A participant with every field at its default. */
  function DefaultParticipant(): Participant
  {
    Participant(Some(UnknownRole), None, None, None, None)
  }

  /** One timeline entry, derived from one block. The parser never sets `raw`. */
  datatype TimelineEvent = TimelineEvent(
    timestamp: string,
    direction: string,
    sipMethod: string,
    description: string,
    raw: Option<string>)

  /** One P-RTP-Stat reading: sent/received packets and octets, lost,
      discarded, jitter, all kept as the digit strings of the log. */
  datatype RtpStat = RtpStat(
    leg: string,
    ps: Option<string>,
    os: Option<string>,
    pr: Option<string>,
    or: Option<string>,
    pl: Option<string>,
    pd: Option<string>,
    ji: Option<string>,
    codec: Option<string>)

  /** Who ended the call, and why. */
  datatype ByeInfo = ByeInfo(
    sender: string,
    senderNumber: Option<string>,
    reason: Option<string>,
    rawSnippet: string,
    evidence: seq<string>)

  /** One SDP body: the user agent that sent it and its `a=rtpmap` codecs. */
  datatype SdpEntry = SdpEntry(ua: string, codecs: seq<string>)

  /** The `{'offered': ..., 'answered': ...}` summary. */
  datatype SdpInfo = SdpInfo(offered: seq<SdpEntry>, answered: seq<SdpEntry>)

  /** The analysis result. */
  datatype AnalyzeResponse = AnalyzeResponse(
    participants: seq<Participant>,
    timeline: seq<TimelineEvent>,
    byeInfo: Option<ByeInfo>,
    rtpStats: seq<RtpStat>,
    anomalies: seq<string>,
    callDuration: Option<string>,
    answerTime: Option<string>,
    ringTime: Option<string>,
    sdpInfo: Option<SdpInfo>,
    pgwEvents: Option<seq<string>>,
    routingInfo: Option<seq<string>>)

  /** A response with every field at its default. */
  function EmptyResponse(): AnalyzeResponse
  {
    AnalyzeResponse([], [], None, [], [], None, None, None, None, None, None)
  }
}

=== FILE: numbers.dfy ===
/** Phone-number normalisation: leading zeros dropped, and a nine-digit
    national number given the Swiss country code. */
module Numbers {
  import opened Text

  /** The prefix given to a number left with exactly nine characters. */
  const CountryCode := "41"

  /** `_normalize_number`. */
  function NormalizeNumber(num: string): (r: string)
    ensures r == [] || r[0] != '0'
    ensures |r| == |LStripChar(num, '0')| || |r| == 11
    ensures || (|r| <= |num| && r == num[|num| - |r|..])
            || (9 <= |num| && |r| == 11 && r[..2] == CountryCode && r[2..] == num[|num| - 9..])
  {
    var core := LStripChar(num, '0');
    if |core| == 9 then CountryCode + core else core
  }

  /** The two cases of the rule: exactly nine characters after the leading
      zeros get `41` in front, everything else is the stripped string. */
  lemma NormalizeNumberCases(num: string, zeros: nat)
    requires zeros <= |num|
    requires forall i :: 0 <= i < zeros ==> num[i] == '0'
    requires zeros == |num| || num[zeros] != '0'
    ensures |num| - zeros == 9 ==> NormalizeNumber(num) == CountryCode + num[zeros..]
    ensures |num| - zeros != 9 ==> NormalizeNumber(num) == num[zeros..]
  {
    var core := LStripChar(num, '0');
    var z := |num| - |core|;
    assert core == num[z..];
    assert z == zeros;
  }

  /** Normalising twice is normalising once. */
  lemma NormalizeNumberIdempotent(num: string)
    ensures NormalizeNumber(NormalizeNumber(num)) == NormalizeNumber(num)
  {
    var r := NormalizeNumber(num);
    assert LStripChar(r, '0') == r;
  }

  /** A number written with a leading `+` and one written without it
      normalise alike once the `+` is removed. */
  function DropPlus(s: string): (r: string)
    ensures StartsWith(s, "+") ==> r == s[1..]
    ensures !StartsWith(s, "+") ==> r == s
  {
    if |s| > 0 && s[0] == '+' then s[1..] else s
  }
}

=== FILE: parser.dfy ===
/** `parse_log`: the log is cut into blocks once, and every pass reads the
    same block list. The PGW event pass is not part of this model; its list
    is a parameter. */
module Parser {
  import opened Text
  import opened Seqs
  import opened Models
  import BlockSplitter
  import Timeline
  import Participants
  import Rtp
  import Anomalies
  import Sdp

  /** The dictionary `parse_log` returns. */
  datatype ParsedLog = ParsedLog(
    timeline: seq<TimelineEvent>,
    participants: seq<Participant>,
    rtpStats: seq<RtpStat>,
    anomalies: seq<string>,
    pgwEvents: seq<string>,
    sdpInfo: SdpInfo,
    rawBlocks: seq<Block>)

  /** `parse_log`; `pgwEvents` stands for what `_parse_pgw(log)` returns. */
  function ParseLog(log: string, pgwEvents: seq<string>): (r: ParsedLog)
    ensures r.rawBlocks == BlockSplitter.ExtractBlocks(log)
    ensures forall k :: 0 <= k < |r.rawBlocks| ==> r.rawBlocks[k].body != [] && IsStripped(r.rawBlocks[k].body)
    ensures |r.timeline| == |r.rawBlocks|
    ensures forall k :: 0 <= k < |r.timeline| ==>
              r.timeline[k].timestamp == r.rawBlocks[k].ts && r.timeline[k].raw.None?
    ensures NoDups(r.anomalies)
    ensures forall k :: 0 <= k < |r.rtpStats| ==> r.rtpStats[k].codec == Rtp.Codec(log)
    ensures |r.sdpInfo.offered| <= 2 && |r.sdpInfo.answered| <= 2
    ensures r.pgwEvents == pgwEvents
  {
    var blocks := BlockSplitter.ExtractBlocks(log);
    ParsedLog(
      Timeline.ParseTimeline(blocks),
      Participants.ParseParticipants(blocks),
      Rtp.ParseRtp(blocks, log),
      Anomalies.ParseAnomalies(blocks),
      pgwEvents,
      Sdp.ParseSdp(blocks),
      blocks)
  }
}

=== FILE: participants.dfy ===
/** `_parse_participants`: every number seen in a From, To or
    P-Asserted-Identity header of a SIP block becomes one participant, keyed
    by its normalised form, in the order the numbers are first seen. The
    first block that reports a number gives its device and IP; a later block
    fills either one in only while it is still empty. */
module Participants {
  import opened Wrappers
  import opened Text
  import opened Scan
  import opened Seqs
  import opened Models
  import opened Classifier
  import opened SipFields
  import opened Numbers

  /** A block the pass reads: its first line opens with a method name or is
      a response. */
  predicate IsSipBlock(first: string)
  {
    StartsWithMethod(first) || StartsWith(first, "SIP/2.0")
  }

  /** The device a block reports: the stripped User-Agent, except that one
      naming the YATE proxy is dropped. */
  function Device(body: string): (r: Option<string>)
    ensures r.Some? ==> !Contains(r.value, "YATE")
    ensures r.Some? <==> Search(UserAgentAt, body).Some? && !Contains(Strip(Search(UserAgentAt, body).value), "YATE")
    ensures r.Some? ==> r.value == Strip(Search(UserAgentAt, body).value)
  {
    match Search(UserAgentAt, body)
    case None => None
    case Some(u) =>
      var raw := Strip(u);
      if raw != [] && Contains(raw, "YATE") then None else Some(raw)
  }

  /** The IP of the block's Contact header. */
  function ContactIp(body: string): Option<string>
  {
    match Search(ContactIpAt, body)
    case None => None
    case Some(v) => Some(Strip(v))
  }

  /** One number seen in a block, normalised, with the block's device and
      IP. */
  datatype Sighting = Sighting(norm: string, ua: Option<string>, ip: Option<string>)

  /** A captured number the pass keeps: seven to fifteen digits. */
  predicate KeptLength(num: string)
  {
    7 <= |num| <= 15
  }

  /** The kept numbers among the captures, in order. */
  function NumberSightings(nums: seq<Option<string>>, ua: Option<string>, ip: Option<string>): (r: seq<Sighting>)
    ensures |r| <= |nums|
    ensures forall k :: 0 <= k < |r| ==> r[k].ua == ua && r[k].ip == ip
  {
    if nums == [] then []
    else
      (if nums[0].Some? && KeptLength(nums[0].value) then [Sighting(NormalizeNumber(nums[0].value), ua, ip)] else [])
      + NumberSightings(nums[1..], ua, ip)
  }

  /** A kept capture is seen, normalised. */
  lemma {:induction false} NumberSightingsHold(nums: seq<Option<string>>, ua: Option<string>, ip: Option<string>, k: nat)
    requires k < |nums| && nums[k].Some? && KeptLength(nums[k].value)
    ensures exists j :: 0 <= j < |NumberSightings(nums, ua, ip)| && NumberSightings(nums, ua, ip)[j].norm == NormalizeNumber(nums[k].value)
  {
    var r := NumberSightings(nums, ua, ip);
    if k == 0 {
      assert r[0].norm == NormalizeNumber(nums[0].value);
    } else {
      NumberSightingsHold(nums[1..], ua, ip, k - 1);
      var rest := NumberSightings(nums[1..], ua, ip);
      var j :| 0 <= j < |rest| && rest[j].norm == NormalizeNumber(nums[k].value);
      var head := r[..|r| - |rest|];
      assert r == head + rest;
      assert r[|head| + j] == rest[j];
    }
  }

  /** The numbers of one block: From, To, then P-Asserted-Identity. */
  function BlockSightings(b: Block): seq<Sighting>
  {
    if !IsSipBlock(FirstLine(b.body)) then []
    else
      NumberSightings([Search(FromAt, b.body), Search(ToAt, b.body), Search(PaiAt, b.body)],
                      Device(b.body), ContactIp(b.body))
  }

  /** The numbers of all blocks, in block order. */
  function Sightings(blocks: seq<Block>): seq<Sighting>
  {
    if blocks == [] then []
    else Sightings(blocks[..|blocks| - 1]) + BlockSightings(blocks[|blocks| - 1])
  }

  /** One entry of the pass's dictionary: the key and its participant. */
  datatype Entry = Entry(norm: string, p: Participant)

  /** The participant a first sighting creates. */
  function NewParticipant(s: Sighting): Participant
  {
    Participant(Some(UnknownRole), Some("+" + s.norm), None, s.ua, s.ip)
  }

  /** A later value fills a field only while the field is not truthy. */
  function Fill(held: Option<string>, v: Option<string>): (r: Option<string>)
    ensures Truthy(held) ==> r == held
    ensures !Truthy(held) && Truthy(v) ==> r == v
    ensures !Truthy(v) ==> r == held
  {
    if Truthy(v) && !Truthy(held) then v else held
  }

  /** A repeated sighting fills the device and the IP. */
  function Refresh(p: Participant, s: Sighting): Participant
  {
    p.(device := Fill(p.device, s.ua), ip := Fill(p.ip, s.ip))
  }

  /** Where the key sits in the dictionary. */
  function KeyIndex(es: seq<Entry>, key: string): (r: Option<nat>)
    ensures r.Some? ==> r.value < |es| && es[r.value].norm == key
    ensures r.None? <==> forall k :: 0 <= k < |es| ==> es[k].norm != key
  {
    if es == [] then None
    else if es[0].norm == key then Some(0)
    else
      match KeyIndex(es[1..], key)
      case None => None
      case Some(k) => Some(k + 1)
  }

  /** One step of the loop: a new key is appended, a known one refreshed in
      place. */
  function Record(es: seq<Entry>, s: Sighting): seq<Entry>
  {
    match KeyIndex(es, s.norm)
    case None => es + [Entry(s.norm, NewParticipant(s))]
    case Some(i) => es[i := Entry(s.norm, Refresh(es[i].p, s))]
  }

  /** The whole loop. */
  function RecordAll(ss: seq<Sighting>): seq<Entry>
  {
    if ss == [] then [] else Record(RecordAll(ss[..|ss| - 1]), ss[|ss| - 1])
  }

  /** `_parse_participants`. */
  function ParseParticipants(blocks: seq<Block>): seq<Participant>
  {
    var es := RecordAll(Sightings(blocks));
    seq(|es|, k requires 0 <= k < |es| => es[k].p)
  }

  // The reference definition: what each participant ends up holding.

  /** The keys of the sightings, in order. */
  function Norms(ss: seq<Sighting>): (r: seq<string>)
    ensures |r| == |ss|
    ensures forall k :: 0 <= k < |ss| ==> r[k] == ss[k].norm
  {
    seq(|ss|, k requires 0 <= k < |ss| => ss[k].norm)
  }

  /** The two fields a sighting reports. */
  datatype Field = DeviceField | IpField

  function Get(s: Sighting, f: Field): Option<string>
  {
    match f
    case DeviceField => s.ua
    case IpField => s.ip
  }

  /** What the sightings of `key` report for field `f`, in order. */
  function Reports(ss: seq<Sighting>, key: string, f: Field): (r: seq<Option<string>>)
    ensures |r| <= |ss|
  {
    if ss == [] then []
    else Reports(ss[..|ss| - 1], key, f) + (if ss[|ss| - 1].norm == key then [Get(ss[|ss| - 1], f)] else [])
  }

  /** The value a field settles on: the first truthy report, or the first
      report when none is truthy. */
  function Settled(vals: seq<Option<string>>): Option<string>
  {
    match FirstIndex(vals, Truthy)
    case Some(i) => vals[i]
    case None => if vals == [] then None else vals[0]
  }

  /** The participant of a key, from what its sightings report. */
  function Summary(ss: seq<Sighting>, key: string): Participant
  {
    Participant(Some(UnknownRole), Some("+" + key), None,
                Settled(Reports(ss, key, DeviceField)), Settled(Reports(ss, key, IpField)))
  }

  /** The entries of the given keys, in the keys' order. */
  function Entries(ss: seq<Sighting>, keys: seq<string>): seq<Entry>
  {
    seq(|keys|, k requires 0 <= k < |keys| => Entry(keys[k], Summary(ss, keys[k])))
  }

  /** One entry per distinct key, in the order keys are first seen. */
  function Reference(ss: seq<Sighting>): seq<Entry>
  {
    Entries(ss, Dedup(Norms(ss)))
  }

  /** Keys and reports of a sighting list grown by one. */
  lemma NormsSnoc(ss: seq<Sighting>, s: Sighting)
    ensures Norms(ss + [s]) == Norms(ss) + [s.norm]
  {
  }

  lemma ReportsSnoc(ss: seq<Sighting>, s: Sighting, key: string, f: Field)
    ensures Reports(ss + [s], key, f) == Reports(ss, key, f) + (if s.norm == key then [Get(s, f)] else [])
  {
    assert (ss + [s])[..|ss|] == ss;
  }

  /** The first-truthy rule and the loop's fill rule agree. */
  lemma SettledSnoc(vals: seq<Option<string>>, v: Option<string>)
    requires vals != []
    ensures Settled(vals + [v]) == Fill(Settled(vals), v)
  {
    var xs := vals + [v];
    FirstIndexSnoc(vals, v, Truthy);
    assert xs[0] == vals[0];
    match FirstIndex(vals, Truthy)
    case Some(i) =>
      assert xs[i] == vals[i];
    case None =>
  }

  /** A key other than the new sighting's keeps its participant. */
  lemma SummaryOther(ss: seq<Sighting>, s: Sighting, key: string)
    requires key != s.norm
    ensures Summary(ss + [s], key) == Summary(ss, key)
  {
    ReportsSnoc(ss, s, key, DeviceField);
    ReportsSnoc(ss, s, key, IpField);
    assert Reports(ss + [s], key, DeviceField) == Reports(ss, key, DeviceField);
    assert Reports(ss + [s], key, IpField) == Reports(ss, key, IpField);
  }

  /** A seen key has reports. */
  lemma {:induction false} ReportsNonEmpty(ss: seq<Sighting>, key: string, f: Field)
    requires key in Norms(ss)
    ensures Reports(ss, key, f) != []
  {
    var init := ss[..|ss| - 1];
    if ss[|ss| - 1].norm != key {
      var k :| 0 <= k < |ss| && ss[k].norm == key;
      assert k < |init| && init[k].norm == key;
      assert key in Norms(init);
      ReportsNonEmpty(init, key, f);
    }
  }

  /** An unseen key has none. */
  lemma {:induction false} ReportsOfUnseen(ss: seq<Sighting>, key: string, f: Field)
    requires key !in Norms(ss)
    ensures Reports(ss, key, f) == []
  {
    if ss != [] {
      var init := ss[..|ss| - 1];
      assert forall k :: 0 <= k < |init| ==> init[k] == ss[k];
      ReportsOfUnseen(init, key, f);
    }
  }

  /** A known key is refreshed. */
  lemma SummaryKnown(ss: seq<Sighting>, s: Sighting)
    requires s.norm in Norms(ss)
    ensures Summary(ss + [s], s.norm) == Refresh(Summary(ss, s.norm), s)
  {
    ReportsSnoc(ss, s, s.norm, DeviceField);
    ReportsSnoc(ss, s, s.norm, IpField);
    ReportsNonEmpty(ss, s.norm, DeviceField);
    ReportsNonEmpty(ss, s.norm, IpField);
    SettledSnoc(Reports(ss, s.norm, DeviceField), s.ua);
    SettledSnoc(Reports(ss, s.norm, IpField), s.ip);
  }

  /** A new key starts with what its first sighting reports. */
  lemma SummaryNew(ss: seq<Sighting>, s: Sighting)
    requires s.norm !in Norms(ss)
    ensures Summary(ss + [s], s.norm) == NewParticipant(s)
  {
    ReportsSnoc(ss, s, s.norm, DeviceField);
    ReportsSnoc(ss, s, s.norm, IpField);
    ReportsOfUnseen(ss, s.norm, DeviceField);
    ReportsOfUnseen(ss, s.norm, IpField);
    assert Settled([s.ua]) == s.ua;
    assert Settled([s.ip]) == s.ip;
  }

  /** The keys after one more sighting, and where the sighting's key sits. */
  lemma KeysSnoc(ss: seq<Sighting>, s: Sighting)
    ensures var keys := Dedup(Norms(ss));
            && (s.norm in keys <==> s.norm in Norms(ss))
            && Dedup(Norms(ss + [s])) == if s.norm in keys then keys else keys + [s.norm]
  {
    NormsSnoc(ss, s);
    DedupSnoc(Norms(ss), s.norm);
  }

  /** Entries of keys the sighting does not name are unchanged by it. */
  lemma EntriesOther(ss: seq<Sighting>, s: Sighting, keys: seq<string>)
    requires s.norm !in keys
    ensures Entries(ss + [s], keys) == Entries(ss, keys)
  {
    forall k | 0 <= k < |keys| ensures Entries(ss + [s], keys)[k] == Entries(ss, keys)[k] {
      SummaryOther(ss, s, keys[k]);
    }
  }

  /** A first sighting appends a new entry. */
  lemma RecordStepNew(ss: seq<Sighting>, s: Sighting, keys: seq<string>)
    requires s.norm !in Norms(ss) && s.norm !in keys
    ensures Entries(ss, keys) + [Entry(s.norm, NewParticipant(s))] == Entries(ss + [s], keys + [s.norm])
  {
    EntriesOther(ss, s, keys);
    SummaryNew(ss, s);
    var l := Entries(ss + [s], keys + [s.norm]);
    assert l[|keys|] == Entry(s.norm, NewParticipant(s));
    assert l[..|keys|] == Entries(ss + [s], keys);
  }

  /** A repeated sighting refreshes its key's entry in place. */
  lemma RecordStepKnown(ss: seq<Sighting>, s: Sighting, keys: seq<string>, i: nat)
    requires s.norm in Norms(ss) && NoDups(keys)
    requires i < |keys| && keys[i] == s.norm
    ensures Entries(ss, keys)[i := Entry(s.norm, Refresh(Summary(ss, s.norm), s))] == Entries(ss + [s], keys)
  {
    SummaryKnown(ss, s);
    var l := Entries(ss, keys)[i := Entry(s.norm, Refresh(Summary(ss, s.norm), s))];
    forall k | 0 <= k < |keys| ensures l[k] == Entries(ss + [s], keys)[k] {
      if k != i {
        SummaryOther(ss, s, keys[k]);
      }
    }
  }

  /** The dictionary lookup finds a key exactly when it is among the
      entries' keys. */
  lemma KeyIndexOfEntries(ss: seq<Sighting>, keys: seq<string>, key: string)
    ensures KeyIndex(Entries(ss, keys), key).None? <==> key !in keys
    ensures KeyIndex(Entries(ss, keys), key).Some? ==> keys[KeyIndex(Entries(ss, keys), key).value] == key
  {
    var es := Entries(ss, keys);
    assert forall k :: 0 <= k < |keys| ==> es[k].norm == keys[k];
  }

  /** One loop step keeps the dictionary equal to the reference. */
  lemma RecordStep(ss: seq<Sighting>, s: Sighting)
    ensures Record(Reference(ss), s) == Reference(ss + [s])
  {
    var keys := Dedup(Norms(ss));
    KeysSnoc(ss, s);
    KeyIndexOfEntries(ss, keys, s.norm);
    match KeyIndex(Entries(ss, keys), s.norm)
    case None =>
      RecordStepNew(ss, s, keys);
    case Some(i) =>
      RecordStepKnown(ss, s, keys, i);
  }

  /** The loop computes the reference: one participant per distinct
      normalised number, in first-seen order, each with the first truthy
      device and IP reported for it. */
  lemma {:induction false} RecordAllIsReference(ss: seq<Sighting>)
    ensures RecordAll(ss) == Reference(ss)
  {
    if ss != [] {
      var init := ss[..|ss| - 1];
      RecordAllIsReference(init);
      RecordStep(init, ss[|ss| - 1]);
      assert init + [ss[|ss| - 1]] == ss;
    }
  }

  /** What `_parse_participants` returns, participant by participant. */
  lemma ParseParticipantsSpec(blocks: seq<Block>)
    ensures var ss := Sightings(blocks);
            var keys := Dedup(Norms(ss));
            && |ParseParticipants(blocks)| == |keys|
            && forall k :: 0 <= k < |keys| ==> ParseParticipants(blocks)[k] == Summary(ss, keys[k])
  {
    RecordAllIsReference(Sightings(blocks));
  }
}

=== FILE: relevance.dfy ===
/** The analyzer's hint normalisation and the timeline filter: the caller
    and callee hints are normalised like the numbers of the log, and when
    any hint is given the timeline keeps only the internal events and the
    events whose description mentions one of the hints. */
module Relevance {
  import opened Wrappers
  import opened Text
  import opened Seqs
  import opened Models
  import opened Numbers
  import Classifier

  /** A caller or callee hint without its leading `+`, normalised like
      any other number; an absent hint is the empty string. */
  function HintNorm(hint: Option<string>): (r: string)
    ensures r == [] || r[0] != '0'
  {
    NormalizeNumber(DropPlus(hint.GetOr("")))
  }

  /** The hint values that are not empty, as a set. */
  function Relevant(hints: seq<string>): (r: set<string>)
    ensures "" !in r
    ensures forall k :: 0 <= k < |hints| && hints[k] != "" ==> hints[k] in r
    ensures forall x :: x in r ==> x in hints
  {
    set x | x in hints && x != ""
  }

  /** Some relevant value occurs in `text`. */
  predicate Mentions(text: string, relevant: set<string>)
  {
    exists x :: x in relevant && x != "" && Contains(text, x)
  }

  /** `_is_relevant`: an empty set lets everything through. */
  predicate IsRelevant(body: string, relevant: set<string>)
  {
    relevant == {} || Mentions(body, relevant)
  }

  /** The filter's test: internal events always stay. */
  predicate Kept(relevant: set<string>, ev: TimelineEvent)
  {
    ev.sipMethod == Classifier.Internal || Mentions(ev.description, relevant)
  }

  function KeptBy(relevant: set<string>): TimelineEvent -> bool
  {
    ev => Kept(relevant, ev)
  }

  /** `_filter_timeline`. */
  function FilterTimeline(tl: seq<TimelineEvent>, relevant: set<string>): (r: seq<TimelineEvent>)
    ensures relevant == {} ==> r == tl
    ensures |r| <= |tl|
  {
    if relevant == {} then tl else Filter(tl, KeptBy(relevant))
  }

  /** With some hint given, an event stays exactly when it is internal or
      its description mentions a hint. */
  lemma FilterTimelineMembers(tl: seq<TimelineEvent>, relevant: set<string>, ev: TimelineEvent)
    requires relevant != {}
    ensures ev in FilterTimeline(tl, relevant) <==>
            ev in tl && (ev.sipMethod == Classifier.Internal || IsRelevant(ev.description, relevant))
  {
    FilterMembers(tl, KeptBy(relevant), ev);
  }

  /** The filter works event by event: filtering a concatenation
      concatenates the filtered parts, so the kept events stay in order. */
  lemma FilterTimelineAppend(a: seq<TimelineEvent>, b: seq<TimelineEvent>, relevant: set<string>)
    ensures FilterTimeline(a + b, relevant) == FilterTimeline(a, relevant) + FilterTimeline(b, relevant)
  {
    if relevant != {} {
      FilterAppend(a, b, KeptBy(relevant));
    }
  }

  /** Filtering twice with the same hints filters once. */
  lemma FilterTimelineIdempotent(tl: seq<TimelineEvent>, relevant: set<string>)
    ensures FilterTimeline(FilterTimeline(tl, relevant), relevant) == FilterTimeline(tl, relevant)
  {
    if relevant != {} {
      FilterIdempotent(tl, KeptBy(relevant));
    }
  }
}

=== FILE: roster.dfy ===
/** `_build_participants`: the parties the request names, each completed
    with the device and address the log shows for that number; or, when
    the request names nobody, the parties found in the log, one per
    normalised number. */
module Roster {
  import opened Wrappers
  import opened Text
  import opened Seqs
  import opened Models
  import opened Numbers
  import opened Relevance

  const CallerRole := "Caller (MO)"
  const CalleeRole := "Callee (MT)"

  /** The normalised number of a participant, as the roster compares them. */
  function Key(p: Participant): string
  {
    HintNorm(p.number)
  }

  /** The index of the first element whose key is `norm`. */
  function FirstWithKey<T>(xs: seq<T>, key: T -> string, norm: string): (r: Option<nat>)
    ensures r.None? <==> forall k :: 0 <= k < |xs| ==> key(xs[k]) != norm
  {
    FirstIndex(xs, (x: T) => key(x) == norm)
  }

  lemma FirstWithKeyIs<T>(xs: seq<T>, key: T -> string, norm: string, k: nat)
    requires k < |xs| && key(xs[k]) == norm
    requires forall j :: 0 <= j < k ==> key(xs[j]) != norm
    ensures FirstWithKey(xs, key, norm) == Some(k)
  {
    var p := (x: T) => key(x) == norm;
    assert p(xs[k]);
    assert forall j :: 0 <= j < k ==> !p(xs[j]);
  }

  /** `_find_device_ip`: device and address of the first detected
      participant with the number, or neither. */
  function FindDevice(detected: seq<Participant>, norm: string): (r: (Option<string>, Option<string>))
    ensures (forall k :: 0 <= k < |detected| ==> Key(detected[k]) != norm) ==> r == (None, None)
  {
    match FirstWithKey(detected, Key, norm)
    case None => (None, None)
    case Some(i) => (detected[i].device, detected[i].ip)
  }

  /** The device and address found are those of the first detected
      participant with the number. */
  lemma FindDeviceFirst(detected: seq<Participant>, norm: string, k: nat)
    requires k < |detected| && Key(detected[k]) == norm
    requires forall j :: 0 <= j < k ==> Key(detected[j]) != norm
    ensures FindDevice(detected, norm) == (detected[k].device, detected[k].ip)
  {
    FirstWithKeyIs(detected, Key, norm, k);
  }

  /** A party the request names: its number as given when it carries a
      `+`, otherwise `+` and the normalised number; its IMSI when one is
      given. */
  function Named(role: string, hint: string, norm: string, imsi: Option<string>, detected: seq<Participant>): Participant
  {
    var (ua, ip) := FindDevice(detected, norm);
    Participant(
      Some(role),
      Some(if StartsWith(hint, "+") then hint else "+" + norm),
      if Truthy(imsi) then imsi else None,
      ua, ip)
  }

  /** The named parties: the caller first, then the callee, each if given. */
  function NamedParties(req: AnalyzeRequest, detected: seq<Participant>, callerNorm: string, calleeNorm: string): seq<Participant>
  {
    (if Truthy(req.caller) then [Named(CallerRole, req.caller.value, callerNorm, req.callerImsi, detected)] else [])
    + (if Truthy(req.callee) then [Named(CalleeRole, req.callee.value, calleeNorm, req.calleeImsi, detected)] else [])
  }

  /** `xs` without the elements whose key is used or was seen before:
      the first element of each key stays, in order. */
  function KeepFirstBy<T, K>(xs: seq<T>, key: T -> K, used: set<K>): (r: seq<T>)
    ensures forall i :: 0 <= i < |r| ==> key(r[i]) !in used && r[i] in xs
    ensures forall i, j :: 0 <= i < j < |r| ==> key(r[i]) != key(r[j])
  {
    if xs == [] then []
    else if key(xs[0]) in used then KeepFirstBy(xs[1..], key, used)
    else [xs[0]] + KeepFirstBy(xs[1..], key, used + {key(xs[0])})
  }

  /** Position `k` holds the first element with its key, and that key is
      not used. */
  predicate FirstOfKey<T, K>(xs: seq<T>, key: T -> K, used: set<K>, k: nat)
    requires k < |xs|
  {
    key(xs[k]) !in used && forall j :: 0 <= j < k ==> key(xs[j]) != key(xs[k])
  }

  /** The kept elements are exactly the first elements of their keys. */
  lemma {:induction false} KeepFirstByMembers<T, K>(xs: seq<T>, key: T -> K, used: set<K>, x: T)
    ensures x in KeepFirstBy(xs, key, used) <==>
            exists k :: 0 <= k < |xs| && FirstOfKey(xs, key, used, k) && x == xs[k]
  {
    if xs != [] {
      var y := xs[0];
      var rest := xs[1..];
      var used' := if key(y) in used then used else used + {key(y)};
      KeepFirstByMembers(rest, key, used', x);
      if x in KeepFirstBy(xs, key, used) {
        if key(y) !in used && x == y {
          assert FirstOfKey(xs, key, used, 0);
        } else {
          var k :| 0 <= k < |rest| && FirstOfKey(rest, key, used', k) && x == rest[k];
          assert FirstOfKey(xs, key, used, k + 1);
        }
      }
      if exists k :: 0 <= k < |xs| && FirstOfKey(xs, key, used, k) && x == xs[k] {
        var k :| 0 <= k < |xs| && FirstOfKey(xs, key, used, k) && x == xs[k];
        if k > 0 {
          assert key(xs[0]) != key(xs[k]);
          assert FirstOfKey(rest, key, used', k - 1) && x == rest[k - 1];
        }
      }
    }
  }

  /** Every key of the list that is not used is kept: `i` is where. */
  lemma {:induction false} KeepFirstByKeepsKeys<T, K>(xs: seq<T>, key: T -> K, used: set<K>, k: nat) returns (i: nat)
    requires k < |xs| && key(xs[k]) !in used
    ensures i < |KeepFirstBy(xs, key, used)| && key(KeepFirstBy(xs, key, used)[i]) == key(xs[k])
  {
    var r := KeepFirstBy(xs, key, used);
    var y := xs[0];
    if key(y) == key(xs[k]) {
      assert r[0] == y;
      i := 0;
    } else {
      var used' := if key(y) in used then used else used + {key(y)};
      var j := KeepFirstByKeepsKeys(xs[1..], key, used', k - 1);
      var rest := KeepFirstBy(xs[1..], key, used');
      if key(y) in used {
        i := j;
        assert r[i] == rest[j];
      } else {
        i := j + 1;
        assert r[i] == rest[j];
      }
    }
  }

  /** `_build_participants`. The hints' IMSIs are read from the request;
      the normalised numbers are given. */
  function BuildParticipants(req: AnalyzeRequest, detected: seq<Participant>, callerNorm: string, calleeNorm: string): (r: seq<Participant>)
    ensures Truthy(req.caller) || Truthy(req.callee) ==>
      |r| == (if Truthy(req.caller) then 1 else 0) + (if Truthy(req.callee) then 1 else 0)
    ensures !Truthy(req.caller) && !Truthy(req.callee) ==>
      forall i, j :: 0 <= i < j < |r| ==> Key(r[i]) != Key(r[j])
  {
    if Truthy(req.caller) || Truthy(req.callee) then NamedParties(req, detected, callerNorm, calleeNorm)
    else KeepFirstBy(detected, Key, {})
  }

  /** In open mode a detected party is listed exactly when no earlier one
      has its normalised number. */
  lemma OpenRosterMembers(req: AnalyzeRequest, detected: seq<Participant>, callerNorm: string, calleeNorm: string, p: Participant)
    requires !Truthy(req.caller) && !Truthy(req.callee)
    ensures p in BuildParticipants(req, detected, callerNorm, calleeNorm) <==>
            exists k :: 0 <= k < |detected| && p == detected[k] && FirstOfKey(detected, Key, {}, k)
  {
    KeepFirstByMembers(detected, Key, {}, p);
  }

  /** In open mode every normalised number found is listed. */
  lemma OpenRosterComplete(req: AnalyzeRequest, detected: seq<Participant>, callerNorm: string, calleeNorm: string, k: nat)
    requires !Truthy(req.caller) && !Truthy(req.callee)
    requires k < |detected|
    ensures var r := BuildParticipants(req, detected, callerNorm, calleeNorm);
            exists i :: 0 <= i < |r| && Key(r[i]) == Key(detected[k])
  {
    var r := BuildParticipants(req, detected, callerNorm, calleeNorm);
    var i := KeepFirstByKeepsKeys(detected, Key, {}, k);
    assert 0 <= i < |r| && Key(r[i]) == Key(detected[k]);
  }

  /** The number a named party is shown with normalises back to the
      hint's normalised number. */
  lemma ShownNumberKey(hint: string)
    ensures var norm := HintNorm(Some(hint));
            HintNorm(Some(if StartsWith(hint, "+") then hint else "+" + norm)) == norm
  {
    var norm := HintNorm(Some(hint));
    if !StartsWith(hint, "+") {
      assert DropPlus("+" + norm) == norm;
      NormalizeNumberIdempotent(DropPlus(hint));
    }
  }

  /** A named party carries its role, a `+` number that normalises to the
      hint's normalised number, and the device of the first detected party
      with that number. */
  lemma NamedParty(role: string, hint: string, imsi: Option<string>, detected: seq<Participant>)
    ensures var norm := HintNorm(Some(hint));
            var p := Named(role, hint, norm, imsi, detected);
            && p.role == Some(role)
            && p.number.Some? && StartsWith(p.number.value, "+")
            && Key(p) == norm
            && (p.device, p.ip) == FindDevice(detected, norm)
  {
    ShownNumberKey(hint);
  }

  /** With hints, the caller comes first and the callee after it. */
  lemma NamedRoles(req: AnalyzeRequest, detected: seq<Participant>, callerNorm: string, calleeNorm: string)
    requires Truthy(req.caller) || Truthy(req.callee)
    ensures var r := BuildParticipants(req, detected, callerNorm, calleeNorm);
            && (Truthy(req.caller) ==> r[0].role == Some(CallerRole))
            && (Truthy(req.callee) ==> r[|r| - 1].role == Some(CalleeRole))
  {
  }
}

=== FILE: routing.dfy ===
/** `_routing`: for every INVITE, BYE or CANCEL block that carries a `Via:`
    or `Route:` line, one entry: the block's timestamp and head line (cut to
    70 characters), then each Via value and then each Route value on its
    own indented line. */
module Routing {
  import opened Wrappers
  import opened Text
  import opened Scan
  import opened Seqs
  import opened Models
  import opened Classifier
  import opened SipFields

  /** `^(INVITE|BYE|CANCEL)\s+` on the head line. */
  predicate Routed(first: string)
  {
    RequestLineFor(first, "INVITE") || RequestLineFor(first, "BYE") || RequestLineFor(first, "CANCEL")
  }

  /** The values of the line-start `Via:` headers, in order. */
  function Vias(body: string): seq<string>
  {
    Values(FindAll(ViaAt, body, 0))
  }

  /** The values of the line-start `Route:` headers, in order. */
  function Routes(body: string): seq<string>
  {
    Values(FindAll(RouteAt, body, 0))
  }

  /** One indented line of the entry. */
  function HopLine(tag: string, v: string): string
  {
    "\n  " + tag + ": " + Strip(v)
  }

  /** The indented lines of one header's values. */
  function HopLines(tag: string, vs: seq<string>): (r: seq<string>)
    ensures |r| == |vs|
    ensures forall k :: 0 <= k < |vs| ==> r[k] == HopLine(tag, vs[k])
  {
    seq(|vs|, k requires 0 <= k < |vs| => HopLine(tag, vs[k]))
  }

  /** The hop lines of `vs` run together: each on a new line, indented
      by two spaces, as `tag: value` with the value stripped. */
  function Hops(tag: string, vs: seq<string>): string
  {
    Join(HopLines(tag, vs), "")
  }

  /** A block the pass reports. */
  predicate HasRoute(b: Block)
  {
    Routed(HeadLine(b.body)) && (Vias(b.body) != [] || Routes(b.body) != [])
  }

  /** The entry's first line. */
  function Head(b: Block): (r: string)
    ensures StartsWith(r, "[" + b.ts + "] ")
    ensures |r| <= |b.ts| + 3 + 70
  {
    "[" + b.ts + "] " + Take(HeadLine(b.body), 70)
  }

  /** The head line followed by the Via lines and then the Route lines. */
  function Layout(head: string, vias: seq<string>, routes: seq<string>): string
  {
    head + Hops("Via", vias) + Hops("Route", routes)
  }

  function Entry(b: Block): string
  {
    Layout(Head(b), Vias(b.body), Routes(b.body))
  }

  /** `_routing`. */
  function RoutingOf(blocks: seq<Block>): (r: seq<string>)
    ensures |r| <= |blocks|
  {
    Select(blocks, HasRoute, Entry)
  }

  /** Every hop of the list shows in the joined lines. */
  lemma HopsContain(tag: string, vs: seq<string>, k: nat)
    requires k < |vs|
    ensures Contains(Hops(tag, vs), HopLine(tag, vs[k]))
  {
    JoinContains(HopLines(tag, vs), "", k);
  }

  /** A laid-out entry opens with its head, lists every Via value, and
      after all of them every Route value. */
  lemma LayoutShowsHops(head: string, vias: seq<string>, routes: seq<string>)
    ensures var e := Layout(head, vias, routes);
            var n := |head| + |Hops("Via", vias)|;
            && StartsWith(e, head)
            && n <= |e|
            && (forall k :: 0 <= k < |vias| ==> Contains(e[..n], HopLine("Via", vias[k])))
            && (forall k :: 0 <= k < |routes| ==> Contains(e[n..], HopLine("Route", routes[k])))
  {
    var e := Layout(head, vias, routes);
    var vs := Hops("Via", vias);
    var n := |head| + |vs|;
    assert e[..n] == head + vs && e[n..] == Hops("Route", routes);
    assert e[..|head|] == head;
    forall k | 0 <= k < |vias|
      ensures Contains(e[..n], HopLine("Via", vias[k]))
    {
      HopsContain("Via", vias, k);
      ContainsInAppend(head, vs, HopLine("Via", vias[k]));
    }
    forall k | 0 <= k < |routes|
      ensures Contains(e[n..], HopLine("Route", routes[k]))
    {
      HopsContain("Route", routes, k);
    }
  }

  /** A reported block's entry opens with its timestamp and cut head line,
      lists every Via value of the block, and after them every Route
      value. */
  lemma EntryShowsHops(b: Block)
    ensures var e := Entry(b);
            var n := |Head(b)| + |Hops("Via", Vias(b.body))|;
            && StartsWith(e, Head(b))
            && n <= |e|
            && (forall k :: 0 <= k < |Vias(b.body)| ==> Contains(e[..n], HopLine("Via", Vias(b.body)[k])))
            && (forall k :: 0 <= k < |Routes(b.body)| ==> Contains(e[n..], HopLine("Route", Routes(b.body)[k])))
  {
    LayoutShowsHops(Head(b), Vias(b.body), Routes(b.body));
  }

  /** An entry is reported exactly for a routed block with a Via or Route
      line. */
  lemma RoutingMembers(blocks: seq<Block>, e: string)
    ensures e in RoutingOf(blocks) <==>
            exists k :: 0 <= k < |blocks| && HasRoute(blocks[k]) && e == Entry(blocks[k])
  {
    SelectMembers(blocks, HasRoute, Entry, e);
  }

  /** The pass reads each block alone: the entries of a concatenation are
      the entries of the parts, in order. */
  lemma RoutingAppend(a: seq<Block>, b: seq<Block>)
    ensures RoutingOf(a + b) == RoutingOf(a) + RoutingOf(b)
  {
    SelectAppend(a, b, HasRoute, Entry);
  }
}

=== FILE: rtp.dfy ===
/** `_parse_rtp`: one row per distinct `P-RTP-Stat` sample. A sample is
    identified by its seven counters; a repeat of the same seven values
    (the mirrored leg of a relayed call) is dropped. Each row is labelled
    with the normalised From number of its block, else the To number, else
    its position, and every row carries the codec announced anywhere in the
    log. */
module Rtp {
  import opened Wrappers
  import opened Text
  import opened Scan
  import opened Seqs
  import opened Models
  import opened SipFields
  import opened MediaFields
  import opened Numbers

  /** One `P-RTP-Stat` occurrence with the numbers of its block. */
  datatype Sample = Sample(counters: seq<string>, from: Option<string>, to: Option<string>)

  /** The normalised capture of a number pattern. */
  function NormalizedCapture(m: Option<string>): Option<string>
  {
    match m
    case None => None
    case Some(n) => Some(NormalizeNumber(n))
  }

  /** The counter lists of a body's `P-RTP-Stat` lines, in text order. */
  function Stats(body: string): (r: seq<seq<string>>)
    ensures |r| == |FindAll(RtpStatAt, body, 0)|
    ensures forall k :: 0 <= k < |r| ==> |r[k]| == 7
  {
    Values(FindAll(RtpStatAt, body, 0))
  }

  /** One sample per counter list, all with the same numbers. */
  function SamplesOf(stats: seq<seq<string>>, from: Option<string>, to: Option<string>): (r: seq<Sample>)
    ensures |r| == |stats|
    ensures forall k :: 0 <= k < |r| ==> r[k] == Sample(stats[k], from, to)
  {
    seq(|stats|, k requires 0 <= k < |stats| => Sample(stats[k], from, to))
  }

  /** The samples of one block, in text order; all share the block's first
      From and To number. */
  function BlockSamples(b: Block): (r: seq<Sample>)
    ensures |r| == |FindAll(RtpStatAt, b.body, 0)|
    ensures forall k :: 0 <= k < |r| ==> |r[k].counters| == 7
    ensures forall k :: 0 <= k < |r| ==>
              r[k] == Sample(Stats(b.body)[k], NormalizedCapture(Search(FromAt, b.body)),
                             NormalizedCapture(Search(ToAt, b.body)))
  {
    SamplesOf(Stats(b.body), NormalizedCapture(Search(FromAt, b.body)), NormalizedCapture(Search(ToAt, b.body)))
  }

  /** The samples of all blocks, in block order. */
  function AllSamples(blocks: seq<Block>): (r: seq<Sample>)
    ensures forall k :: 0 <= k < |r| ==> |r[k].counters| == 7
  {
    if blocks == [] then []
    else AllSamples(blocks[..|blocks| - 1]) + BlockSamples(blocks[|blocks| - 1])
  }

  /** The dedup keys of the samples. */
  function Keys(xs: seq<Sample>): (r: seq<seq<string>>)
    ensures |r| == |xs|
    ensures forall k :: 0 <= k < |xs| ==> r[k] == xs[k].counters
  {
    seq(|xs|, k requires 0 <= k < |xs| => xs[k].counters)
  }

  /** The loop over samples with its `seen_keys` set: a sample is kept
      unless an earlier one had the same seven counters. */
  function KeepFirst(xs: seq<Sample>): seq<Sample>
  {
    if xs == [] then []
    else
      var kept := KeepFirst(xs[..|xs| - 1]);
      var x := xs[|xs| - 1];
      if x.counters in Keys(kept) then kept else kept + [x]
  }

  /** The label of the row at `idx`. */
  function Leg(x: Sample, idx: nat): (r: string)
    ensures r != []
  {
    if Truthy(x.from) then "+" + x.from.value
    else if Truthy(x.to) then "+" + x.to.value
    else "Leg " + NatToString(idx + 1)
  }

  /** The row of the sample at `idx`. */
  function Row(x: Sample, idx: nat, codec: Option<string>): RtpStat
    requires |x.counters| == 7
  {
    var c := x.counters;
    RtpStat(Leg(x, idx), Some(c[0]), Some(c[1]), Some(c[2]), Some(c[3]), Some(c[4]), Some(c[5]), Some(c[6]), codec)
  }

  /** `s.strip("' ")`: quotes and spaces dropped at both ends. */
  function StripQuotes(s: string): (r: string)
    ensures |r| <= |s|
  {
    if s != [] && (s[0] == '\'' || s[0] == ' ') then StripQuotes(s[1..])
    else if s != [] && (s[|s| - 1] == '\'' || s[|s| - 1] == ' ') then StripQuotes(s[..|s| - 1])
    else s
  }

  /** The codec of the whole log: the first codec-change announcement. */
  function Codec(log: string): Option<string>
  {
    match Search(CodecAt, log)
    case None => None
    case Some(c) => Some(StripQuotes(c))
  }

  /** `_parse_rtp`. */
  function ParseRtp(blocks: seq<Block>, log: string): (r: seq<RtpStat>)
    ensures |r| == |KeepFirst(AllSamples(blocks))|
    ensures forall k :: 0 <= k < |r| ==> r[k].codec == Codec(log)
    ensures var kept := KeepFirst(AllSamples(blocks));
            forall k :: 0 <= k < |r| ==> r[k].leg == Leg(kept[k], k) && Counters(r[k]) == kept[k].counters
  {
    KeepFirstFrom(AllSamples(blocks));
    Rows(KeepFirst(AllSamples(blocks)), Codec(log))
  }

  /** One row per kept sample, labelled by its one-based position when
      its block shows no number. */
  function Rows(kept: seq<Sample>, codec: Option<string>): (r: seq<RtpStat>)
    requires forall k :: 0 <= k < |kept| ==> |kept[k].counters| == 7
    ensures |r| == |kept|
    ensures forall k :: 0 <= k < |r| ==> r[k].codec == codec && Counters(r[k]) == kept[k].counters
    ensures forall k :: 0 <= k < |r| ==> r[k].leg == Leg(kept[k], k)
  {
    seq(|kept|, k requires 0 <= k < |kept| => Row(kept[k], k, codec))
  }

  /** Every kept sample is one of the input samples. */
  lemma {:induction false} KeepFirstFrom(xs: seq<Sample>)
    ensures forall k :: 0 <= k < |KeepFirst(xs)| ==> KeepFirst(xs)[k] in xs
  {
    if xs != [] {
      var init := xs[..|xs| - 1];
      KeepFirstFrom(init);
      assert forall y :: y in init ==> y in xs;
    }
  }

  /** The kept samples' keys are the de-duplicated keys: each set of
      counters appears once, at the place it was first seen, and none is
      lost. */
  lemma {:induction false} KeepFirstKeys(xs: seq<Sample>)
    ensures Keys(KeepFirst(xs)) == Dedup(Keys(xs))
  {
    if xs != [] {
      var init := xs[..|xs| - 1];
      var x := xs[|xs| - 1];
      KeepFirstKeys(init);
      KeysSnoc(init, x);
      assert init + [x] == xs;
      DedupSnoc(Keys(init), x.counters);
      KeysSnoc(KeepFirst(init), x);
    }
  }

  /** The keys of a sample list grown by one. */
  lemma KeysSnoc(xs: seq<Sample>, x: Sample)
    ensures Keys(xs + [x]) == Keys(xs) + [x.counters]
  {
  }

  /** The sample kept for a key is the first sample with that key, so its
      leg label comes from the block where the counters first appear. */
  lemma {:induction false} KeepFirstIsFirst(xs: seq<Sample>, k: nat)
    requires k < |KeepFirst(xs)|
    ensures KeepFirst(xs)[k].counters in Keys(xs)
    ensures KeepFirst(xs)[k] == xs[IndexOf(Keys(xs), KeepFirst(xs)[k].counters)]
  {
    var init := xs[..|xs| - 1];
    var x := xs[|xs| - 1];
    var kept := KeepFirst(init);
    var ks := Keys(xs);
    assert ks == Keys(init) + [x.counters];
    if k < |kept| {
      KeepFirstIsFirst(init, k);
      var key := kept[k].counters;
      assert IsPrefix(Keys(init), ks);
      IndexOfPrefix(Keys(init), ks, key);
      assert KeepFirst(xs)[k] == kept[k];
    } else {
      assert x.counters !in Keys(kept) && KeepFirst(xs)[k] == x;
      KeepFirstKeys(init);
      assert x.counters !in Keys(init);
      FirstAtEnd(Keys(init), x.counters);
    }
  }

  /** A key new at the end is first found there. */
  lemma FirstAtEnd<T>(xs: seq<T>, x: T)
    requires x !in xs
    ensures x in xs + [x] && IndexOf(xs + [x], x) == |xs|
  {
    var i := IndexOf(xs + [x], x);
    assert i == |xs|;
  }

  /** No two rows carry the same seven counters, and every sample's
      counters appear in some row. */
  lemma ParseRtpDistinct(blocks: seq<Block>, log: string)
    ensures var r := ParseRtp(blocks, log);
            forall i, j :: 0 <= i < j < |r| ==> Counters(r[i]) != Counters(r[j])
    ensures var r := ParseRtp(blocks, log);
            var xs := AllSamples(blocks);
            forall k :: 0 <= k < |xs| ==> exists j :: 0 <= j < |r| && Counters(r[j]) == xs[k].counters
  {
    var xs := AllSamples(blocks);
    var kept := KeepFirst(xs);
    var r := ParseRtp(blocks, log);
    KeepFirstKeys(xs);
    KeepFirstFrom(xs);
    assert r == Rows(kept, Codec(log));
    forall k | 0 <= k < |xs| ensures exists j :: 0 <= j < |r| && Counters(r[j]) == xs[k].counters {
      assert Keys(xs)[k] in Dedup(Keys(xs));
      var j :| 0 <= j < |kept| && Keys(kept)[j] == xs[k].counters;
      assert Counters(r[j]) == xs[k].counters;
    }
    forall i, j | 0 <= i < j < |r| ensures Counters(r[i]) != Counters(r[j]) {
      assert Keys(kept)[i] != Keys(kept)[j];
    }
  }

  /** The seven counters of a row, in header order. */
  function Counters(st: RtpStat): seq<string>
  {
    [st.ps.GetOr(""), st.os.GetOr(""), st.pr.GetOr(""), st.or.GetOr(""), st.pl.GetOr(""), st.pd.GetOr(""), st.ji.GetOr("")]
  }

  /** The label names the first truthy number of the sample, and falls
      back to the row's one-based position: `Leg n` labels never collide
      across rows. */
  lemma LegCases(x: Sample, idx: nat)
    ensures Truthy(x.from) ==> Leg(x, idx) == "+" + x.from.value
    ensures !Truthy(x.from) && Truthy(x.to) ==> Leg(x, idx) == "+" + x.to.value
    ensures !Truthy(x.from) && !Truthy(x.to) ==> Leg(x, idx)[..4] == "Leg " && DigitsValue(Leg(x, idx)[4..]) == idx + 1
  {
    if !Truthy(x.from) && !Truthy(x.to) {
      var l := Leg(x, idx);
      assert l[4..] == NatToString(idx + 1);
      NatToStringRoundTrip(idx + 1);
    }
  }

  /** The strip is the identity on a codec name as the pattern captures
      it: no quote and no whitespace. */
  lemma StripQuotesOfName(s: string)
    requires forall k :: 0 <= k < |s| ==> !CodecStop(s[k])
    ensures StripQuotes(s) == s
  {
  }

  /** The codec is the name the first announcement captures. */
  lemma CodecIsCaptured(log: string)
    ensures Codec(log).Some? ==> Codec(log) == Search(CodecAt, log)
    ensures Codec(log).None? <==> Search(CodecAt, log).None?
  {
    match Search(CodecAt, log)
    case None =>
    case Some(c) =>
      var k :| 0 <= k <= |log| && CodecAt(log, k).Some? && CodecAt(log, k).value.value == c;
      StripQuotesOfName(c);
  }
}

=== FILE: scan.dfy ===
/** The pieces every hand-written pattern of the parser is built from.

    A pattern is a matcher: a function that, given the text and a start
    index, either fails or returns the captured value and the index where the
    match ends. `FirstHit` is `re.search` (the leftmost start that matches),
    `FindAll` is `re.finditer`/`re.findall` (non-overlapping matches, each
    search resuming where the previous match ended). */
module Scan {
  import opened Wrappers
  import opened Text

  /** A successful match: what the pattern captured and where it ended. */
  datatype Hit<T> = Hit(value: T, end: nat)

  /** The capture of `h` is the text of `s` that ends where the match
      ends. */
  predicate Captured(s: string, h: Hit<string>)
  {
    |h.value| <= h.end <= |s| && s[h.end - |h.value|..h.end] == h.value
  }

  /** A pattern anchored at a start index. */
  type Matcher<T> = (string, nat) -> Option<Hit<T>>

  /** The leftmost start at or after `i` where `m` matches, with its hit. */
  function FirstHit<T>(m: Matcher<T>, s: string, i: nat): (r: Option<(nat, Hit<T>)>)
    requires i <= |s|
    ensures r.Some? ==> i <= r.value.0 <= |s| && m(s, r.value.0) == Some(r.value.1)
    ensures r.Some? ==> forall k :: i <= k < r.value.0 ==> m(s, k).None?
    ensures r.None? <==> forall k :: i <= k <= |s| ==> m(s, k).None?
    decreases |s| - i
  {
    match m(s, i)
    case Some(h) => Some((i, h))
    case None => if i == |s| then None else FirstHit(m, s, i + 1)
  }

  /** `re.search`: the value captured at the leftmost matching start. */
  function Search<T>(m: Matcher<T>, s: string): (r: Option<T>)
    ensures r.None? <==> forall k :: 0 <= k <= |s| ==> m(s, k).None?
    ensures r.Some? ==> exists k :: 0 <= k <= |s| && m(s, k).Some? && m(s, k).value.value == r.value
  {
    match FirstHit(m, s, 0)
    case Some((k, h)) => Some(h.value)
    case None => None
  }

  /** The search finds the first start where the pattern matches. */
  lemma SearchFindsFirst<T>(m: Matcher<T>, s: string, p: nat, h: Hit<T>)
    requires p <= |s| && m(s, p) == Some(h)
    requires forall k :: 0 <= k < p ==> m(s, k).None?
    ensures Search(m, s) == Some(h.value)
  {
    var r := FirstHit(m, s, 0);
    assert r.Some?;
    assert r.value.0 == p;
  }

  /** `re.finditer` from index `i`: the hits in order, none overlapping the
      next. Every matcher of the model consumes at least one character, so
      the branch for an empty or out-of-range hit is never taken. */
  function FindAll<T>(m: Matcher<T>, s: string, i: nat): (r: seq<(nat, Hit<T>)>)
    requires i <= |s|
    ensures forall k :: 0 <= k < |r| ==> i <= r[k].0 < r[k].1.end <= |s|
    ensures forall k :: 0 <= k < |r| ==> m(s, r[k].0) == Some(r[k].1)
    ensures forall k :: 0 <= k < |r| - 1 ==> r[k].1.end <= r[k + 1].0
    decreases |s| - i
  {
    match FirstHit(m, s, i)
    case None => []
    case Some((k, h)) =>
      if k < h.end <= |s| then [(k, h)] + FindAll(m, s, h.end) else []
  }

  /** The captured values of `FindAll`, as `re.findall` returns them. */
  function Values<T>(hits: seq<(nat, Hit<T>)>): (r: seq<T>)
    ensures |r| == |hits|
    ensures forall k :: 0 <= k < |r| ==> r[k] == hits[k].1.value
  {
    seq(|hits|, k requires 0 <= k < |hits| => hits[k].1.value)
  }

  /** End of the maximal run of characters satisfying `p` that starts at `i`:
      a greedy `[...]*`. */
  function RunEnd(s: string, i: nat, p: char -> bool): (r: nat)
    requires i <= |s|
    ensures i <= r <= |s|
    ensures forall k :: i <= k < r ==> p(s[k])
    ensures r == |s| || !p(s[r])
    decreases |s| - i
  {
    if i == |s| || !p(s[i]) then i else RunEnd(s, i + 1, p)
  }

  /** A run that satisfies `p` up to `e` and stops there ends at `e`. */
  lemma {:induction false} RunEndStopsAt(s: string, i: nat, e: nat, p: char -> bool)
    requires i <= e <= |s|
    requires forall k :: i <= k < e ==> p(s[k])
    requires e == |s| || !p(s[e])
    ensures RunEnd(s, i, p) == e
    decreases e - i
  {
    if i < e {
      RunEndStopsAt(s, i + 1, e, p);
    }
  }

  /** The literal `lit` occurs at index `i`. */
  predicate LitAt(s: string, i: nat, lit: string)
  {
    OccursAt(s, lit, i)
  }

  /** Splitting the suffix of `s` at `k` that reads `x + rest`. */
  lemma Peel(s: string, k: nat, x: string, rest: string)
    requires k <= |s| && s[k..] == x + rest
    ensures k + |x| <= |s| && s[k..k + |x|] == x && s[k + |x|..] == rest
  {
    assert s[k..k + |x|] == s[k..][..|x|];
    assert s[k + |x|..] == s[k..][|x|..];
  }

  /** The first character of a non-empty suffix. */
  lemma Head(s: string, k: nat, rest: string)
    requires k <= |s| && s[k..] == rest && rest != []
    ensures k < |s| && s[k] == rest[0]
  {
    assert s[k..][0] == s[k];
  }

  /** A literal found at `i` starts with the character at `i`. */
  lemma LitAtHead(s: string, i: nat, lit: string)
    ensures LitAt(s, i, lit) && lit != [] ==> i < |s| && s[i] == lit[0]
  {
    if LitAt(s, i, lit) && lit != [] {
      assert s[i..i + |lit|][0] == s[i];
    }
  }

  /** Case-insensitive match of text character `c` against the ASCII pattern
      character `p`, as `re.IGNORECASE` does on text: ASCII case folding
      plus the four non-ASCII letters Python folds onto `i`, `s` and `k`. */
  predicate CharEqCI(c: char, p: char)
  {
    || LowerChar(c) == LowerChar(p)
    || (LowerChar(p) == 'i' && (c == '\U{130}' || c == '\U{131}'))
    || (LowerChar(p) == 's' && c == '\U{17f}')
    || (LowerChar(p) == 'k' && c == '\U{212a}')
  }

  /** The literal `lit` occurs at index `i`, ignoring case. */
  predicate LitAtCI(s: string, i: nat, lit: string)
  {
    i + |lit| <= |s| && forall k :: 0 <= k < |lit| ==> CharEqCI(s[i + k], lit[k])
  }

  /** An ASCII capital letter. */
  predicate IsUpper(c: char)
  {
    'A' <= c <= 'Z'
  }

  /** The header-name shape the parser writes as `[Ff]rom:` or
      `[Cc]all-[Ii][Dd]:`: every capital letter of `lit` also matches its
      lower-case form, every other character matches only itself. */
  predicate PatAt(s: string, i: nat, lit: string)
  {
    i + |lit| <= |s| &&
    forall k :: 0 <= k < |lit| ==> s[i + k] == lit[k] || (IsUpper(lit[k]) && s[i + k] == LowerChar(lit[k]))
  }

  /** Start of the capture in `C*([^X]+)` (or `C+([^X]+)`) once the greedy
      class run has been taken up to `k`: the engine gives characters back
      one at a time, so the capture starts at the largest index in `[lo, k]`
      holding a character outside the stop set `X`. */
  function LastStart(s: string, lo: nat, k: nat, stop: char -> bool): (r: Option<nat>)
    requires lo <= k <= |s|
    ensures r.Some? ==> lo <= r.value <= k && r.value < |s| && !stop(s[r.value])
    ensures r.Some? ==> forall q :: r.value < q <= k && q < |s| ==> stop(s[q])
    ensures r.None? <==> forall q :: lo <= q <= k && q < |s| ==> stop(s[q])
    decreases k - lo
  {
    if k < |s| && !stop(s[k]) then Some(k)
    else if k == lo then None
    else LastStart(s, lo, k - 1, stop)
  }
}

=== FILE: sdp.dfy ===
/** `_parse_sdp`: the SDP bodies of the call, split into offers (an INVITE,
    a 180 or a 183) and answers (a 200), each with the sending user agent and
    its distinct `a=rtpmap` encoding names; the first two of each are
    kept. */
module Sdp {
  import opened Wrappers
  import opened Text
  import opened Scan
  import opened Seqs
  import opened Models
  import opened Classifier
  import opened SipFields
  import opened MediaFields

  /** The label that replaces a YATE proxy's user agent. */
  const ProxyLabel := "IMS Core (YATE)"

  /** A body that carries SDP: it holds `v=0`. */
  predicate HasSdp(body: string)
  {
    Contains(body, "v=0")
  }

  /** The user agent of an SDP body: the stripped User-Agent, `unknown` when
      there is none, the proxy label when it names YATE. */
  function Agent(body: string): (r: string)
    ensures Search(UserAgentAt, body).None? ==> r == "unknown"
    ensures Search(UserAgentAt, body).Some? ==> r == ProxyLabel || r == Strip(Search(UserAgentAt, body).value)
    ensures Search(UserAgentAt, body).Some? && Contains(Strip(Search(UserAgentAt, body).value), "YATE") ==> r == ProxyLabel
  {
    match Search(UserAgentAt, body)
    case None => "unknown"
    case Some(u) =>
      var raw := Strip(u);
      if raw != [] && Contains(raw, "YATE") then ProxyLabel else raw
  }

  /** The distinct encoding names of the body's `a=rtpmap` lines, in the
      order they first appear. */
  function CodecNames(body: string): (r: seq<string>)
    ensures NoDups(r)
  {
    Dedup(Values(FindAll(RtpmapAt, body, 0)))
  }

  function EntryOf(body: string): SdpEntry
  {
    SdpEntry(Agent(body), CodecNames(body))
  }

  /** An offer: an INVITE, or a `SIP/2.0 180` or `183` response. */
  predicate IsOffer(first: string)
  {
    || StartsWith(first, "INVITE")
    || (StartsWith(first, "SIP/2.0 18") && |first| > 10 && (first[10] == '0' || first[10] == '3'))
  }

  /** An answer: a `SIP/2.0 200` response. */
  predicate IsAnswer(first: string)
  {
    StartsWith(first, "SIP/2.0 200")
  }

  /** No first line is both, so the `elif` of the source loses nothing. */
  lemma OfferOrAnswer(first: string)
    ensures !(IsOffer(first) && IsAnswer(first))
  {
    if IsAnswer(first) {
      assert first[0] == 'S' && first[9] == '0';
    }
  }

  /** The test a block passes to be listed among the answers (or, with
      `answers` false, the offers). */
  predicate Listed(b: Block, answers: bool)
  {
    HasSdp(b.body) && (if answers then IsAnswer(FirstLine(b.body)) else IsOffer(FirstLine(b.body)))
  }

  /** The SDP entries of the listed blocks, in block order. */
  function Entries(blocks: seq<Block>, answers: bool): seq<SdpEntry>
  {
    Select(blocks, (b: Block) => Listed(b, answers), (b: Block) => EntryOf(b.body))
  }

  /** `_parse_sdp`. */
  function ParseSdp(blocks: seq<Block>): (r: SdpInfo)
    ensures IsPrefix(r.offered, Entries(blocks, false))
    ensures |r.offered| == if |Entries(blocks, false)| < 2 then |Entries(blocks, false)| else 2
    ensures IsPrefix(r.answered, Entries(blocks, true))
    ensures |r.answered| == if |Entries(blocks, true)| < 2 then |Entries(blocks, true)| else 2
    ensures forall k :: 0 <= k < |r.offered| ==> NoDups(r.offered[k].codecs)
    ensures forall k :: 0 <= k < |r.answered| ==> NoDups(r.answered[k].codecs)
  {
    OfferedCodecs(blocks, false);
    OfferedCodecs(blocks, true);
    SdpInfo(FirstN(Entries(blocks, false), 2), FirstN(Entries(blocks, true), 2))
  }

  /** Every entry's codec list is free of repeats. */
  lemma OfferedCodecs(blocks: seq<Block>, answers: bool)
    ensures forall k :: 0 <= k < |Entries(blocks, answers)| ==> NoDups(Entries(blocks, answers)[k].codecs)
  {
    forall k | 0 <= k < |Entries(blocks, answers)| ensures NoDups(Entries(blocks, answers)[k].codecs) {
      var e := Entries(blocks, answers)[k];
      SelectMembers(blocks, (b: Block) => Listed(b, answers), (b: Block) => EntryOf(b.body), e);
    }
  }

  /** An entry is listed exactly when some block carries SDP and has the
      right first line. */
  lemma EntriesMembers(blocks: seq<Block>, answers: bool, e: SdpEntry)
    ensures e in Entries(blocks, answers) <==>
      exists k :: 0 <= k < |blocks| && Listed(blocks[k], answers) && e == EntryOf(blocks[k].body)
  {
    SelectMembers(blocks, (b: Block) => Listed(b, answers), (b: Block) => EntryOf(b.body), e);
  }

  /** Once two offers and two answers are seen, the summary is settled:
      later blocks cannot change it. */
  lemma SdpSettled(blocks: seq<Block>, more: seq<Block>)
    requires |Entries(blocks, false)| >= 2 && |Entries(blocks, true)| >= 2
    ensures ParseSdp(blocks + more) == ParseSdp(blocks)
  {
    SelectPrefix(blocks, more, (b: Block) => Listed(b, false), (b: Block) => EntryOf(b.body));
    SelectPrefix(blocks, more, (b: Block) => Listed(b, true), (b: Block) => EntryOf(b.body));
    FirstNOfPrefix(Entries(blocks, false), Entries(blocks + more, false), 2);
    FirstNOfPrefix(Entries(blocks, true), Entries(blocks + more, true), 2);
  }
}

=== FILE: seqs.dfy ===
/** Sequence utilities: uniqueness, counting and the first-occurrence
    de-duplication Python spells `list(dict.fromkeys(xs))`. */
module Seqs {
  import opened Wrappers

  /** No element occurs twice. */
  predicate NoDups<T(==)>(xs: seq<T>)
  {
    forall i, j :: 0 <= i < j < |xs| ==> xs[i] != xs[j]
  }

  /** `xs` is a prefix of `ys`. */
  predicate IsPrefix<T(==)>(xs: seq<T>, ys: seq<T>)
  {
    |xs| <= |ys| && ys[..|xs|] == xs
  }

  /** `xs[:n]` for any list. */
  function FirstN<T>(xs: seq<T>, n: nat): (r: seq<T>)
    ensures |r| <= n && |r| <= |xs|
    ensures r == xs[..|r|]
    ensures n <= |xs| ==> |r| == n
  {
    if n < |xs| then xs[..n] else xs
  }

  /** A prefix long enough fixes the first `n` elements. */
  lemma FirstNOfPrefix<T>(xs: seq<T>, ys: seq<T>, n: nat)
    requires IsPrefix(xs, ys) && n <= |xs|
    ensures FirstN(ys, n) == FirstN(xs, n)
  {
    assert ys[..n] == ys[..|xs|][..n];
  }

  /** Number of occurrences of `x` in `xs`. */
  function Count<T(==)>(xs: seq<T>, x: T): (n: nat)
    ensures n <= |xs|
    ensures n == 0 <==> x !in xs
  {
    if xs == [] then 0
    else Count(xs[..|xs| - 1], x) + (if xs[|xs| - 1] == x then 1 else 0)
  }

  /** `list(dict.fromkeys(xs))`: each element once, at the place of its first
      occurrence. */
  function Dedup<T(==)>(xs: seq<T>): (r: seq<T>)
    ensures NoDups(r)
    ensures forall i :: 0 <= i < |r| ==> r[i] in xs
    ensures forall i :: 0 <= i < |xs| ==> xs[i] in r
    ensures |r| <= |xs|
  {
    if xs == [] then []
    else
      var prefix := Dedup(xs[..|xs| - 1]);
      var x := xs[|xs| - 1];
      if x in prefix then prefix else prefix + [x]
  }

  /** One more element is kept exactly when it is new. */
  lemma DedupSnoc<T>(xs: seq<T>, x: T)
    ensures Dedup(xs + [x]) == if x in Dedup(xs) then Dedup(xs) else Dedup(xs) + [x]
  {
    assert (xs + [x])[..|xs|] == xs;
  }

  /** De-duplicating a longer list only appends: what was kept from a prefix
      stays first, in the same order. */
  lemma {:induction false} DedupPrefix<T>(xs: seq<T>, ys: seq<T>)
    ensures IsPrefix(Dedup(xs), Dedup(xs + ys))
    decreases |ys|
  {
    if ys != [] {
      var init := ys[..|ys| - 1];
      DedupPrefix(xs, init);
      assert (xs + ys)[..|xs + ys| - 1] == xs + init;
    } else {
      assert xs + ys == xs;
    }
  }

  /** A list with no duplicates is left unchanged. */
  lemma {:induction false} DedupOfUnique<T>(xs: seq<T>)
    requires NoDups(xs)
    ensures Dedup(xs) == xs
  {
    if xs != [] {
      var init := xs[..|xs| - 1];
      assert NoDups(init);
      DedupOfUnique(init);
      assert xs[|xs| - 1] !in init;
      assert init + [xs[|xs| - 1]] == xs;
    }
  }

  /** Index of the first occurrence of `x` in `xs`. */
  function IndexOf<T(==)>(xs: seq<T>, x: T): (i: nat)
    requires x in xs
    ensures i < |xs| && xs[i] == x
    ensures forall j :: 0 <= j < i ==> xs[j] != x
  {
    if xs[0] == x then 0 else 1 + IndexOf(xs[1..], x)
  }

  /** The kept elements appear in the order of their first occurrences. */
  lemma {:induction false} DedupFirstOccurrenceOrder<T>(xs: seq<T>, i: nat, j: nat)
    requires i < j < |Dedup(xs)|
    ensures IndexOf(xs, Dedup(xs)[i]) < IndexOf(xs, Dedup(xs)[j])
    decreases |xs|
  {
    var init := xs[..|xs| - 1];
    var prefix := Dedup(init);
    var x := xs[|xs| - 1];
    var r := Dedup(xs);
    assert forall y :: y in init ==> IndexOf(xs, y) == IndexOf(init, y) by {
      forall y | y in init ensures IndexOf(xs, y) == IndexOf(init, y) {
        IndexOfPrefix(init, xs, y);
      }
    }
    if j < |prefix| {
      assert r[i] == prefix[i] && r[j] == prefix[j];
      DedupFirstOccurrenceOrder(init, i, j);
    } else {
      assert x !in prefix && r == prefix + [x] && j == |prefix|;
      assert r[i] == prefix[i] && prefix[i] in init;
      assert x !in init;
      assert IndexOf(xs, x) == |xs| - 1;
    }
  }

  /** First occurrences found in a prefix are first occurrences overall. */
  lemma {:induction false} IndexOfPrefix<T>(xs: seq<T>, ys: seq<T>, y: T)
    requires IsPrefix(xs, ys) && y in xs
    ensures IndexOf(ys, y) == IndexOf(xs, y)
  {
    var k := IndexOf(xs, y);
    assert ys[k] == y;
    var m := IndexOf(ys, y);
    assert m <= k;
    assert xs[m] == ys[m];
  }

  /** Index of the first element satisfying `p`, if any: the early `break`
      or `return` of a Python `for` loop. */
  function FirstIndex<T>(xs: seq<T>, p: T -> bool): (r: Option<nat>)
    ensures r.Some? ==> r.value < |xs| && p(xs[r.value])
    ensures r.Some? ==> forall j :: 0 <= j < r.value ==> !p(xs[j])
    ensures r.None? <==> forall k :: 0 <= k < |xs| ==> !p(xs[k])
  {
    if xs == [] then None
    else if p(xs[0]) then Some(0)
    else
      match FirstIndex(xs[1..], p)
      case None => None
      case Some(k) => Some(k + 1)
  }

  /** Appending an element changes the first match only when there was
      none and the new element matches. */
  lemma {:induction false} FirstIndexSnoc<T>(xs: seq<T>, x: T, p: T -> bool)
    ensures FirstIndex(xs + [x], p) ==
      if FirstIndex(xs, p).Some? then FirstIndex(xs, p)
      else if p(x) then Some(|xs|) else None
  {
    var ys := xs + [x];
    if xs != [] {
      assert ys[0] == xs[0];
      if !p(xs[0]) {
        assert ys[1..] == xs[1..] + [x];
        FirstIndexSnoc(xs[1..], x, p);
      }
    }
  }

  /** `[f(x) for x in xs if keep(x)]`. */
  function Select<T, U>(xs: seq<T>, keep: T -> bool, f: T -> U): (r: seq<U>)
    ensures |r| <= |xs|
  {
    if xs == [] then []
    else Select(xs[..|xs| - 1], keep, f) + (if keep(xs[|xs| - 1]) then [f(xs[|xs| - 1])] else [])
  }

  /** A value is selected exactly when some kept element maps to it. */
  lemma {:induction false} SelectMembers<T, U>(xs: seq<T>, keep: T -> bool, f: T -> U, e: U)
    ensures e in Select(xs, keep, f) <==> exists k :: 0 <= k < |xs| && keep(xs[k]) && e == f(xs[k])
  {
    if xs != [] {
      var init := xs[..|xs| - 1];
      var x := xs[|xs| - 1];
      SelectMembers(init, keep, f, e);
      if e in Select(init, keep, f) {
        var k :| 0 <= k < |init| && keep(init[k]) && e == f(init[k]);
        assert xs[k] == init[k];
      } else if e in Select(xs, keep, f) {
        assert xs[|init|] == x;
      }
      if exists k :: 0 <= k < |xs| && keep(xs[k]) && e == f(xs[k]) {
        var k :| 0 <= k < |xs| && keep(xs[k]) && e == f(xs[k]);
        if k < |init| {
          assert init[k] == xs[k];
        }
      }
    }
  }

  /** Later elements only append to the selection. */
  lemma {:induction false} SelectPrefix<T, U>(xs: seq<T>, more: seq<T>, keep: T -> bool, f: T -> U)
    ensures IsPrefix(Select(xs, keep, f), Select(xs + more, keep, f))
    decreases |more|
  {
    if more == [] {
      assert xs + more == xs;
    } else {
      SelectPrefix(xs, more[..|more| - 1], keep, f);
      assert (xs + more)[..|xs + more| - 1] == xs + more[..|more| - 1];
    }
  }

  /** `[x for x in xs if keep(x)]`. */
  function Filter<T>(xs: seq<T>, keep: T -> bool): (r: seq<T>)
    ensures |r| <= |xs|
  {
    if xs == [] then []
    else Filter(xs[..|xs| - 1], keep) + (if keep(xs[|xs| - 1]) then [xs[|xs| - 1]] else [])
  }

  /** An element survives exactly when it was there and is kept. */
  lemma {:induction false} FilterMembers<T>(xs: seq<T>, keep: T -> bool, x: T)
    ensures x in Filter(xs, keep) <==> x in xs && keep(x)
  {
    if xs != [] {
      var init := xs[..|xs| - 1];
      FilterMembers(init, keep, x);
      assert xs == init + [xs[|xs| - 1]];
    }
  }

  /** Filtering distributes over concatenation, so the survivors keep their
      order. */
  lemma {:induction false} FilterAppend<T>(xs: seq<T>, ys: seq<T>, keep: T -> bool)
    ensures Filter(xs + ys, keep) == Filter(xs, keep) + Filter(ys, keep)
    decreases |ys|
  {
    if ys == [] {
      assert xs + ys == xs;
    } else {
      var init := ys[..|ys| - 1];
      FilterAppend(xs, init, keep);
      assert (xs + ys)[..|xs + ys| - 1] == xs + init;
    }
  }

  /** Filtering a second time removes nothing more. */
  lemma {:induction false} FilterIdempotent<T>(xs: seq<T>, keep: T -> bool)
    ensures Filter(Filter(xs, keep), keep) == Filter(xs, keep)
  {
    if xs != [] {
      var init := xs[..|xs| - 1];
      var x := xs[|xs| - 1];
      var tail := if keep(x) then [x] else [];
      FilterIdempotent(init, keep);
      FilterAppend(Filter(init, keep), tail, keep);
      assert Filter(tail, keep) == tail by {
        if keep(x) {
          assert tail[..0] == [];
        }
      }
    }
  }

  /** Selecting from a concatenation concatenates the selections. */
  lemma {:induction false} SelectAppend<T, U>(xs: seq<T>, ys: seq<T>, keep: T -> bool, f: T -> U)
    ensures Select(xs + ys, keep, f) == Select(xs, keep, f) + Select(ys, keep, f)
    decreases |ys|
  {
    if ys == [] {
      assert xs + ys == xs;
    } else {
      var init := ys[..|ys| - 1];
      SelectAppend(xs, init, keep, f);
      assert (xs + ys)[..|xs + ys| - 1] == xs + init;
    }
  }

  /** De-duplicating keeps the first element first. */
  lemma DedupHead<T>(xs: seq<T>)
    requires xs != []
    ensures Dedup(xs) != [] && Dedup(xs)[0] == xs[0]
  {
    DedupPrefix([xs[0]], xs[1..]);
    assert [xs[0]] + xs[1..] == xs;
    assert Dedup([xs[0]]) == [xs[0]] by { assert [xs[0]][..0] == []; }
  }
}

=== FILE: sip_fields.dfy ===
/** The SIP header extractors: each is a matcher anchored at a start index,
    searched for with `Scan.Search`. The header names are written with the
    parser's capitalisation; `PatAt` lets each capital also match in lower
    case, as the parser's `[Ff]rom:`-style classes do. */
module SipFields {
  import opened Wrappers
  import opened Text
  import opened Scan

  /** `name:\s*<?(?:sip:|tel:)?\+?(\d+)` at `i`, the shape of FROM_RE, TO_RE
      and PAI_RE. Each optional part is taken when present: giving one back
      never lets the digits match, so the first greedy choice is the match. */
  function NumberAfterAt(s: string, i: nat, name: string): (r: Option<Hit<string>>)
    ensures r.Some? ==> PatAt(s, i, name)
    ensures r.Some? ==> r.value.value != [] && AllDigits(r.value.value)
    ensures r.Some? ==> i + |name| + |r.value.value| <= r.value.end <= |s|
    ensures !PatAt(s, i, name) ==> r.None?
  {
    if !PatAt(s, i, name) then None
    else DigitsFrom(s, PrefixEnd(s, RunEnd(s, i + |name|, IsSpace)))
  }

  /** `sip:` or `tel:` at `b`. */
  predicate SchemeAt(s: string, b: nat)
  {
    && b + 4 <= |s| && s[b + 3] == ':'
    && ((s[b] == 's' && s[b + 1] == 'i' && s[b + 2] == 'p') || (s[b] == 't' && s[b + 1] == 'e' && s[b + 2] == 'l'))
  }

  /** `SchemeAt` is the alternation of the two literals. */
  lemma SchemeAtLiterals(s: string, b: nat)
    ensures SchemeAt(s, b) <==> LitAt(s, b, "sip:") || LitAt(s, b, "tel:")
  {
    if b + 4 <= |s| {
      assert s[b..b + 4] == [s[b], s[b + 1], s[b + 2], s[b + 3]];
    }
  }

  /** Where `<?(?:sip:|tel:)?\+?` starting at `a` ends. */
  function PrefixEnd(s: string, a: nat): (d: nat)
    requires a <= |s|
    ensures a <= d <= |s|
  {
    var b := if a < |s| && s[a] == '<' then a + 1 else a;
    var c := if SchemeAt(s, b) then b + 4 else b;
    if c < |s| && s[c] == '+' then c + 1 else c
  }

  /** `(\d+)` from `d`: the maximal digit run, if it is not empty. */
  function DigitsFrom(s: string, d: nat): (r: Option<Hit<string>>)
    requires d <= |s|
    ensures r.Some? ==> r.value.end == d + |r.value.value| <= |s|
    ensures r.Some? ==> r.value.value != [] && AllDigits(r.value.value)
    ensures r.Some? ==> OccursAt(s, r.value.value, d)
    ensures r.Some? ==> r.value.end == |s| || !IsDigit(s[r.value.end])
    ensures r.None? <==> d == |s| || !IsDigit(s[d])
  {
    var e := RunEnd(s, d, IsDigit);
    if e > d then Some(Hit(s[d..e], e)) else None
  }

  /** Digits standing at `d` and followed by a non-digit are read back. */
  lemma DigitsFromReads(s: string, d: nat, n: string)
    requires d + |n| <= |s| && forall k :: 0 <= k < |n| ==> s[d + k] == n[k]
    requires n != [] && AllDigits(n)
    requires d + |n| == |s| || !IsDigit(s[d + |n|])
    ensures DigitsFrom(s, d) == Some(Hit(n, d + |n|))
  {
    var e := d + |n|;
    forall k | d <= k < e ensures IsDigit(s[k]) {
      assert s[d + (k - d)] == n[k - d];
    }
    RunEndStopsAt(s, d, e, IsDigit);
    assert s[d..e] == n;
  }

  /** The spellings `<?(?:sip:|tel:)?\+?` admits before the digits. */
  const NumberPrefixes: seq<string> := ["", "+", "sip:", "sip:+", "tel:", "tel:+",
                                        "<", "<+", "<sip:", "<sip:+", "<tel:", "<tel:+"]

  /** A prefix spelling followed by a digit is skipped exactly. */
  lemma PrefixEndReads(s: string, a: nat, prefix: string)
    requires prefix in NumberPrefixes
    requires a + |prefix| < |s| && forall k :: 0 <= k < |prefix| ==> s[a + k] == prefix[k]
    requires IsDigit(s[a + |prefix|])
    ensures PrefixEnd(s, a) == a + |prefix|
    ensures !IsSpace(s[a])
  {
    var angle := if prefix != [] && prefix[0] == '<' then 1 else 0;
    var b := a + angle;
    var scheme := if |prefix| >= angle + 4 then 4 else 0;
    var c := b + scheme;
    assert s[a] == (if prefix == [] then s[a + |prefix|] else prefix[0]) by {
      if prefix != [] { assert s[a + 0] == prefix[0]; }
    }
    assert SchemeAt(s, b) <==> scheme == 4 by {
      if scheme == 4 {
        assert s[b] == prefix[angle] && s[b + 1] == prefix[angle + 1];
        assert s[b + 2] == prefix[angle + 2] && s[b + 3] == prefix[angle + 3];
      } else if b < a + |prefix| {
        assert s[b] == prefix[angle];
      }
    }
    assert c < |s| && (s[c] == '+' <==> c < a + |prefix|) by {
      if c < a + |prefix| {
        assert s[c] == prefix[c - a];
      }
    }
  }

  /** `s` holds, from its start, a header written as `name`, whitespace up
      to `a`, one of the prefix spellings and the digits `n`, followed by
      the end of the text or a non-digit. */
  predicate NumberWritten(s: string, name: string, a: nat, prefix: string, n: string)
  {
    var d := a + |prefix|;
    && |name| <= a && d + |n| <= |s|
    && (forall k :: 0 <= k < |name| ==> s[k] == name[k])
    && (forall k :: |name| <= k < a ==> IsSpace(s[k]))
    && prefix in NumberPrefixes
    && (forall k :: 0 <= k < |prefix| ==> s[a + k] == prefix[k])
    && n != [] && AllDigits(n)
    && (forall k :: 0 <= k < |n| ==> s[d + k] == n[k])
    && (d + |n| == |s| || !IsDigit(s[d + |n|]))
  }

  /** A header written that way is read back as its digits: the extractor
      inverts the way the header is written. */
  lemma NumberAfterAtReads(s: string, name: string, a: nat, prefix: string, n: string)
    requires NumberWritten(s, name, a, prefix, n)
    ensures NumberAfterAt(s, 0, name) == Some(Hit(n, a + |prefix| + |n|))
  {
    var d := a + |prefix|;
    assert PatAt(s, 0, name);
    assert PrefixEnd(s, a) == d && !IsSpace(s[a]) by {
      assert s[d + 0] == n[0];
      PrefixEndReads(s, a, prefix);
    }
    assert RunEnd(s, |name|, IsSpace) == a by {
      RunEndStopsAt(s, |name|, a, IsSpace);
    }
    var r := Some(Hit(n, d + |n|));
    assert DigitsFrom(s, d) == r by { DigitsFromReads(s, d, n); }
    NumberAfterAtSteps(s, name, a, d, r);
  }

  /** The three steps of `NumberAfterAt` from the start of a text. */
  lemma NumberAfterAtSteps(s: string, name: string, a: nat, d: nat, r: Option<Hit<string>>)
    requires PatAt(s, 0, name)
    requires RunEnd(s, |name|, IsSpace) == a
    requires PrefixEnd(s, a) == d && DigitsFrom(s, d) == r
    ensures NumberAfterAt(s, 0, name) == r
  {
  }

  /** A text that starts with `name` matches it under `PatAt`. */
  lemma PatAtSelf(s: string, name: string)
    requires |name| <= |s| && s[..|name|] == name
    ensures PatAt(s, 0, name)
  {
    forall k | 0 <= k < |name| ensures s[k] == name[k] {
      assert s[..|name|][k] == s[k];
    }
  }

  /** FROM_RE. */
  function FromAt(s: string, i: nat): Option<Hit<string>>
  {
    NumberAfterAt(s, i, "From:")
  }

  /** TO_RE. */
  function ToAt(s: string, i: nat): Option<Hit<string>>
  {
    NumberAfterAt(s, i, "To:")
  }

  /** PAI_RE. */
  function PaiAt(s: string, i: nat): Option<Hit<string>>
  {
    NumberAfterAt(s, i, "P-Asserted-Identity:")
  }

  /** `name:\s*([^X]+)` at `i`, the shape of UA_RE (stop set `\r \n , ;`)
      and REASON_RE (stop set `\r \n`). The whitespace run gives characters
      back until the capture can start, so the capture starts at the last
      index of that run, or just after it, that holds no stop character, and
      then runs to the next stop character. */
  function TextAfterAt(s: string, i: nat, name: string, stop: char -> bool): (r: Option<Hit<string>>)
    ensures r.Some? ==> PatAt(s, i, name)
    ensures r.Some? ==> r.value.value != [] && forall k :: 0 <= k < |r.value.value| ==> !stop(r.value.value[k])
    ensures r.Some? ==> i + |name| + |r.value.value| <= r.value.end <= |s|
    ensures r.Some? ==> r.value.end == |s| || stop(s[r.value.end])
    ensures r.Some? ==> forall k :: i + |name| <= k < r.value.end - |r.value.value| ==> IsSpace(s[k])
    ensures !PatAt(s, i, name) ==> r.None?
  {
    if !PatAt(s, i, name) then None
    else
      var j := i + |name|;
      var a := RunEnd(s, j, IsSpace);
      match LastStart(s, j, a, stop)
      case None => None
      case Some(p) =>
        var e := RunEnd(s, p, c => !stop(c));
        Some(Hit(s[p..e], e))
  }

  /** A header written as `name`, one optional space and a value that does
      not start with whitespace is read back as the value up to its first
      stop character. */
  lemma TextAfterAtReads(name: string, sp: string, v: string, tail: string, stop: char -> bool)
    requires sp == "" || sp == " "
    requires v != [] && !IsSpace(v[0])
    requires forall k :: 0 <= k < |v| ==> !stop(v[k])
    requires tail == [] || stop(tail[0])
    ensures TextAfterAt(name + sp + v + tail, 0, name, stop) == Some(Hit(v, |name| + |sp| + |v|))
  {
    var s := name + sp + v + tail;
    var j := |name|;
    assert PatAt(s, 0, name) by {
      forall k | 0 <= k < |name| ensures s[k] == name[k] { }
    }
    var a := j + |sp|;
    assert s[a] == v[0];
    RunEndStopsAt(s, j, a, IsSpace);
    assert LastStart(s, j, a, stop) == Some(a);
    var e := a + |v|;
    forall k | a <= k < e ensures !stop(s[k]) {
      assert s[k] == v[k - a];
    }
    assert e == |s| || s[e] == tail[0];
    RunEndStopsAt(s, a, e, c => !stop(c));
    assert s[a..e] == v;
  }

  /** The stop set of UA_RE. */
  predicate UaStop(c: char)
  {
    c == '\r' || c == '\n' || c == ',' || c == ';'
  }

  /** The stop set of REASON_RE and of the hang-up cause pattern. */
  predicate LineStop(c: char)
  {
    c == '\r' || c == '\n'
  }

  /** UA_RE. */
  function UserAgentAt(s: string, i: nat): Option<Hit<string>>
  {
    TextAfterAt(s, i, "User-Agent:", UaStop)
  }

  /** REASON_RE. */
  function ReasonAt(s: string, i: nat): Option<Hit<string>>
  {
    TextAfterAt(s, i, "Reason:", LineStop)
  }

  /** A character of `[\d.]`. */
  predicate IsIpChar(c: char)
  {
    IsDigit(c) || c == '.'
  }

  /** CONTACT_IP_RE, `[Cc]ontact:\s*<?sip:[^@]+@([\d.]+)`: the address
      after the first `@` that follows `sip:`. The trailing `:?(\d*)` always
      matches and captures nothing the parser uses. */
  function ContactIpAt(s: string, i: nat): (r: Option<Hit<string>>)
    ensures r.Some? ==> PatAt(s, i, "Contact:")
    ensures r.Some? ==> r.value.value != [] && forall k :: 0 <= k < |r.value.value| ==> IsIpChar(r.value.value[k])
    ensures r.Some? ==> i + 8 < r.value.end - |r.value.value| && r.value.end <= |s|
    ensures r.Some? ==> s[r.value.end - |r.value.value| - 1] == '@'
    ensures r.Some? ==> Captured(s, r.value)
    ensures r.Some? ==> r.value.end == |s| || !IsIpChar(s[r.value.end])
  {
    if !PatAt(s, i, "Contact:") then None
    else
      var a := RunEnd(s, i + 8, IsSpace);
      var b := if a < |s| && s[a] == '<' then a + 1 else a;
      if !LitAt(s, b, "sip:") then None
      else
        var d := RunEnd(s, b + 4, c => c != '@');
        if d == b + 4 || d == |s| then None
        else
          var e := RunEnd(s, d + 1, IsIpChar);
          if e == d + 1 then None else Some(Hit(s[d + 1..e], e))
  }

  /** `name:\s*(\S+)` at `i`: the Call-ID token. With `fold` the capitals of
      the name also match in lower case (`[Cc]all-[Ii][Dd]:`, the timeline
      pattern); without it the name is matched exactly (the timing pass). */
  function TokenAfterAt(s: string, i: nat, name: string, fold: bool): (r: Option<Hit<string>>)
    ensures r.Some? ==> (if fold then PatAt(s, i, name) else LitAt(s, i, name))
    ensures r.Some? ==> r.value.value != [] && forall k :: 0 <= k < |r.value.value| ==> !IsSpace(r.value.value[k])
    ensures r.Some? ==> i + |name| + |r.value.value| <= r.value.end <= |s|
    ensures r.Some? ==> Captured(s, r.value)
    ensures r.Some? ==> r.value.end == |s| || IsSpace(s[r.value.end])
  {
    if !(if fold then PatAt(s, i, name) else LitAt(s, i, name)) then None
    else
      var a := RunEnd(s, i + |name|, IsSpace);
      var e := RunEnd(s, a, NotSpace);
      if e == a then None else Some(Hit(s[a..e], e))
  }

  /** The timeline's `[Cc]all-[Ii][Dd]:\s*(\S+)`. */
  function CallIdAt(s: string, i: nat): Option<Hit<string>>
  {
    TokenAfterAt(s, i, "Call-ID:", true)
  }

  /** The timing pass's case-sensitive `Call-ID:\s*(\S+)`. */
  function AnchorCallIdAt(s: string, i: nat): Option<Hit<string>>
  {
    TokenAfterAt(s, i, "Call-ID:", false)
  }

  /** The magic cookie every RFC 3261 branch parameter starts with (section
      8.1.1.7 of RFC 3261). */
  const BranchCookie := "z9hG4bK"

  /** `branch=(z9hG4bK\S+)`: the cookie and at least one more non-space
      character. */
  function BranchAt(s: string, i: nat): (r: Option<Hit<string>>)
    ensures r.Some? ==> LitAt(s, i, "branch=") && i + 7 + |r.value.value| == r.value.end <= |s|
    ensures r.Some? ==> StartsWith(r.value.value, BranchCookie) && |r.value.value| > |BranchCookie|
    ensures r.Some? ==> OccursAt(s, r.value.value, i + 7)
    ensures r.Some? ==> forall k :: 0 <= k < |r.value.value| ==> !IsSpace(r.value.value[k])
    ensures r.Some? ==> r.value.end == |s| || IsSpace(s[r.value.end])
  {
    if !(LitAt(s, i, "branch=") && LitAt(s, i + 7, BranchCookie)) then None
    else
      var e := RunEnd(s, i + 14, c => !IsSpace(c));
      if e == i + 14 then None
      else
        assert s[i + 7..e][..7] == s[i + 7..i + 14];
        Some(Hit(s[i + 7..e], e))
  }

  /** `^name:\s*(.+)$` with MULTILINE, the routing pass's Via and Route
      patterns: the name at the start of a line, then the rest of that line
      (or, when only whitespace follows the name, the whitespace run gives
      back its last character that is not a newline). */
  function LineHeaderAt(s: string, i: nat, name: string): (r: Option<Hit<string>>)
    ensures r.Some? ==> (i == 0 || (i <= |s| && s[i - 1] == '\n')) && LitAt(s, i, name)
    ensures r.Some? ==> r.value.value != [] && forall k :: 0 <= k < |r.value.value| ==> r.value.value[k] != '\n'
    ensures r.Some? ==> i + |name| + |r.value.value| <= r.value.end <= |s|
    ensures r.Some? ==> Captured(s, r.value)
    ensures r.Some? ==> r.value.end == |s| || s[r.value.end] == '\n'
  {
    if !((i == 0 || (i <= |s| && s[i - 1] == '\n')) && LitAt(s, i, name)) then None
    else
      var j := i + |name|;
      var a := RunEnd(s, j, IsSpace);
      match LastStart(s, j, a, c => c == '\n')
      case None => None
      case Some(p) =>
        var e := RunEnd(s, p, c => c != '\n');
        assert forall k :: 0 <= k < e - p ==> s[p..e][k] == s[p + k];
        Some(Hit(s[p..e], e))
  }

  /** The Via pattern of the routing pass. */
  function ViaAt(s: string, i: nat): Option<Hit<string>>
  {
    LineHeaderAt(s, i, "Via:")
  }

  /** The Route pattern of the routing pass. */
  function RouteAt(s: string, i: nat): Option<Hit<string>>
  {
    LineHeaderAt(s, i, "Route:")
  }
}

=== FILE: text.dfy ===
/** Character classes and string operations with Python's semantics, as the
    parser and the analyzer use them: `str.strip`, `str.lstrip`, `in`,
    slicing, `str.lower`, `str.splitlines`, `" ".join` and `str(int)`. */
module Text {

  /** An ASCII decimal digit: the model's reading of the regex class `\d`. */
  predicate IsDigit(c: char)
  {
    '0' <= c <= '9'
  }

  /** Python whitespace: what `str.isspace`, `str.strip` and the regex class
      `\s` accept (tab to carriage return, the information separators, NEL,
      NBSP and the Unicode space separators). */
  predicate IsSpace(c: char)
  {
    || c == ' '
    || ('\t' <= c <= '\r')
    || ('\U{1c}' <= c <= '\U{1f}')
    || c == '\U{85}'
    || c == '\U{a0}'
    || c == '\U{1680}'
    || ('\U{2000}' <= c <= '\U{200a}')
    || c == '\U{2028}'
    || c == '\U{2029}'
    || c == '\U{202f}'
    || c == '\U{205f}'
    || c == '\U{3000}'
  }

  /** The regex class `\S`. */
  predicate NotSpace(c: char)
  {
    !IsSpace(c)
  }

  /** The line boundaries of `str.splitlines`. */
  predicate IsLineBreak(c: char)
  {
    || ('\n' <= c <= '\r')
    || ('\U{1c}' <= c <= '\U{1e}')
    || c == '\U{85}'
    || c == '\U{2028}'
    || c == '\U{2029}'
  }

  /** The regex class `\w`, restricted to ASCII. */
  predicate IsWordChar(c: char)
  {
    IsDigit(c) || ('a' <= c <= 'z') || ('A' <= c <= 'Z') || c == '_'
  }

  predicate AllDigits(s: string)
  {
    forall i :: 0 <= i < |s| ==> IsDigit(s[i])
  }

  /** ASCII lower-casing of one character. */
  function LowerChar(c: char): char
  {
    if 'A' <= c <= 'Z' then (c as int + 32) as char else c
  }

  /** `s.lower()` on the ASCII letters. Every needle the core looks for
      after lower-casing is ASCII without a `k`, so the non-ASCII letters
      Python would also fold cannot change any of those tests. */
  function Lower(s: string): (r: string)
    ensures |r| == |s|
    ensures forall i :: 0 <= i < |s| ==> r[i] == LowerChar(s[i])
  {
    seq(|s|, i requires 0 <= i < |s| => LowerChar(s[i]))
  }

  /** `s.startswith(p)`. */
  predicate StartsWith(s: string, p: string)
  {
    |p| <= |s| && s[..|p|] == p
  }

  /** `t` occurs in `s` starting at index `i`. */
  predicate OccursAt(s: string, t: string, i: nat)
  {
    i + |t| <= |s| && s[i..i + |t|] == t
  }

  /** Python's `t in s`. */
  predicate Contains(s: string, t: string)
  {
    exists i :: 0 <= i <= |s| && OccursAt(s, t, i)
  }

  /** `s[:n]`. */
  function Take(s: string, n: nat): (r: string)
    ensures |r| <= n && |r| <= |s|
    ensures StartsWith(s, r)
    ensures |s| <= n ==> r == s
    ensures n <= |s| ==> |r| == n
  {
    if n < |s| then s[..n] else s
  }

  /** `s.lstrip()`: the suffix left after dropping leading whitespace. */
  function LStrip(s: string): (r: string)
    ensures |r| <= |s| && r == s[|s| - |r|..]
    ensures r == [] || !IsSpace(r[0])
    ensures forall i :: 0 <= i < |s| - |r| ==> IsSpace(s[i])
  {
    if s != [] && IsSpace(s[0]) then LStrip(s[1..]) else s
  }

  /** `s.rstrip()`: the prefix left after dropping trailing whitespace. */
  function RStrip(s: string): (r: string)
    ensures |r| <= |s| && r == s[..|r|]
    ensures r == [] || !IsSpace(r[|r| - 1])
    ensures forall i :: |r| <= i < |s| ==> IsSpace(s[i])
  {
    if s != [] && IsSpace(s[|s| - 1]) then RStrip(s[..|s| - 1]) else s
  }

  /** A string with no whitespace at either end, as `str.strip` leaves it. */
  predicate IsStripped(s: string)
  {
    s == [] || (!IsSpace(s[0]) && !IsSpace(s[|s| - 1]))
  }

  /** `s.strip()`. */
  function Strip(s: string): (r: string)
    ensures |r| <= |s|
    ensures IsStripped(r)
    ensures IsStripped(s) ==> r == s
  {
    RStrip(LStrip(s))
  }

  /** Stripping leaves nothing exactly when the text is all whitespace. */
  lemma StripBlank(s: string)
    ensures Strip(s) == [] <==> forall i :: 0 <= i < |s| ==> IsSpace(s[i])
  {
  }

  /** `s.lstrip(c)` for a single character `c`. */
  function LStripChar(s: string, c: char): (r: string)
    ensures |r| <= |s| && r == s[|s| - |r|..]
    ensures r == [] || r[0] != c
    ensures forall i :: 0 <= i < |s| - |r| ==> s[i] == c
  {
    if s != [] && s[0] == c then LStripChar(s[1..], c) else s
  }

  /** `sep.join(parts)`. */
  function Join(parts: seq<string>, sep: string): (r: string)
    ensures |parts| == 1 ==> r == parts[0]
    ensures |parts| > 0 ==> StartsWith(r, parts[0])
  {
    if |parts| == 0 then ""
    else if |parts| == 1 then parts[0]
    else parts[0] + sep + Join(parts[1..], sep)
  }

  /** What occurs in a part occurs in any text the part is glued into. */
  lemma ContainsInAppend(a: string, b: string, t: string)
    ensures Contains(a, t) ==> Contains(a + b, t)
    ensures Contains(b, t) ==> Contains(a + b, t)
  {
    if Contains(a, t) {
      var i :| 0 <= i <= |a| && OccursAt(a, t, i);
      assert (a + b)[i..i + |t|] == a[i..i + |t|];
      assert OccursAt(a + b, t, i);
    }
    if Contains(b, t) {
      var i :| 0 <= i <= |b| && OccursAt(b, t, i);
      assert (a + b)[|a| + i..|a| + i + |t|] == b[i..i + |t|];
      assert OccursAt(a + b, t, |a| + i);
    }
  }

  /** Joining one more part appends the separator and the part. */
  lemma {:induction false} JoinSnoc(parts: seq<string>, sep: string, x: string)
    requires parts != []
    ensures Join(parts + [x], sep) == Join(parts, sep) + sep + x
  {
    if |parts| > 1 {
      assert (parts + [x])[1..] == parts[1..] + [x];
      JoinSnoc(parts[1..], sep, x);
    }
  }

  /** Every part of a join occurs in it. */
  lemma {:induction false} JoinContains(parts: seq<string>, sep: string, k: nat)
    requires k < |parts|
    ensures Contains(Join(parts, sep), parts[k])
  {
    if |parts| == 1 {
      assert OccursAt(Join(parts, sep), parts[k], 0);
    } else if k == 0 {
      assert OccursAt(parts[0], parts[0], 0);
      ContainsInAppend(parts[0], sep + Join(parts[1..], sep), parts[0]);
      assert parts[0] + sep + Join(parts[1..], sep) == parts[0] + (sep + Join(parts[1..], sep));
    } else {
      JoinContains(parts[1..], sep, k - 1);
      ContainsInAppend(parts[0] + sep, Join(parts[1..], sep), parts[k]);
    }
  }

  /** A text none of whose characters is `c`. */
  predicate Avoids(s: string, c: char)
  {
    forall k :: 0 <= k < |s| ==> s[k] != c
  }

  /** A join of parts and a separator that avoid `c` avoids it too. */
  lemma {:induction false} JoinAvoids(parts: seq<string>, sep: string, c: char)
    requires forall k :: 0 <= k < |parts| ==> Avoids(parts[k], c)
    requires Avoids(sep, c)
    ensures Avoids(Join(parts, sep), c)
  {
    if |parts| > 1 {
      JoinAvoids(parts[1..], sep, c);
    }
  }

  /** The decimal digit character for `d`. */
  function DigitChar(d: nat): (c: char)
    requires d < 10
    ensures IsDigit(c)
  {
    ((d + '0' as int) as char)
  }

  /** The numeric value of one decimal digit character. */
  function DigitValue(c: char): (d: nat)
    requires IsDigit(c)
    ensures d < 10
  {
    c as int - '0' as int
  }

  /** `str(n)` for a natural number: decimal, no leading zero. */
  function NatToString(n: nat): (r: string)
    ensures |r| >= 1 && AllDigits(r)
    ensures |r| > 1 ==> r[0] != '0'
  {
    if n < 10 then [DigitChar(n)] else NatToString(n / 10) + [DigitChar(n % 10)]
  }

  /** `int(s)` for a string of decimal digits. */
  function DigitsValue(s: string): nat
    requires AllDigits(s)
  {
    if s == [] then 0 else DigitsValue(s[..|s| - 1]) * 10 + DigitValue(s[|s| - 1])
  }

  /** Reading a rendered number back gives the number. */
  lemma {:induction false} NatToStringRoundTrip(n: nat)
    ensures DigitsValue(NatToString(n)) == n
  {
    if n >= 10 {
      NatToStringRoundTrip(n / 10);
      var r := NatToString(n);
      assert r[..|r| - 1] == NatToString(n / 10);
    }
  }

  /** `str(n)` is injective. */
  lemma NatToStringInjective(m: nat, n: nat)
    requires NatToString(m) == NatToString(n)
    ensures m == n
  {
    NatToStringRoundTrip(m);
    NatToStringRoundTrip(n);
  }

  /** Index of the first line boundary at or after `i`, or `|s|`. */
  function LineEnd(s: string, i: nat): (r: nat)
    requires i <= |s|
    ensures i <= r <= |s|
    ensures r == |s| || IsLineBreak(s[r])
    ensures forall k :: i <= k < r ==> !IsLineBreak(s[k])
    decreases |s| - i
  {
    if i == |s| || IsLineBreak(s[i]) then i else LineEnd(s, i + 1)
  }

  /** A string that holds no line boundary. */
  predicate IsOneLine(s: string)
  {
    forall i :: 0 <= i < |s| ==> !IsLineBreak(s[i])
  }

  /** `s.splitlines()`: `\r\n` counts as one boundary, and a final
      boundary does not open an empty last line. */
  function SplitLines(s: string): (r: seq<string>)
    ensures r == [] <==> s == []
    ensures forall k :: 0 <= k < |r| ==> IsOneLine(r[k])
    ensures s != [] ==> r[0] == s[..LineEnd(s, 0)]
    decreases |s|
  {
    if s == [] then []
    else
      var e := LineEnd(s, 0);
      if e == |s| then [s]
      else
        var next := if s[e] == '\r' && e + 1 < |s| && s[e + 1] == '\n' then e + 2 else e + 1;
        [s[..e]] + SplitLines(s[next..])
  }

  /** Every line boundary is whitespace. */
  lemma SpaceCoversLineBreak(c: char)
    ensures IsLineBreak(c) ==> IsSpace(c)
  {
  }
}

=== FILE: timeline.dfy ===
/** `_parse_timeline`: one event per block, carrying the block's timestamp,
    the direction, the method name and a short description built from the
    From, To and Call-ID headers. */
module Timeline {
  import opened Wrappers
  import opened Text
  import opened Scan
  import opened Models
  import opened Classifier
  import opened SipFields

  /** The separator between description parts. */
  const Separator := " | "

  /** `From: n` or `To: n`: numbers shorter than fifteen digits are shown
      with a `+`, longer (IMSI-like) ones bare. */
  function NumberPart(name: string, n: string): string
  {
    if |n| >= 15 then name + ": " + n else name + ": +" + n
  }

  /** The Call-ID part, cut to thirty characters. */
  function CallIdPart(cid: string): string
  {
    "Call-ID: " + Take(cid, 30)
  }

  /** What the description is built from: the From and To numbers and the
      Call-ID the body's headers carry. */
  datatype Headers = Headers(from: Option<string>, to: Option<string>, callId: Option<string>)

  /** The first From, To and Call-ID header of a body. */
  function HeadersOf(body: string): Headers
  {
    Headers(Search(FromAt, body), Search(ToAt, body), Search(CallIdAt, body))
  }

  /** What the header patterns capture: digit strings for the numbers, a
      non-empty token without whitespace for the Call-ID. */
  predicate WellFormed(h: Headers)
  {
    && (h.from.Some? ==> AllDigits(h.from.value))
    && (h.to.Some? ==> AllDigits(h.to.value))
    && (h.callId.Some? ==> h.callId.value != [] && forall k :: 0 <= k < |h.callId.value| ==> !IsSpace(h.callId.value[k]))
  }

  /** The headers of any body are well formed. */
  lemma HeadersOfWellFormed(body: string)
    ensures WellFormed(HeadersOf(body))
  {
  }

  /** The number parts of the description, From before To. */
  function NumberParts(h: Headers): (r: seq<string>)
    ensures |r| <= 2
    ensures r == [] <==> h.from.None? && h.to.None?
  {
    (match h.from case Some(n) => [NumberPart("From", n)] case None => [])
    + (match h.to case Some(n) => [NumberPart("To", n)] case None => [])
  }

  /** All description parts: the numbers, then the Call-ID. */
  function DescriptionParts(h: Headers): (r: seq<string>)
    ensures r == [] <==> h.from.None? && h.to.None? && h.callId.None?
  {
    NumberParts(h) + (match h.callId case Some(c) => [CallIdPart(c)] case None => [])
  }

  /** The event description: the parts joined, or the first line cut to
      120 characters when the body names no number and no Call-ID. */
  function Describe(h: Headers, first: string): string
  {
    var parts := DescriptionParts(h);
    if parts == [] then Take(first, 120) else Join(parts, Separator)
  }

  /** The event of one block. */
  function EventOf(b: Block): (e: TimelineEvent)
    ensures e.timestamp == b.ts && e.raw.None?
  {
    var first := FirstLine(b.body);
    TimelineEvent(b.ts, Direction(b.body), MethodLabel(first), Describe(HeadersOf(b.body), first), None)
  }

  /** `_parse_timeline`: the events in block order. */
  function ParseTimeline(blocks: seq<Block>): (r: seq<TimelineEvent>)
    ensures |r| == |blocks|
    ensures forall k :: 0 <= k < |r| ==> r[k] == EventOf(blocks[k])
  {
    seq(|blocks|, k requires 0 <= k < |blocks| => EventOf(blocks[k]))
  }

  /** A number part shows the whole number. */
  lemma NumberPartContains(name: string, n: string)
    ensures Contains(NumberPart(name, n), n)
  {
    var p := NumberPart(name, n);
    var off := if |n| >= 15 then |name| + 2 else |name| + 3;
    assert p[off..off + |n|] == n;
    assert OccursAt(p, n, off);
  }

  /** The From and To numbers the body carries appear in the description,
      so the analyzer's relevance filter sees them. */
  lemma DescribedNumbers(h: Headers, first: string)
    ensures h.from.Some? ==> Contains(Describe(h, first), h.from.value)
    ensures h.to.Some? ==> Contains(Describe(h, first), h.to.value)
  {
    var parts := DescriptionParts(h);
    var desc := Describe(h, first);
    if h.from.Some? {
      assert parts[0] == NumberPart("From", h.from.value);
      JoinContains(parts, Separator, 0);
      NumberPartContains("From", h.from.value);
      ContainsTransitive(desc, parts[0], h.from.value);
    }
    if h.to.Some? {
      var k := if h.from.Some? then 1 else 0;
      assert parts[k] == NumberPart("To", h.to.value);
      JoinContains(parts, Separator, k);
      NumberPartContains("To", h.to.value);
      ContainsTransitive(desc, parts[k], h.to.value);
    }
  }

  /** Containment is transitive. */
  lemma ContainsTransitive(a: string, b: string, c: string)
    requires Contains(a, b) && Contains(b, c)
    ensures Contains(a, c)
  {
    var i :| 0 <= i <= |a| && OccursAt(a, b, i);
    var j :| 0 <= j <= |b| && OccursAt(b, c, j);
    forall t | 0 <= t < |c| ensures a[i + j + t] == c[t] {
      assert a[i..i + |b|][j + t] == a[i + j + t];
      assert b[j..j + |c|][t] == b[j + t];
    }
    assert a[i + j..i + j + |c|] == c;
    assert OccursAt(a, c, i + j);
  }

  /** A number part holds no `C`, so no Call-ID header can start in it. */
  lemma NumberPartsAvoidC(h: Headers)
    requires WellFormed(h)
    ensures forall k :: 0 <= k < |NumberParts(h)| ==> Avoids(NumberParts(h)[k], 'C')
  {
    var ps := NumberParts(h);
    forall k | 0 <= k < |ps| ensures Avoids(ps[k], 'C') {
      if h.from.Some? && k == 0 {
        NumberPartAvoidsC("From", h.from.value);
      } else {
        NumberPartAvoidsC("To", h.to.value);
      }
    }
  }

  /** `From: +digits` and `To: +digits` hold no `C`. */
  lemma NumberPartAvoidsC(name: string, n: string)
    requires name == "From" || name == "To"
    requires AllDigits(n)
    ensures Avoids(NumberPart(name, n), 'C')
  {
    var p := NumberPart(name, n);
    var off := if |n| >= 15 then |name| + 2 else |name| + 3;
    forall k | 0 <= k < |p| ensures p[k] != 'C' {
      if k >= off {
        assert p[k] == n[k - off];
      }
    }
  }

  /** The timing pass reads back exactly the Call-ID the timeline wrote:
      the case-sensitive `Call-ID:\s*(\S+)` search over the description
      finds the (cut) Call-ID the case-insensitive header search found in
      the body, whatever number parts come before it. */
  lemma DescribedCallIdReads(h: Headers, first: string)
    requires WellFormed(h) && h.callId.Some?
    ensures Search(AnchorCallIdAt, Describe(h, first)) == Some(Take(h.callId.value, 30))
  {
    var c := h.callId.value;
    var t := Take(c, 30);
    var ps := NumberParts(h);
    var desc := Describe(h, first);
    assert DescriptionParts(h) == ps + [CallIdPart(c)];
    var prefix: string;
    if ps == [] {
      prefix := [];
      assert desc == prefix + CallIdPart(c);
    } else {
      JoinSnoc(ps, Separator, CallIdPart(c));
      NumberPartsAvoidC(h);
      JoinAvoids(ps, Separator, 'C');
      prefix := Join(ps, Separator) + Separator;
      assert desc == prefix + CallIdPart(c);
    }
    assert forall k :: 0 <= k < |t| ==> t[k] == c[k];
    CallIdReadsAfter(desc, prefix, t);
  }

  /** Without a Call-ID but with a number, the description holds no `C`
      and the timing pass finds no Call-ID in it. */
  lemma DescribedWithoutCallId(h: Headers, first: string)
    requires WellFormed(h) && h.callId.None?
    requires h.from.Some? || h.to.Some?
    ensures Search(AnchorCallIdAt, Describe(h, first)).None?
  {
    var desc := Describe(h, first);
    var ps := NumberParts(h);
    assert DescriptionParts(h) == ps;
    NumberPartsAvoidC(h);
    JoinAvoids(ps, Separator, 'C');
    forall k | 0 <= k <= |desc| ensures AnchorCallIdAt(desc, k).None? {
      NoCallIdWithoutC(desc, k);
    }
  }

  /** A Call-ID header starts with `C`. */
  lemma NoCallIdWithoutC(s: string, k: nat)
    requires k <= |s| && (k == |s| || s[k] != 'C')
    ensures AnchorCallIdAt(s, k).None?
  {
    LitAtHead(s, k, "Call-ID:");
  }

  /** `Call-ID: t` after a text with no `C` is found by the search. */
  lemma CallIdReadsAfter(s: string, prefix: string, t: string)
    requires s == prefix + ("Call-ID: " + t)
    requires Avoids(prefix, 'C')
    requires t != [] && forall k :: 0 <= k < |t| ==> !IsSpace(t[k])
    ensures Search(AnchorCallIdAt, s) == Some(t)
  {
    var p := |prefix|;
    forall k | 0 <= k < p ensures AnchorCallIdAt(s, k).None? {
      assert s[k] == prefix[k];
      NoCallIdWithoutC(s, k);
    }
    assert s[p..] == "Call-ID: " + t;
    CallIdTokenAt(s, p, t);
    SearchFindsFirst(AnchorCallIdAt, s, p, Hit(t, |s|));
  }

  /** `Call-ID: t` at the end of the text is read as `t`. */
  lemma CallIdTokenAt(s: string, p: nat, t: string)
    requires p <= |s| && s[p..] == "Call-ID: " + t
    requires t != [] && forall k :: 0 <= k < |t| ==> !IsSpace(t[k])
    ensures AnchorCallIdAt(s, p) == Some(Hit(t, |s|))
  {
    assert LitAt(s, p, "Call-ID:") by { assert s[p..p + 8] == s[p..][..8]; }
    assert s[p + 8] == ' ' by { assert s[p..][8] == ' '; }
    assert s[p + 9] == t[0] by { assert s[p..][9] == t[0]; }
    assert !IsSpace(s[p + 9]);
    RunEndStopsAt(s, p + 8, p + 9, IsSpace);
    forall k | p + 9 <= k < |s| ensures NotSpace(s[k]) {
      assert s[k] == s[p..][k - p] == t[k - p - 9];
    }
    RunEndStopsAt(s, p + 9, |s|, NotSpace);
    assert s[p + 9..] == t by { assert s[p + 9..] == s[p..][9..]; }
    assert TokenAfterAt(s, p, "Call-ID:", false) == Some(Hit(s[p + 9..|s|], |s|));
    assert AnchorCallIdAt(s, p) == TokenAfterAt(s, p, "Call-ID:", false);
    assert s[p + 9..|s|] == t;
  }
}

=== FILE: timestamps.dfy ===
/** `_ts`: `datetime.strptime(s, "%Y-%m-%d_%H:%M:%S.%f")`, or `None` when
    the text does not parse. A parsed timestamp is represented by its
    microseconds since 0001-01-01 00:00:00 of the proleptic Gregorian
    calendar, so the difference of two parsed timestamps is the
    `timedelta` between them. */
module Timestamps {
  import opened Wrappers
  import opened Text
  import BlockSplitter

  /** The seven fields of a parsed timestamp. */
  datatype Fields = Fields(year: nat, month: nat, day: nat, hour: nat, minute: nat, second: nat, micro: nat)

  predicate IsLeap(y: nat)
  {
    y % 4 == 0 && (y % 100 != 0 || y % 400 == 0)
  }

  function DaysIn(y: nat, m: nat): (r: nat)
    requires 1 <= m <= 12
    ensures 28 <= r <= 31
  {
    if m == 2 then (if IsLeap(y) then 29 else 28)
    else if m == 4 || m == 6 || m == 9 || m == 11 then 30
    else 31
  }

  function YearLength(y: nat): nat
  {
    if IsLeap(y) then 366 else 365
  }

  /** What `datetime` accepts: years 1 to 9999, real calendar days, and no
      leap second. */
  predicate Valid(f: Fields)
  {
    && 1 <= f.year <= 9999
    && 1 <= f.month <= 12
    && 1 <= f.day <= DaysIn(f.year, f.month)
    && f.hour < 24 && f.minute < 60 && f.second < 60
    && f.micro < 1000000
  }

  /** The value of a character the shape check has found to be a digit. */
  function Val(c: char): nat
  {
    if IsDigit(c) then DigitValue(c) else 0
  }

  function Two(s: string, i: nat): nat
    requires i + 2 <= |s|
  {
    Val(s[i]) * 10 + Val(s[i + 1])
  }

  function Pow10(n: nat): (r: nat)
    ensures r >= 1
  {
    if n == 0 then 1 else 10 * Pow10(n - 1)
  }

  /** A digit string is below ten to the power of its length. */
  lemma {:induction false} DigitsValueBound(s: string)
    requires AllDigits(s)
    ensures DigitsValue(s) < Pow10(|s|)
  {
    if s != [] {
      var init := s[..|s| - 1];
      assert AllDigits(init) by { assert forall k :: 0 <= k < |init| ==> init[k] == s[k]; }
      DigitsValueBound(init);
    }
  }

  /** The fields the format reads: four-digit year, two-digit month, day,
      hour, minute and second, and one to six fraction digits, which `%f`
      pads on the right to microseconds. More fraction digits leave text
      unconverted, which is an error. */
  function FieldsOf(s: string): (r: Option<Fields>)
    ensures r.Some? <==> 21 <= |s| <= 26 && BlockSplitter.TsShape(s[..20]) && AllDigits(s[20..])
    ensures r.Some? ==> r.value.micro < 1000000 && r.value.month < 100 && r.value.second < 100
  {
    if 21 <= |s| <= 26 && BlockSplitter.TsShape(s[..20]) && AllDigits(s[20..]) then
      var frac := s[20..];
      DigitsValueBound(frac);
      assert Pow10(6) == 1000000;
      PadBound(DigitsValue(frac), |frac|);
      Some(Fields(
        Two(s, 0) * 100 + Two(s, 2), Two(s, 5), Two(s, 8),
        Two(s, 11), Two(s, 14), Two(s, 17),
        DigitsValue(frac) * Pow10(6 - |frac|)))
    else None
  }

  /** A fraction of `n` digits padded to six stays below a million. */
  lemma PadBound(v: nat, n: nat)
    requires 1 <= n <= 6 && v < Pow10(n)
    ensures v * Pow10(6 - n) < 1000000
  {
    var p := Pow10(6 - n);
    assert Pow10(n) * p == 1000000 by { Pow10Add(n, 6 - n); }
    assert v * p < Pow10(n) * p by { MulStrict(v, Pow10(n), p); }
  }

  lemma {:induction false} Pow10Add(a: nat, b: nat)
    ensures Pow10(a) * Pow10(b) == Pow10(a + b)
  {
    if a > 0 {
      Pow10Add(a - 1, b);
      assert Pow10(a) * Pow10(b) == 10 * (Pow10(a - 1) * Pow10(b));
    }
  }

  lemma MulStrict(a: nat, b: nat, p: nat)
    requires a < b && p >= 1
    ensures a * p < b * p
  {
    assert b * p == a * p + (b - a) * p;
  }

  /** Days from 0001-01-01 to the first of January of year `y`. */
  function DaysBeforeYear(y: nat): nat
  {
    if y <= 1 then 0 else DaysBeforeYear(y - 1) + YearLength(y - 1)
  }

  /** Days from the first of January to the first of month `m`. */
  function DaysBeforeMonth(y: nat, m: nat): nat
    requires 1 <= m <= 13
  {
    if m == 1 then 0 else DaysBeforeMonth(y, m - 1) + DaysIn(y, m - 1)
  }

  /** The day's number counted from 0001-01-01, which is day 0. */
  function DayNumber(f: Fields): nat
    requires Valid(f)
  {
    DaysBeforeYear(f.year) + DaysBeforeMonth(f.year, f.month) + f.day - 1
  }

  const MicrosPerDay := 86400000000

  /** Microseconds since midnight. */
  function TimeOfDay(f: Fields): (r: nat)
    requires Valid(f)
    ensures r < MicrosPerDay
  {
    ((f.hour * 60 + f.minute) * 60 + f.second) * 1000000 + f.micro
  }

  function Micros(f: Fields): nat
    requires Valid(f)
  {
    DayNumber(f) * MicrosPerDay + TimeOfDay(f)
  }

  /** `_ts`: the instant, or `None` when the text does not parse. */
  function Ts(s: string): (r: Option<int>)
    ensures r.Some? <==> FieldsOf(s).Some? && Valid(FieldsOf(s).value)
    ensures r.Some? ==> r.value >= 0
  {
    match FieldsOf(s)
    case None => None
    case Some(f) => if Valid(f) then Some(Micros(f)) else None
  }

  /** Field-by-field chronological order. */
  predicate Earlier(f: Fields, g: Fields)
  {
    || f.year < g.year
    || (f.year == g.year && f.month < g.month)
    || (f.year == g.year && f.month == g.month && f.day < g.day)
    || (f.year == g.year && f.month == g.month && f.day == g.day && TimeEarlier(f, g))
  }

  predicate TimeEarlier(f: Fields, g: Fields)
  {
    || f.hour < g.hour
    || (f.hour == g.hour && f.minute < g.minute)
    || (f.hour == g.hour && f.minute == g.minute && f.second < g.second)
    || (f.hour == g.hour && f.minute == g.minute && f.second == g.second && f.micro < g.micro)
  }

  /** The months of a year fill the year exactly. */
  lemma MonthsFillYear(y: nat)
    ensures DaysBeforeMonth(y, 13) == YearLength(y)
  {
    var feb := DaysIn(y, 2);
    assert DaysBeforeMonth(y, 2) == 31;
    assert DaysBeforeMonth(y, 3) == 31 + feb;
    assert DaysBeforeMonth(y, 4) == 62 + feb;
    assert DaysBeforeMonth(y, 5) == 92 + feb;
    assert DaysBeforeMonth(y, 6) == 123 + feb;
    assert DaysBeforeMonth(y, 7) == 153 + feb;
    assert DaysBeforeMonth(y, 8) == 184 + feb;
    assert DaysBeforeMonth(y, 9) == 215 + feb;
    assert DaysBeforeMonth(y, 10) == 245 + feb;
    assert DaysBeforeMonth(y, 11) == 276 + feb;
    assert DaysBeforeMonth(y, 12) == 306 + feb;
  }

  /** A later month of the same year starts at least a month later. */
  lemma {:induction false} MonthsMonotone(y: nat, m: nat, n: nat)
    requires 1 <= m < n <= 13
    ensures DaysBeforeMonth(y, m) + DaysIn(y, m) <= DaysBeforeMonth(y, n)
    decreases n - m
  {
    if m + 1 < n {
      MonthsMonotone(y, m + 1, n);
    }
  }

  /** A later year starts at least a year later. */
  lemma {:induction false} YearsMonotone(y: nat, z: nat)
    requires 1 <= y < z
    ensures DaysBeforeYear(y) + YearLength(y) <= DaysBeforeYear(z)
    decreases z - y
  {
    if y + 1 < z {
      YearsMonotone(y + 1, z);
    }
  }

  /** Earlier calendar days have smaller day numbers. */
  lemma DayNumberOrder(f: Fields, g: Fields)
    requires Valid(f) && Valid(g)
    requires || f.year < g.year
             || (f.year == g.year && f.month < g.month)
             || (f.year == g.year && f.month == g.month && f.day < g.day)
    ensures DayNumber(f) < DayNumber(g)
  {
    if f.year < g.year {
      MonthsMonotone(f.year, f.month, 13);
      MonthsFillYear(f.year);
      YearsMonotone(f.year, g.year);
    } else if f.month < g.month {
      MonthsMonotone(f.year, f.month, g.month);
    }
  }

  /** Day numbers dominate the time of day. */
  lemma DayDominates(d: nat, e: nat, a: nat, b: nat)
    requires d < e && a < MicrosPerDay
    ensures d * MicrosPerDay + a < e * MicrosPerDay + b
  {
    assert (d + 1) * MicrosPerDay <= e * MicrosPerDay;
  }

  /** Earlier fields give a smaller instant. */
  lemma MicrosOrder(f: Fields, g: Fields)
    requires Valid(f) && Valid(g) && Earlier(f, g)
    ensures Micros(f) < Micros(g)
  {
    if f.year == g.year && f.month == g.month && f.day == g.day {
      assert DayNumber(f) == DayNumber(g);
    } else {
      DayNumberOrder(f, g);
      DayDominates(DayNumber(f), DayNumber(g), TimeOfDay(f), TimeOfDay(g));
    }
  }

  /** Parsed instants are ordered exactly as their fields: `pgw_ts <= bye_ts`
      compares the calendar readings of the two log lines. */
  lemma TsOrder(s: string, t: string)
    requires Ts(s).Some? && Ts(t).Some?
    ensures Ts(s).value < Ts(t).value <==> Earlier(FieldsOf(s).value, FieldsOf(t).value)
    ensures Ts(s).value == Ts(t).value <==> FieldsOf(s).value == FieldsOf(t).value
  {
    var f, g := FieldsOf(s).value, FieldsOf(t).value;
    if Earlier(f, g) {
      MicrosOrder(f, g);
    } else if Earlier(g, f) {
      MicrosOrder(g, f);
    } else {
      assert f == g;
    }
  }
}

=== FILE: timing.dfy ===
/** `_timing`: the call's milestones read from the (filtered) timeline. The
    first INVITE event anchors the call: its Call-ID, when its description
    shows one, excludes the events of other calls, and its timestamp is the
    INVITE time. Each milestone is the first parsable event of the call that
    marks it, and the three spans are formatted from those. */
module Timing {
  import opened Wrappers
  import opened Text
  import opened Scan
  import opened Seqs
  import opened Models
  import opened SipFields
  import opened Timestamps
  import opened Durations

  /** The Call-ID a description shows, as `Call-ID:\s*(\S+)` finds it. */
  function CallIdOf(ev: TimelineEvent): Option<string>
  {
    Search(AnchorCallIdAt, ev.description)
  }

  /** An event with what both loops read from it: its parsed time and the
      Call-ID of its description. */
  datatype Reading = Reading(ev: TimelineEvent, time: Option<int>, callId: Option<string>)

  function Read(tl: seq<TimelineEvent>): (r: seq<Reading>)
    ensures |r| == |tl|
    ensures forall k :: 0 <= k < |tl| ==> r[k] == Reading(tl[k], Ts(tl[k].timestamp), CallIdOf(tl[k]))
  {
    seq(|tl|, k requires 0 <= k < |tl| => Reading(tl[k], Ts(tl[k].timestamp), CallIdOf(tl[k])))
  }

  predicate IsInvite(x: Reading)
  {
    x.ev.sipMethod == "INVITE"
  }

  /** What the first loop finds: the first INVITE's Call-ID and time. */
  datatype Anchor = Anchor(callId: Option<string>, invite: Option<int>)

  function AnchorOf(xs: seq<Reading>): (a: Anchor)
    ensures FirstIndex(xs, IsInvite).None? ==> a == Anchor(None, None)
  {
    match FirstIndex(xs, IsInvite)
    case None => Anchor(None, None)
    case Some(i) => Anchor(xs[i].callId, xs[i].time)
  }

  /** An event belongs to the anchored call unless it shows a different
      Call-ID. */
  predicate InCall(anchor: Option<string>, x: Reading)
  {
    anchor.None? || x.callId.None? || x.callId == anchor
  }

  datatype Milestone = Invited | Ringing | Answered | HungUp

  /** The event kinds of the milestones. An answer needs a `200` method
      and the word `INVITE` somewhere in the description. */
  predicate Marks(k: Milestone, x: Reading)
  {
    match k
    case Invited => IsInvite(x)
    case Ringing => Contains(x.ev.sipMethod, "180")
    case Answered => StartsWith(x.ev.sipMethod, "200") && Contains(x.ev.description, "INVITE")
    case HungUp => x.ev.sipMethod == "BYE"
  }

  /** The four milestone times. */
  datatype Times = Times(invite: Option<int>, ring: Option<int>, answer: Option<int>, bye: Option<int>)

  function Get(t: Times, k: Milestone): Option<int>
  {
    match k
    case Invited => t.invite
    case Ringing => t.ring
    case Answered => t.answer
    case HungUp => t.bye
  }

  /** A milestone once set is never moved. */
  function Update(cur: Option<int>, hit: bool, time: int): Option<int>
  {
    if cur.None? && hit then Some(time) else cur
  }

  /** One iteration of the second loop. */
  function Step(t: Times, anchor: Option<string>, x: Reading): Times
  {
    match x.time
    case None => t
    case Some(time) =>
      if !InCall(anchor, x) then t
      else
        Times(
          Update(t.invite, Marks(Invited, x), time),
          Update(t.ring, Marks(Ringing, x), time),
          Update(t.answer, Marks(Answered, x), time),
          Update(t.bye, Marks(HungUp, x), time))
  }

  /** The second loop over the timeline. */
  function Walk(xs: seq<Reading>, anchor: Option<string>, start: Times): Times
  {
    if xs == [] then start
    else Step(Walk(xs[..|xs| - 1], anchor, start), anchor, xs[|xs| - 1])
  }

  // The reference: each milestone is the first event of the call marking it.

  predicate Qualifies(anchor: Option<string>, k: Milestone, x: Reading)
  {
    x.time.Some? && InCall(anchor, x) && Marks(k, x)
  }

  function QualifiesFor(anchor: Option<string>, k: Milestone): Reading -> bool
  {
    x => Qualifies(anchor, k, x)
  }

  /** The time of the first event of the call that marks `k`. */
  function FirstTime(xs: seq<Reading>, anchor: Option<string>, k: Milestone): (r: Option<int>)
    ensures r.None? <==> forall j :: 0 <= j < |xs| ==> !Qualifies(anchor, k, xs[j])
  {
    match FirstIndex(xs, QualifiesFor(anchor, k))
    case None => None
    case Some(i) => xs[i].time
  }

  /** One step of the loop sets a milestone only if it is unset and the
      event qualifies. */
  lemma StepField(t: Times, anchor: Option<string>, x: Reading, k: Milestone)
    ensures Get(Step(t, anchor, x), k) ==
            if Get(t, k).None? && Qualifies(anchor, k, x) then x.time else Get(t, k)
  {
  }

  /** The loop keeps a preset milestone and otherwise finds the first
      qualifying event. */
  lemma {:induction false} WalkField(xs: seq<Reading>, anchor: Option<string>, start: Times, k: Milestone)
    ensures Get(Walk(xs, anchor, start), k) ==
            if Get(start, k).Some? then Get(start, k) else FirstTime(xs, anchor, k)
  {
    if xs != [] {
      var init := xs[..|xs| - 1];
      var x := xs[|xs| - 1];
      WalkField(init, anchor, start, k);
      StepField(Walk(init, anchor, start), anchor, x, k);
      assert xs == init + [x];
      FirstIndexSnoc(init, x, QualifiesFor(anchor, k));
    }
  }

  /** Both loops together. */
  function Milestones(tl: seq<TimelineEvent>): Times
  {
    var xs := Read(tl);
    var a := AnchorOf(xs);
    Walk(xs, a.callId, Times(a.invite, None, None, None))
  }

  /** Every milestone, the INVITE included, is the first event of the
      anchored call that marks it: the anchoring INVITE is its own call's
      first INVITE, so presetting its time changes nothing. */
  lemma MilestoneIsFirst(xs: seq<Reading>, k: Milestone)
    ensures var a := AnchorOf(xs);
            Get(Walk(xs, a.callId, Times(a.invite, None, None, None)), k) == FirstTime(xs, a.callId, k)
  {
    var a := AnchorOf(xs);
    WalkField(xs, a.callId, Times(a.invite, None, None, None), k);
    if k == Invited && a.invite.Some? {
      var i := FirstIndex(xs, IsInvite).value;
      assert Qualifies(a.callId, Invited, xs[i]);
      assert forall j :: 0 <= j < i ==> !Qualifies(a.callId, Invited, xs[j]);
      assert FirstIndex(xs, QualifiesFor(a.callId, Invited)) == Some(i);
    }
  }

  /** The loops' milestones are the first qualifying events. */
  lemma WalkSpec(xs: seq<Reading>)
    ensures var a := AnchorOf(xs);
            Walk(xs, a.callId, Times(a.invite, None, None, None)) ==
            Times(FirstTime(xs, a.callId, Invited), FirstTime(xs, a.callId, Ringing),
                  FirstTime(xs, a.callId, Answered), FirstTime(xs, a.callId, HungUp))
  {
    MilestoneIsFirst(xs, Invited);
    MilestoneIsFirst(xs, Ringing);
    MilestoneIsFirst(xs, Answered);
    MilestoneIsFirst(xs, HungUp);
  }

  /** A span between two milestones, when both are known. */
  function Span(later: Option<int>, earlier: Option<int>): (r: Option<int>)
    ensures r.Some? <==> later.Some? && earlier.Some?
  {
    if later.Some? && earlier.Some? then Some(later.value - earlier.value) else None
  }

  /** The three spans `_timing` measures, in microseconds: answer to
      hang-up, INVITE to answer, INVITE to ringing. */
  datatype Raw = Raw(callDuration: Option<int>, answerTime: Option<int>, ringTime: Option<int>)

  /** The three strings `_timing` returns. */
  datatype Spans = Spans(callDuration: Option<string>, answerTime: Option<string>, ringTime: Option<string>)

  /** The spans of a timeline, before formatting. */
  function RawOf(tl: seq<TimelineEvent>): Raw
  {
    var t := Milestones(tl);
    Raw(Span(t.bye, t.answer), Span(t.answer, t.invite), Span(t.ring, t.invite))
  }

  /** `_timing` with its formatter `fmt` given: the source passes its own
      `fmt`, `FmtAsWritten`. */
  function TimingOf(tl: seq<TimelineEvent>, fmt: Option<int> -> Option<string>): Spans
  {
    var raw := RawOf(tl);
    Spans(fmt(raw.callDuration), fmt(raw.answerTime), fmt(raw.ringTime))
  }

  /** The spans in terms of the first events of the call: call duration
      from answer to hang-up, answer time and ring time from the INVITE. */
  lemma RawSpec(tl: seq<TimelineEvent>)
    ensures var xs := Read(tl);
            var c := AnchorOf(xs).callId;
            RawOf(tl) == Raw(
              Span(FirstTime(xs, c, HungUp), FirstTime(xs, c, Answered)),
              Span(FirstTime(xs, c, Answered), FirstTime(xs, c, Invited)),
              Span(FirstTime(xs, c, Ringing), FirstTime(xs, c, Invited)))
  {
    WalkSpec(Read(tl));
  }

  /** The displayed spans, for any formatter: each is the formatted span
      between the first events of the call that mark its two ends. */
  lemma TimingSpec(tl: seq<TimelineEvent>, fmt: Option<int> -> Option<string>)
    ensures var xs := Read(tl);
            var c := AnchorOf(xs).callId;
            TimingOf(tl, fmt) == Spans(
              fmt(Span(FirstTime(xs, c, HungUp), FirstTime(xs, c, Answered))),
              fmt(Span(FirstTime(xs, c, Answered), FirstTime(xs, c, Invited))),
              fmt(Span(FirstTime(xs, c, Ringing), FirstTime(xs, c, Invited))))
  {
    RawSpec(tl);
  }

  /** Without the word `INVITE` in any description there is no answer,
      hence neither a call duration nor an answer time, under either
      display. */
  lemma NoAnswerWithoutInviteText(tl: seq<TimelineEvent>)
    requires forall j :: 0 <= j < |tl| ==> !Contains(tl[j].description, "INVITE")
    ensures RawOf(tl).callDuration.None? && RawOf(tl).answerTime.None?
    ensures TimingOf(tl, FmtAsWritten).callDuration.None? && TimingOf(tl, FmtAsWritten).answerTime.None?
    ensures TimingOf(tl, Fmt).callDuration.None? && TimingOf(tl, Fmt).answerTime.None?
  {
    var xs := Read(tl);
    assert FirstTime(xs, AnchorOf(xs).callId, Answered).None?;
    WalkSpec(xs);
  }
}

=== FILE: wrappers.dfy ===
/** Failure-compatible wrappers used throughout the model: `Option` for Python's
    `None`-or-value results and `Result` for an operation that can raise. */
module Wrappers {

  /** A value that may be absent, as a Python `Optional[...]`. */
  datatype Option<+T> = None | Some(value: T)
  {
    /** The wrapped value, or `default` when absent. */
    function GetOr(default: T): T
    {
      match this
      case Some(v) => v
      case None => default
    }
  }

  /** A Python value that counts as true in a test: present and not
      empty. */
  predicate Truthy<T>(v: Option<seq<T>>)
  {
    v.Some? && v.value != []
  }

  /** The outcome of a computation that either returns a value or raises. */
  datatype Result<+R, +E> = Success(value: R) | Failure(error: E)
}
